=== FILE: README.md ===
# VNLauncherZero core, modelled in Dafny

VNLauncherZero is a macOS launcher for Windows visual-novel games that run
under Wine. This project models its decision logic as pure Dafny functions,
methods and lemmas:

- **GameScanner** scores and ranks the executables in a game folder and
  counts engine fingerprints. It also classifies the engine and writes the
  advisory notes.
- **RuntimeInstaller** picks an installer asset from a release manifest. It
  also names the downloaded file without collisions and maps each failure to
  its error.
- **RuntimeManager** resolves the Wine binary, the Wine app and XQuartz,
  first match wins. It detects Rosetta and the quarantine flag, infers an app
  bundle from a binary path, and assembles the fixed four-item runtime
  report.
- **GameLauncher** runs the ordered configuration checks and creates the
  prefix and logs directories. It names the log file, writes its header,
  chooses the locale and builds the process request.
- **AppStore** models the saved-game list and its selection. Its operations
  are add, remove, rename, update the selected game and apply a scan result.
  It also derives slugs for default prefix directories and untitled names.
- **Models** holds the shared value types: engines and their raw values,
  candidates, subtitles, component states and the empty report.

The other modules are shared helpers:

- **Wrappers** and **Collections** provide `Option`/`Result` and first-match
  search.
- **Text** models lower-casing, `contains`, trimming, splitting into runs and
  joining.
- **Paths** models path components, last component and path extension.
- **GameEntries** is the saved game configuration the launcher and the store
  work on.

The outside world enters as facts, never as actions:

- The directory enumerator is the list of entries it yields.
- The file system is the sets of existing, executable and uncreatable paths.
- Each shell command is represented by the text it prints.
- Each HTTP request is represented by its outcome.
- The clock and fresh UUIDs are parameters.
- The launcher returns the list of effects it would perform, in order, ending
  in a spawn request.

## Model

| member | source | states |
|---|---|---|
| GameScanner.Tokenize | VNLauncherZero/Sources/GameScanner.swift:78-80 | every token is a non-empty run made only of letters and digits |
| GameScanner.TokenizeSpec | VNLauncherZero/Sources/GameScanner.swift:78-80 | a character that is neither letter nor digit splits the token list in two; a word of letters and digits is exactly one token; empty text has none |
| GameScanner.ScoreExecutable | VNLauncherZero/Sources/GameScanner.swift:82-136 | the score and reasons are the sum and the concatenation, in rule order, of the individual rules: exact match, shared tokens, strong keywords, every matching penalty, the `_config` suffix; the neutral reason appears only when no rule fires |
| GameScanner.ApplyPositiveKeywords | VNLauncherZero/Sources/GameScanner.swift:101-105 | the loop adds 10 points and one reason for each of the keywords the bare name contains, in keyword order |
| GameScanner.ApplyNegativeKeywords | VNLauncherZero/Sources/GameScanner.swift:107-125 | the loop adds the delta and the note of every rule whose key the bare name contains, in table order |
| GameScanner.ExactMatchWorth120 | VNLauncherZero/Sources/GameScanner.swift:89-92 | a bare name equal to the folder name scores exactly 120 more than against any other folder name with the same tokens |
| GameScanner.OverlapWorth25PerToken | VNLauncherZero/Sources/GameScanner.swift:94-99 | sharing tokens with the folder is worth 25 points per distinct shared token |
| GameScanner.KeywordNotesEmpty | VNLauncherZero/Sources/GameScanner.swift:101-105 | no positive reason is recorded exactly when the bare name contains none of the keywords |
| GameScanner.PenaltyNotesEmpty | VNLauncherZero/Sources/GameScanner.swift:122-125 | no penalty note is recorded exactly when no rule's key occurs in the bare name |
| GameScanner.NeutralReasonIffNoRuleFires | VNLauncherZero/Sources/GameScanner.swift:132-135 | the fired reasons are empty exactly when no rule applies; then the reasons are the single neutral reason, otherwise the fired ones; the reason list is never empty |
| GameScanner.PenaltiesStack | VNLauncherZero/Sources/GameScanner.swift:107-125 | every matching negative keyword applies in full: the total penalty is at most the delta of any single matching keyword |
| GameScanner.PenaltySumDecreasing | VNLauncherZero/Sources/GameScanner.swift:122-125 | over a table of penalties, each further rule can only lower the running total |
| GameScanner.ThreeMatches | VNLauncherZero/Sources/GameScanner.swift:122-125 | when the first three keys all occur, their three deltas all count |
| GameScanner.CracktroStacks | VNLauncherZero/Sources/GameScanner.swift:107-125 | a name containing "cracktro" also matches "crack" and "tro", so it is penalised by at least 140 + 80 + 200 |
| GameScanner.BeforeTransitive | VNLauncherZero/Sources/GameScanner.swift:46-49 | the candidate order (higher score, then case-insensitive name) is transitive |
| GameScanner.BeforeIrreflexive | VNLauncherZero/Sources/GameScanner.swift:46-49 | no candidate sorts before itself |
| GameScanner.Insert | VNLauncherZero/Sources/GameScanner.swift:46-49 | inserting one candidate adds exactly that candidate and keeps a sorted list sorted |
| GameScanner.SortCandidates | VNLauncherZero/Sources/GameScanner.swift:46-49 | the ranking is a permutation of the candidates in which no candidate is followed by one that should precede it |
| GameScanner.SortedOrder | VNLauncherZero/Sources/GameScanner.swift:46-49 | in the ranking scores never rise, and equal scores appear in ascending case-insensitive file-name order |
| GameScanner.ClassifyEngine | VNLauncherZero/Sources/GameScanner.swift:51-56 | KiriKiri exactly when there are at least three `.xp3` files; otherwise Ren'Py exactly when a Ren'Py marker was seen, then Unity, then unknown |
| GameScanner.BuildNotes | VNLauncherZero/Sources/GameScanner.swift:58-66 | the notes are never empty: the two KiriKiri advisories only for KiriKiri, and last either the first candidate's file name or the no-executable note |
| GameScanner.SkippedDirsIff | VNLauncherZero/Sources/GameScanner.swift:24-27 | a directory's descendants are skipped exactly when the directory was reached and lies more than two levels below the folder |
| GameScanner.ShallowEntriesReached | VNLauncherZero/Sources/GameScanner.swift:24-27 | entries at most three levels down are always visited |
| GameScanner.DeepDirectoryContentsSkipped | VNLauncherZero/Sources/GameScanner.swift:24-27 | nothing inside a reached directory deeper than two levels is visited or examined as a file |
| GameScanner.WalkStep | VNLauncherZero/Sources/GameScanner.swift:22-30 | each entry adds itself to the examined files exactly when it is a reached regular file, and to the skipped directories exactly when it is a reached deep directory |
| GameScanner.AppendOneFile | VNLauncherZero/Sources/GameScanner.swift:32-40 | one more file raises the `.xp3` count by one exactly for an `.xp3`, sets a marker flag exactly for its marker names, and adds an executable exactly for an `.exe` |
| GameScanner.CandidatesForSnoc | VNLauncherZero/Sources/GameScanner.swift:41-43 | one more executable appends exactly its own candidate |
| GameScanner.ExamineFile | VNLauncherZero/Sources/GameScanner.swift:32-43 | examining one file extends every running summary as if that file had been in the list from the start |
| GameScanner.VisitEntry | VNLauncherZero/Sources/GameScanner.swift:22-43 | one step of the enumeration keeps the skipped directories and every summary equal to their definitions over the entries seen so far |
| GameScanner.Walk | VNLauncherZero/Sources/GameScanner.swift:22-44 | the loop's count, marker flags and candidates are those of exactly the regular files the depth rule lets through, in enumeration order |
| GameScanner.Scan | VNLauncherZero/Sources/GameScanner.swift:4-76 | the result carries the folder, the `.xp3` count of the reached files, the engine classified from those files, the ranked candidates, the first candidate's path as the recommendation (none exactly when there are no candidates) and the notes |
| RuntimeInstaller.InstallerNameIff | VNLauncherZero/Sources/RuntimeInstaller.swift:167-170 | a name is an installer exactly when its last four characters, lower-cased, are ".pkg" or ".dmg" |
| RuntimeInstaller.PreferredKeywords | VNLauncherZero/Sources/RuntimeInstaller.swift:139-148 | an architecture hint containing "arm" in any case prefers arm64, apple, silicon, universal; any other prefers x86_64, intel, universal |
| RuntimeInstaller.FirstByKeywords | VNLauncherZero/Sources/RuntimeInstaller.swift:150-155 | the keyword loop always returns one of the installers |
| RuntimeInstaller.ChooseWineAsset | VNLauncherZero/Sources/RuntimeInstaller.swift:138-156 | none exactly when no asset is a Wine installer; otherwise a Wine installer from the manifest |
| RuntimeInstaller.FirstByKeywordsAt | VNLauncherZero/Sources/RuntimeInstaller.swift:150-154 | when keyword m is the earliest any installer names, the loop returns the first installer naming it |
| RuntimeInstaller.WineKeywordPriority | VNLauncherZero/Sources/RuntimeInstaller.swift:143-154 | the choice is the first Wine installer, in manifest order, naming the earliest preferred keyword that any Wine installer names |
| RuntimeInstaller.WineFallsBackToFirst | VNLauncherZero/Sources/RuntimeInstaller.swift:150-155 | when no Wine installer names a preferred keyword, the first Wine installer is chosen |
| RuntimeInstaller.ChooseXQuartzAsset | VNLauncherZero/Sources/RuntimeInstaller.swift:158-161 | the first XQuartz installer when there is one, else the first installer of any kind; none exactly when the manifest lists no installer |
| RuntimeInstaller.ChooseGenericInstallerAsset | VNLauncherZero/Sources/RuntimeInstaller.swift:163-165 | the first installer in manifest order; none exactly when there is no installer |
| RuntimeInstaller.ChooseAssetNoneIff | VNLauncherZero/Sources/RuntimeInstaller.swift:59-71 | with the generic fallback, no asset is found for either target exactly when the manifest lists no `.pkg` or `.dmg`; a found asset is an installer from the manifest |
| RuntimeInstaller.SanitizeFileName | VNLauncherZero/Sources/RuntimeInstaller.swift:172-174 | same length, no "/", and every other character kept in place |
| RuntimeInstaller.SanitizeIdempotent | VNLauncherZero/Sources/RuntimeInstaller.swift:172-174 | sanitising twice changes nothing more, and a name without "/" is left as it is |
| RuntimeInstaller.PreferredName | VNLauncherZero/Sources/RuntimeInstaller.swift:122-126 | never empty: the sanitised name, or "<prefix>-Installer.pkg" when that is empty |
| RuntimeInstaller.NumberedInjective | VNLauncherZero/Sources/RuntimeInstaller.swift:180-185 | distinct counters give distinct "base-i.ext" names |
| RuntimeInstaller.UniqueDestinationName | VNLauncherZero/Sources/RuntimeInstaller.swift:176-189 | the result is never taken; it is the preferred name when that is free, otherwise "base-i.ext" for the smallest free i from 2 |
| RuntimeInstaller.ManifestStatusErrorAsWritten | VNLauncherZero/Sources/RuntimeInstaller.swift:86-94 | as written, a refused manifest response surfaces as a download failure |
| RuntimeInstaller.ManifestStatusError | VNLauncherZero/Sources/RuntimeInstaller.swift:88-89 | a refused manifest response reports the release-fetch message |
| RuntimeInstaller.ManifestStatusRewrapped | VNLauncherZero/Sources/RuntimeInstaller.swift:86-94 | the error as written differs from the intended one, and its message is the download prefix followed by the release-fetch message |
| RuntimeInstaller.FetchLatestReleaseAsWritten | VNLauncherZero/Sources/RuntimeInstaller.swift:78-102 | as written: success exactly for an accepted, decodable response; a transport error or a refused status becomes a download failure |
| RuntimeInstaller.FetchLatestRelease | VNLauncherZero/Sources/RuntimeInstaller.swift:78-102 | success exactly for an accepted status with a decoded manifest, which is returned; a transport error is a download failure with its description; any failed response is `releaseFetchFailed` |
| RuntimeInstaller.FetchLatestReleaseDiffers | VNLauncherZero/Sources/RuntimeInstaller.swift:86-94 | the code as written and the intended behaviour differ exactly on a refused manifest response |
| RuntimeInstaller.AssetStatusErrorAsWritten | VNLauncherZero/Sources/RuntimeInstaller.swift:113-119 | as written, a refused download surfaces as a download failure wrapping another |
| RuntimeInstaller.AssetStatusError | VNLauncherZero/Sources/RuntimeInstaller.swift:114-116 | a refused download reports the download prefix once, followed by "HTTP" and the code |
| RuntimeInstaller.AssetStatusDoublePrefix | VNLauncherZero/Sources/RuntimeInstaller.swift:113-119 | for HTTP 404 the message as written carries the download prefix twice, the intended one once |
| RuntimeInstaller.DownloadAsset | VNLauncherZero/Sources/RuntimeInstaller.swift:104-136 | as written: an invalid URL, a transport error and a failed move each give their own error, and a refused status gives the twice-prefixed download failure; success exactly when the URL is valid, the status accepted and the move succeeds, at a free name in the destination directory that is the preferred name when that is free |
| RuntimeInstaller.DownloadAssetIntended | VNLauncherZero/Sources/RuntimeInstaller.swift:104-136 | the same outcomes, except that a refused status reports the download prefix once, followed by "HTTP" and the code |
| RuntimeInstaller.Chosen | VNLauncherZero/Sources/RuntimeInstaller.swift:59-71 | after a fetch, an installer from the fetched manifest; none exactly when the fetch failed or the manifest lists no installer |
| RuntimeInstaller.DownloadLatestInstaller | VNLauncherZero/Sources/RuntimeInstaller.swift:52-72 | as written: a directory error is passed on; a fetch failure is passed on as the fetch reports it; `noSuitableAsset` for the target's item exactly when the fetched manifest lists no installer; once an asset is chosen, each download error is passed on; success exactly when the directory was made, an asset was chosen and the download was delivered, at a free name for the chosen asset's preferred name |
| RuntimeInstaller.DownloadLatestInstallerIntended | VNLauncherZero/Sources/RuntimeInstaller.swift:52-136 | the same, built on the intended fetch and download: a refused manifest reports `releaseFetchFailed` and a refused download carries the prefix once |
| RuntimeManager.BundledWineAppCandidates | VNLauncherZero/Sources/RuntimeManager.swift:222-228 | no bundled apps without a resource directory, otherwise the two embedded apps |
| RuntimeManager.BundledWineBinaryCandidates | VNLauncherZero/Sources/RuntimeManager.swift:171-183 | two binaries per bundled app |
| RuntimeManager.ResolveBundledWineBinary | VNLauncherZero/Sources/RuntimeManager.swift:171-183 | the first executable candidate in the order tried, app by app and wine64 before wine; none exactly when no bundled binary is executable |
| RuntimeManager.ResolveBundledWineApp | VNLauncherZero/Sources/RuntimeManager.swift:185-188 | the first bundled app that exists; none exactly when none of them exists |
| RuntimeManager.WineLookupAsWritten | VNLauncherZero/Sources/RuntimeManager.swift:108 | as written, the shell's raw output is taken as the path; none exactly when the shell failed or printed nothing |
| RuntimeManager.WineLookup | VNLauncherZero/Sources/RuntimeManager.swift:108 | the shell's output with surrounding whitespace removed; none exactly when the shell failed or printed only whitespace |
| RuntimeManager.FirstOfConcat | VNLauncherZero/Sources/RuntimeManager.swift:88-106 | trying three lists in turn is the same as searching their concatenation |
| RuntimeManager.ResolveWineBinaryAsWritten | VNLauncherZero/Sources/RuntimeManager.swift:88-110 | the first executable among bundled, preferred and fixed paths, else the raw shell output |
| RuntimeManager.ResolveWineBinary | VNLauncherZero/Sources/RuntimeManager.swift:88-110 | the first executable among the bundled binaries, the preferred path and the six fixed paths in order; failing all, the trimmed shell lookup |
| RuntimeManager.WineLookupKeepsNewline | VNLauncherZero/Sources/RuntimeManager.swift:108 | when only the shell finds Wine and prints the path with a newline, the result as written keeps the newline and is not that path; the trimmed lookup returns the path |
| RuntimeManager.ResolveWineApp | VNLauncherZero/Sources/RuntimeManager.swift:112-128 | the first existing path among the bundled apps, the preferred path and the four common locations; there is no shell fallback |
| RuntimeManager.ResolveXQuartzApp | VNLauncherZero/Sources/RuntimeManager.swift:130-137 | the Utilities location when it exists, else the Applications one; none exactly when neither exists |
| RuntimeManager.DetectRosettaInstalled | VNLauncherZero/Sources/RuntimeManager.swift:190-198 | installed exactly when either the process check or the receipt check prints "0" once trimmed |
| RuntimeManager.DetectQuarantine | VNLauncherZero/Sources/RuntimeManager.swift:200-209 | an empty or missing path is never blocked; otherwise blocked exactly when the attribute query prints "0" |
| RuntimeManager.FirstContents | VNLauncherZero/Sources/RuntimeManager.swift:215 | the index of the first "Contents" component, none exactly when there is none |
| RuntimeManager.AppPathFromComponents | VNLauncherZero/Sources/RuntimeManager.swift:214-219 | none exactly when "Contents" is missing or first; otherwise a path starting with "/" |
| RuntimeManager.InferAppPath | VNLauncherZero/Sources/RuntimeManager.swift:211-220 | none exactly for an empty path or one with no "Contents" component after the first; otherwise a path starting with "/" |
| RuntimeManager.InferAppPathOfBundle | VNLauncherZero/Sources/RuntimeManager.swift:211-220 | for a binary inside "<app>/Contents/…", the inferred path is the app's path, behind an extra leading "/" |
| RuntimeManager.QuarantineTarget | VNLauncherZero/Sources/RuntimeManager.swift:11 | the Wine app when one was found, else the app inferred from the binary, else the empty path |
| RuntimeManager.WineItem | VNLauncherZero/Sources/RuntimeManager.swift:15-29 | ok exactly when a binary was found and quarantine is not flagged; missing exactly when no binary was found; blocked exactly when one was found and quarantine is flagged |
| RuntimeManager.ReportItems | VNLauncherZero/Sources/RuntimeManager.swift:13-47 | exactly four items, Wine, Rosetta, XQuartz and Gatekeeper in that order; Wine is ok exactly when a binary was found and not flagged; Rosetta and XQuartz are ok when present and a warning otherwise; Gatekeeper is blocked exactly when flagged |
| RuntimeManager.Detect | VNLauncherZero/Sources/RuntimeManager.swift:5-57 | as written: the report echoes the untrimmed resolved binary and the resolved app, the Rosetta and XQuartz findings and the quarantine verdict on the target, with the four items built from them |
| RuntimeManager.DetectIntended | VNLauncherZero/Sources/RuntimeManager.swift:5-57 | the same report with the binary resolved through the trimmed shell lookup |
| RuntimeManager.DetectIntendedAgrees | VNLauncherZero/Sources/RuntimeManager.swift:88-110 | the two reports are equal whenever a bundled, preferred or fixed binary is executable, or the shell prints no surrounding whitespace |
| RuntimeManager.NoQuarantineNoBlock | VNLauncherZero/Sources/RuntimeManager.swift:11-47 | when the attribute query reports nothing, no item of the report is blocked |
| GameLauncher.AnyHintFromIff | VNLauncherZero/Sources/GameLauncher.swift:110-111 | the hint search finds a hint exactly when some remaining hint occurs in the samples |
| GameLauncher.ResolveLocale | VNLauncherZero/Sources/GameLauncher.swift:98-116 | always one of the two locales; the explicit modes pick their own; in automatic mode Chinese exactly when some hint occurs in the joined samples |
| GameLauncher.AutoLocaleByField | VNLauncherZero/Sources/GameLauncher.swift:105-114 | since no hint contains a space, in automatic mode the locale is Chinese exactly when some hint occurs in the lower-cased name, executable path or folder path alone |
| GameLauncher.ZeroPad | VNLauncherZero/Sources/GameLauncher.swift:93 | the digits read back as the number: the decimal rendering of the number, preceded only by "0"s, no "/", at least the requested width and exactly that width when the number fits |
| GameLauncher.DigitCount | VNLauncherZero/Sources/GameLauncher.swift:93 | a number below 10^k has at most k digits |
| GameLauncher.Timestamp | VNLauncherZero/Sources/GameLauncher.swift:92-95 | no "/"; for an in-range date, 15 characters "yyyyMMdd-HHmmss" whose digit fields read back as the year, month, day, hour, minute and second |
| GameLauncher.TimestampDetermines | VNLauncherZero/Sources/GameLauncher.swift:92-95 | two in-range moments with the same timestamp are the same moment |
| GameLauncher.LogFileName | VNLauncherZero/Sources/GameLauncher.swift:91-96 | the game name with "/" made "_", then "-", then exactly the timestamp, then ".log"; no "/" in it |
| GameLauncher.SanitizedIsSlashFree | VNLauncherZero/Sources/GameLauncher.swift:94 | replacing every "/" leaves none |
| GameLauncher.LogStaysInLogsDirectory | VNLauncherZero/Sources/GameLauncher.swift:50 | whatever the game is called, its log file is a direct child of the logs directory |
| GameLauncher.PreludeLines | VNLauncherZero/Sources/GameLauncher.swift:55-64 | the header has eight lines; their contents are stated by the header-versus-request agreement |
| GameLauncher.PreludeIsTerminated | VNLauncherZero/Sources/GameLauncher.swift:55-65 | joining the lines and a final empty line with newlines is each line followed by a newline |
| GameLauncher.HeaderAgreesWithRequest | VNLauncherZero/Sources/GameLauncher.swift:55-84 | the log records what is started: the header is its lines each ended by a newline, and its GAME, FOLDER, EXE, PREFIX, WINE, LANG_MODE and LANG lines carry the game name, the working directory, the argument, WINEPREFIX, the executable, the mode's raw value and LC_ALL of the process request |
| GameLauncher.LaunchEnvironment | VNLauncherZero/Sources/GameLauncher.swift:77-82 | the child environment has the inherited keys plus the four set ones; WINEPREFIX is the prefix, WINEDEBUG is "-all", LANG and LC_ALL are the locale; every other key is inherited unchanged |
| GameLauncher.LaunchEnvironmentIdempotent | VNLauncherZero/Sources/GameLauncher.swift:77-82 | applying the overlay to an already overlaid environment changes nothing |
| GameLauncher.ConfigurationError | VNLauncherZero/Sources/GameLauncher.swift:25-36 | the checks pass exactly when exe and folder are chosen and exist and a prefix is chosen; each error is stated exactly by the condition that produces it in check order |
| GameLauncher.Request | VNLauncherZero/Sources/GameLauncher.swift:73-84 | the process runs the Wine binary with exactly the executable path as argument, in the game folder, with output to the log; its environment has the inherited keys plus the four overlay keys, WINEPREFIX the prefix, WINEDEBUG "-all", LANG and LC_ALL the resolved locale, and every other inherited value unchanged |
| GameLauncher.StartLogged | VNLauncherZero/Sources/GameLauncher.swift:50-88 | the first effect is always the log file's creation |
| GameLauncher.StartLoggedErrors | VNLauncherZero/Sources/GameLauncher.swift:50-88 | the log step fails exactly when the log can be neither created nor found; a foreign error is what opening the log or running the process threw, in that order |
| GameLauncher.StartLoggedEffects | VNLauncherZero/Sources/GameLauncher.swift:50-88 | the process starts only as the last effect, and on success the log was created, the header appended and the process spawned, in order |
| GameLauncher.PrepareAndStart | VNLauncherZero/Sources/GameLauncher.swift:38-88 | the first effect is always the prefix directory's creation |
| GameLauncher.PrepareAndStartErrors | VNLauncherZero/Sources/GameLauncher.swift:38-53 | `prefixCreateFailed` exactly when either directory cannot be made; `wineNotFound` exactly when both were made and no Wine binary was found; `logCreateFailed` exactly when those passed and the log cannot be made |
| GameLauncher.PrepareAndStartSpawnsLast | VNLauncherZero/Sources/GameLauncher.swift:38-88 | the process is started exactly on success, and only as the last effect |
| GameLauncher.PrepareWithoutWine | VNLauncherZero/Sources/GameLauncher.swift:38-47 | without a Wine binary at most the two directories are made |
| GameLauncher.PrepareAndStartEffects | VNLauncherZero/Sources/GameLauncher.swift:38-88 | on success Wine was found and exactly five things happened: both directories, the log file, its header, the process |
| GameLauncher.PrepareMakesLogIff | VNLauncherZero/Sources/GameLauncher.swift:38-53 | a log file is made exactly when both directories were made and Wine was found |
| GameLauncher.Launch | VNLauncherZero/Sources/GameLauncher.swift:24-36 | as written, with the untrimmed Wine lookup: a failed configuration check is reported with nothing done on the disk |
| GameLauncher.LaunchIntended | VNLauncherZero/Sources/GameLauncher.swift:24-47 | with the trimmed lookup: a failed configuration check is reported with nothing done; when the checks pass and no Wine binary is found, the launch fails and no log file is made |
| GameLauncher.LaunchIntendedAgrees | VNLauncherZero/Sources/GameLauncher.swift:38-47 | the two launches are equal whenever a bundled, preferred or fixed binary is executable, or the shell prints no surrounding whitespace |
| GameLauncher.LaunchErrors | VNLauncherZero/Sources/GameLauncher.swift:24-47 | as written: once the configuration is sound, `prefixCreateFailed` exactly when a directory cannot be made, and `wineNotFound` exactly when both were made and the untrimmed Wine lookup finds nothing |
| GameLauncher.LaunchMakesLogIff | VNLauncherZero/Sources/GameLauncher.swift:24-53 | as written: a log file is made exactly when the configuration is sound, both directories were made and the untrimmed lookup found Wine |
| GameLauncher.LaunchEffects | VNLauncherZero/Sources/GameLauncher.swift:24-89 | as written: the process starts only last; a successful launch passed the checks, found Wine, returns the log path and did exactly the five steps with the header and request built for the game |
| AppStore.SelectedIndex | VNLauncherZero/Sources/AppStore.swift:38-41 | the first position holding the selected id; none exactly when nothing is selected or no game has that id |
| AppStore.SelectedGame | VNLauncherZero/Sources/AppStore.swift:43-46 | a game of the list carrying the selected id, present exactly when the index is |
| AppStore.SelectGame | VNLauncherZero/Sources/AppStore.swift:105-113 | the selection becomes the given id or none, the games and status line are kept, and a game is then selected exactly when some game carries that id |
| AppStore.UntitledInjective | VNLauncherZero/Sources/AppStore.swift:387-388 | distinct counters give distinct untitled names |
| AppStore.FirstFreeUntitled | VNLauncherZero/Sources/AppStore.swift:383-389 | never a taken name; the plain untitled name when free, otherwise the untitled name with the smallest free counter from 2 |
| AppStore.NextUntitledName | VNLauncherZero/Sources/AppStore.swift:383-389 | never the name of an existing game; the plain untitled name when free, otherwise the smallest free counter from 2 |
| AppStore.SlugCore | VNLauncherZero/Sources/AppStore.swift:373-379 | the name lower-cased, with every character other than a letter, digit, "_", "-" or "." turned into "_", and then trimmed: the result is a middle slice of that text with only "_", "-" and "." cut off at either end, and neither starts nor ends with one of them; it holds only slug characters and no capitals |
| AppStore.SlugCoreDetermined | VNLauncherZero/Sources/AppStore.swift:373-379 | the slug core is the only slug that is such a trimmed slice of the lower-cased, replaced name, so the contract fixes the result |
| AppStore.TrimmedFromUnique | VNLauncherZero/Sources/AppStore.swift:379 | trimming a set of characters from both ends leaves one result: two slices cut that way that neither start nor end in the set are equal |
| AppStore.TrimmedIsSlug | VNLauncherZero/Sources/AppStore.swift:379 | trimming text made of slug characters leaves a slug |
| AppStore.Slug | VNLauncherZero/Sources/AppStore.swift:373-381 | the slug core when it is not empty, a non-empty slug; otherwise the lower-cased fallback UUID |
| AppStore.SlugIdempotent | VNLauncherZero/Sources/AppStore.swift:373-381 | the slug of a slug is itself |
| AppStore.SlugHasNoSlash | VNLauncherZero/Sources/AppStore.swift:375-378 | a slug never contains "/" |
| AppStore.DefaultPrefixDir | VNLauncherZero/Sources/AppStore.swift:366-371 | the prefixes directory followed by "/" and more; when the name has a non-empty slug, its last component is that slug, and otherwise, for a UUID without "/", its last component is the lower-cased UUID |
| AppStore.AddEmptyGame | VNLauncherZero/Sources/AppStore.swift:115-123 | the new game is first and selected, with an empty folder and executable and its default prefix; its name is "新游戏" when no game has it, otherwise "新游戏 i" for the smallest i from 2 no game has; every existing game follows unchanged |
| AppStore.RemoveSelectedGame | VNLauncherZero/Sources/AppStore.swift:125-129 | without a selection nothing changes; otherwise exactly the selected game leaves, the rest keep their order, and the first remaining game is selected, if any |
| AppStore.RemoveTakesOutSelected | VNLauncherZero/Sources/AppStore.swift:125-129 | removal takes out one copy of the selected game and keeps every other game |
| AppStore.UpdateSelected | VNLauncherZero/Sources/AppStore.swift:349-354 | without a selection nothing changes; otherwise only the selected game is changed and stamped with the time, and the selection is kept |
| AppStore.CleanName | VNLauncherZero/Sources/AppStore.swift:176-181 | the stored name is never empty nor starts or ends with whitespace; it is the trimmed name when that is not blank, and "未命名游戏" when it is |
| AppStore.CleanNameIdempotent | VNLauncherZero/Sources/AppStore.swift:176-181 | cleaning a cleaned name changes nothing |
| AppStore.RenameSelectedGame | VNLauncherZero/Sources/AppStore.swift:176-181 | without a selection nothing changes; otherwise the selected game becomes itself with the cleaned name and the time stamp, every other game, the selection, the status and the prefixes directory are kept |
| AppStore.RenameKeepsSelection | VNLauncherZero/Sources/AppStore.swift:176-181 | renaming keeps the selection on the same position |
| AppStore.ScanUpdate | VNLauncherZero/Sources/AppStore.swift:326-338 | folder and engine always taken from the scan; the name from the folder only when still default or blank; the executable only when recommended; an empty prefix becomes the default prefix for the resulting name, so it is never empty afterwards |
| AppStore.ScanUpdateIdempotent | VNLauncherZero/Sources/AppStore.swift:326-338 | applying the same scan to a game twice changes it no further |
| AppStore.ScanMessage | VNLauncherZero/Sources/AppStore.swift:340-344 | the status reports a recommendation exactly when the scan has one, and then is the scan prefix followed by the recommended executable's file name |
| AppStore.ApplyScanResult | VNLauncherZero/Sources/AppStore.swift:324-347 | without a selection the games are kept; otherwise the selected game becomes the scan update of itself stamped with the time, every other game is kept, and it ends with the scanned folder, the recommended executable if any and, when it had none, the default prefix; the selection and prefixes directory are kept, and the status reports the scan |
| AppStore.ApplyScanResultIdempotent | VNLauncherZero/Sources/AppStore.swift:324-347 | applying the same scan again at the same moment leaves the store as it was |
| Models.EngineFromRawValue | VNLauncherZero/Sources/Models.swift:3-8 | a decoded engine has exactly the raw value decoded |
| Models.EngineRawValueRoundTrip | VNLauncherZero/Sources/Models.swift:3-8 | every engine is one of the four, and decoding its raw value gives it back |
| Models.CandidateFileName | VNLauncherZero/Sources/Models.swift:16-18 | the file name of a candidate at "dir/name" is "name" |
| Models.DisplaySubtitleCases | VNLauncherZero/Sources/Models.swift:44-48 | the subtitle is the executable's file name once one is chosen, and the folder's last component before |
| Models.ComponentTitlesDistinct | VNLauncherZero/Sources/Models.swift:58-66 | two states share a title exactly when they are the same state |
| Models.EmptyReport | VNLauncherZero/Sources/Models.swift:84-93 | the placeholder report has no components and no Wine binary, Wine app or XQuartz path |
| Text.ContainsIff | VNLauncherZero/Sources/GameScanner.swift:102 | `contains` holds exactly when the pattern occurs at some position |
| Text.NatToStringValue | VNLauncherZero/Sources/GameLauncher.swift:93 | reading back the decimal rendering of a number gives the number |
| Text.LeadingZeros | VNLauncherZero/Sources/GameLauncher.swift:93 | zeros put in front of digits do not change their value |
| Text.ContainsAcrossSeparator | VNLauncherZero/Sources/GameLauncher.swift:105-111 | a pattern without the separator occurs in "x sep y" exactly when it occurs in x or in y |
| Text.TrimSpec | VNLauncherZero/Sources/AppStore.swift:177 | trimming keeps a contiguous middle slice, dropping only trimmable characters at both ends, and what remains neither starts nor ends with one; the result is empty exactly when every character is trimmable |
| Text.LexLessTotal | VNLauncherZero/Sources/GameScanner.swift:48 | two different names are always ordered one way or the other |
| Paths.LastComponentOfAppend | VNLauncherZero/Sources/Models.swift:16-18 | a plain name appended to any directory is the last component of the result |
| Paths.ExtensionRoundTrip | VNLauncherZero/Sources/RuntimeInstaller.swift:180-184 | splitting a name into base and extension and putting them back together gives the name |
| Collections.FirstOfFilter | VNLauncherZero/Sources/RuntimeInstaller.swift:140-151 | the first filtered element satisfying a further test is the first element satisfying both |
| Collections.FirstFree | VNLauncherZero/Sources/AppStore.swift:386-388 | the counting search stops at the first free number and never at a taken one |

## Left out

- Networking, JSON decoding, the shell, `xattr`, `pgrep`, `pkgutil`, `Bundle.main`, `NSWorkspace` and `FileManager` are not modelled as actions. Each is represented by the result it produces: an HTTP outcome, a decoded manifest, printed text, or a set of existing, executable or uncreatable paths.
- The directory enumerator itself is not modelled: its skipping of hidden files and package contents is taken as given by the entry list. Entries whose resource values cannot be read are not in the list either.
- `Date()`, `DateFormatter`, `UUID()` and the random slug fallback are parameters: a date-time, its text, an id and a fallback string.
- Lower-casing is ASCII only.
- `isLetter`/`isNumber` are approximated by ASCII letters and digits, Hiragana, Katakana and the CJK Unified Ideographs.
- `localizedCaseInsensitiveCompare` is approximated by code-point order on the lower-cased name.
- The whitespace set is the Unicode White_Space code points.
- Paths are plain strings. `URL` standardisation, resolving relative paths against the working directory and `isDirectory` trailing slashes are not modelled.
- Persistence (loading and saving the store), the view state other than games, selection and status line, and the asynchronous download flag in `AppStore` are left out.
- `chooseEXEManually`, `choosePrefixFolder` and the picker-driven operations of `AppStore` are left out; they are picker glue around `updateSelected`, which is modelled.
- The rescan that `removeSelectedGame` triggers for the newly selected game is left out; it only refreshes the view's scan result.
- `openInstaller`, the download-page openers, the privacy-settings opener and `resolveEmbeddedXQuartzInstaller` are left out: they open URLs or search the user's folders and feed no decision modelled here.
- The `FileHandle` plumbing of `launch` is left out: seeking to the end and closing the handle when the process terminates. The header append is recorded as an effect whose own failure is ignored, as `try?` does.
- The effects of `launch` are recorded, not performed; `AppendLog` stands for appending the UTF-8 header.
- GameEntries: the declaration of `GameEntry` is not part of this model; its fields are the ones the launcher and the store use.
- AppStore.ApplyScanResult: `applyScanResult` (VNLauncherZero/Sources/AppStore.swift:12, 324-344) consumes a `ScanResult` with `folderURL`, `engineHint` and `recommendedEXE`, produced by `GameScanner.scanGameFolder`. Neither that type nor that function is part of this model; the scanner's `GameScanResult` (folder path, engine, recommended executable) stands in for it.
- AppStore.ScanUpdate: the `engineHint` stored for a game is taken to be the scanned engine's raw value, because `ScanResult` is not part of this model.
- GameEntries: the raw values of `LanguageMode` are taken to be its case names, "auto", "japanese" and "chineseSimplified"; the declaration is not part of this model, and the raw value only reaches the log header.
- GameEntries: `GameEntry` behaviour is assumed, not read. `exeURL`, `folderURL` and `prefixURL` are taken to be nil exactly when their path field is empty (ExePath, FolderPath, PrefixPath). `GameEntry(name:prefixDir:)` is taken to start with empty folder and executable paths, an empty engine hint and the automatic language mode (NewEntry).
- AppStore: `save()` is taken to succeed. When writing the store file fails, the source overwrites the status line with "保存配置失败：" and the error's description; AddEmptyGame, RemoveSelectedGame, UpdateSelected, RenameSelectedGame and ApplyScanResult state the status line of a successful save.
- `applyRecommendedCandidate` and `saveCurrentFromP1` are left out: besides `updateSelected`, which is modelled, they read the engine hint of the view's current `ScanResult`, and neither that type nor its producer is part of this model.
- `startGame` is left out: it is `launch` (modelled as GameLauncher.Launch) on the selected game, followed by status text built from the error's localized description and the touch of the game's time stamp.
- The rescan that `selectGame` triggers only refreshes the view's scan result and is left out of AppStore.SelectGame.
- GameScanner.CracktroStacks: bounds the penalty total from above by −420 instead of stating its exact value, because further keywords in the same name lower it more.
- GameLauncher.Launch: takes the log path derived from the modelled clock reading, and the `logCreatable` fact stands for `createFile` on that path.
- GameLauncher.Timestamp: the 15-character layout and the field readings are stated only for dates within the field widths (years below 10000, other fields below 100); a wider field pushes the later fields along.

## Findings

| source | as written | input that shows it | evidently intended | confidence | as-written member | corrected member |
|---|---|---|---|---|---|---|
| VNLauncherZero/Sources/RuntimeInstaller.swift:86-94 | the `releaseFetchFailed` thrown for a refused manifest status is caught by the enclosing `catch` and rethrown as `downloadFailed` with its description | a manifest response with HTTP status 500 | a refused manifest reports `releaseFetchFailed` | not executed | RuntimeInstaller.ManifestStatusRewrapped | RuntimeInstaller.DownloadLatestInstallerIntended |
| VNLauncherZero/Sources/RuntimeInstaller.swift:113-119 | the `downloadFailed("HTTP n")` thrown for a refused asset status is caught by its own `catch` and wrapped again, so the message repeats the download prefix | an asset download answered with HTTP 404 | the message carries the prefix once: download failed, then "HTTP 404" | not executed | RuntimeInstaller.AssetStatusDoublePrefix | RuntimeInstaller.DownloadAssetIntended |
| VNLauncherZero/Sources/RuntimeManager.swift:108 | the output of `command -v` is used untrimmed, so the resolved Wine path ends in a newline | no bundled, preferred or fixed Wine binary, and the shell prints "/usr/bin/wine\n" | the path without the trailing newline | not executed | RuntimeManager.WineLookupKeepsNewline | RuntimeManager.DetectIntended |

=== FILE: collections.dfy ===
/** Searching and filtering sequences, standing in for Swift's `first(where:)`, `firstIndex(where:)` and `filter`. */
module Collections {
  import opened Wrappers

  /** `firstIndex(where:)`: the position of the first element satisfying `p`. */
  function FirstIndex<T>(s: seq<T>, p: T -> bool): (r: Option<nat>)
    ensures r.Some? ==> r.value < |s| && p(s[r.value]) && forall j :: 0 <= j < r.value ==> !p(s[j])
    ensures r.None? <==> forall j :: 0 <= j < |s| ==> !p(s[j])
  {
    if |s| == 0 then None
    else if p(s[0]) then Some(0)
    else
      var rest := FirstIndex(s[1..], p);
      if rest.None? then None else Some(rest.value + 1)
  }

  /** `first(where:)`: the first element satisfying `p`. */
  function First<T>(s: seq<T>, p: T -> bool): (r: Option<T>)
    ensures r.None? <==> forall j :: 0 <= j < |s| ==> !p(s[j])
    ensures r.Some? ==> exists k :: 0 <= k < |s| && s[k] == r.value && p(s[k]) && forall j :: 0 <= j < k ==> !p(s[j])
  {
    var k := FirstIndex(s, p);
    if k.None? then None else Some(s[k.value])
  }

  /** `filter`: the elements satisfying `p`, in their original order. */
  function Filter<T>(s: seq<T>, p: T -> bool): (r: seq<T>)
    ensures |r| <= |s|
    ensures forall j :: 0 <= j < |r| ==> r[j] in s && p(r[j])
    ensures forall j :: 0 <= j < |s| && p(s[j]) ==> s[j] in r
  {
    if |s| == 0 then []
    else (if p(s[0]) then [s[0]] else []) + Filter(s[1..], p)
  }

  /** Taking the first element of a filtered sequence is searching for both conditions at once. */
  lemma {:induction false} FirstOfFilter<T>(s: seq<T>, p: T -> bool, q: T -> bool, both: T -> bool)
    requires forall x :: both(x) == (p(x) && q(x))
    ensures First(Filter(s, p), q) == First(s, both)
  {
    if |s| > 0 {
      FirstOfFilter(s[1..], p, q, both);
      FirstCons(s, both);
      var f := Filter(s[1..], p);
      if p(s[0]) {
        assert Filter(s, p) == [s[0]] + f;
        assert ([s[0]] + f)[1..] == f;
        FirstCons([s[0]] + f, q);
      } else {
        assert Filter(s, p) == f;
      }
    }
  }

  /** The first match of a non-empty sequence is its head or the first match of its tail. */
  lemma FirstCons<T>(s: seq<T>, p: T -> bool)
    requires |s| > 0
    ensures First(s, p) == if p(s[0]) then Some(s[0]) else First(s[1..], p)
  {
    if !p(s[0]) {
      var k := FirstIndex(s[1..], p);
      assert k.Some? ==> s[1..][k.value] == s[k.value + 1];
    }
  }

  /** The head of a filtered sequence is the first element satisfying the filter. */
  lemma {:induction false} HeadOfFilter<T>(s: seq<T>, p: T -> bool)
    ensures |Filter(s, p)| > 0 ==> First(s, p) == Some(Filter(s, p)[0])
    ensures |Filter(s, p)| == 0 ==> First(s, p) == None
  {
    if |s| > 0 {
      HeadOfFilter(s[1..], p);
      FirstCons(s, p);
      if p(s[0]) {
        assert Filter(s, p) == [s[0]] + Filter(s[1..], p);
      } else {
        assert Filter(s, p) == Filter(s[1..], p);
      }
    }
  }

  /** Two pointwise-equal predicates find the same first element. */
  lemma {:induction false} FirstSamePredicate<T>(s: seq<T>, p: T -> bool, q: T -> bool)
    requires forall x :: p(x) == q(x)
    ensures First(s, p) == First(s, q)
  {
    if |s| > 0 {
      FirstSamePredicate(s[1..], p, q);
    }
  }

  /** The names `name(start)`, ..., `name(i - 1)`. */
  ghost function NamesBelow<T>(name: nat -> T, start: nat, i: nat): set<T>
    decreases i
  {
    if i <= start then {} else NamesBelow(name, start, i - 1) + {name(i - 1)}
  }

  lemma {:induction false} NamesBelowHas<T>(name: nat -> T, start: nat, i: nat)
    ensures forall j :: start <= j < i ==> name(j) in NamesBelow(name, start, i)
    decreases i
  {
    if i > start {
      NamesBelowHas(name, start, i - 1);
    }
  }

  lemma {:induction false} NamesBelowLacks<T>(name: nat -> T, start: nat, i: nat, k: nat)
    requires forall a: nat, b: nat :: name(a) == name(b) ==> a == b
    requires i <= k
    ensures name(k) !in NamesBelow(name, start, i)
    decreases i
  {
    if i > start {
      NamesBelowLacks(name, start, i - 1, k);
    }
  }

  /**
   * The first number from `start` whose name is not taken, for names that
   * are all different. The search ends because every name it passes is a
   * distinct member of the finite set `taken`.
   */
  method FirstFree<T>(taken: set<T>, name: nat -> T, start: nat) returns (i: nat)
    requires forall a: nat, b: nat :: name(a) == name(b) ==> a == b
    ensures start <= i && name(i) !in taken
    ensures forall j :: start <= j < i ==> name(j) in taken
  {
    i := start;
    while name(i) in taken
      invariant start <= i
      invariant NamesBelow(name, start, i) <= taken
      decreases |taken - NamesBelow(name, start, i)|
    {
      NamesBelowLacks(name, start, i, i);
      assert taken - NamesBelow(name, start, i + 1) == (taken - NamesBelow(name, start, i)) - {name(i)};
      i := i + 1;
    }
    NamesBelowHas(name, start, i);
  }

  /** The first match is at `k` when `k` matches and nothing before it does. */
  lemma FirstIndexAt<T>(s: seq<T>, p: T -> bool, k: nat)
    requires k < |s| && p(s[k]) && forall j :: 0 <= j < k ==> !p(s[j])
    ensures FirstIndex(s, p) == Some(k)
  {
  }
}

=== FILE: game_entry.dfy ===
/**
 * A saved game configuration as the launcher and the store use it. Its
 * declaration is not part of this model; the fields are the ones those two
 * use. The UUID is an opaque number and dates are seconds since an arbitrary
 * epoch.
 */
module GameEntries {
  import opened Wrappers

  /** The language a game is launched in. */
  datatype LanguageMode = Auto | Japanese | ChineseSimplified {
    /** The stored raw value, taken to be the case name. */
    function RawValue(): string {
      match this
      case Auto => "auto"
      case Japanese => "japanese"
      case ChineseSimplified => "chineseSimplified"
    }
  }

  datatype GameEntry = GameEntry(
    id: nat,
    name: string,
    gameFolderPath: string,
    exePath: string,
    prefixDir: string,
    engineHint: string,
    launchLanguageMode: LanguageMode,
    updatedAt: int)
  {
    /** `exeURL`, `folderURL` and `prefixURL`: a path, or none while the field is empty. */
    function ExePath(): (r: Option<string>)
      ensures r.None? <==> exePath == ""
      ensures r.Some? ==> r.value == exePath
    {
      if exePath == "" then None else Some(exePath)
    }

    function FolderPath(): (r: Option<string>)
      ensures r.None? <==> gameFolderPath == ""
      ensures r.Some? ==> r.value == gameFolderPath
    {
      if gameFolderPath == "" then None else Some(gameFolderPath)
    }

    function PrefixPath(): (r: Option<string>)
      ensures r.None? <==> prefixDir == ""
      ensures r.Some? ==> r.value == prefixDir
    {
      if prefixDir == "" then None else Some(prefixDir)
    }
  }

  /** A new, empty configuration: `GameEntry(name:prefixDir:)`. */
  function NewEntry(id: nat, name: string, prefixDir: string, now: int): (r: GameEntry)
    ensures r.id == id && r.name == name && r.prefixDir == prefixDir
    ensures r.gameFolderPath == "" && r.exePath == "" && r.launchLanguageMode == Auto
  {
    GameEntry(id, name, "", "", prefixDir, "", Auto, now)
  }
}

=== FILE: installer.dfy ===
/**
 * Picking and fetching a runtime installer from a release manifest
 * (RuntimeInstaller.swift). The network, the JSON decoder and the file
 * system enter as the outcomes they produce: an `Exchange` for each HTTP
 * request, the decoded manifest, the set of names already present in the
 * destination directory, and whether the final move succeeds.
 */
module RuntimeInstaller {
  import opened Wrappers
  import opened Text
  import opened Paths
  import opened Collections

  /** `RuntimeInstallerError`. */
  datatype InstallerError = ReleaseFetchFailed | NoSuitableAsset(item: string) | DownloadFailed(message: string) | FileMoveFailed

  const DownloadFailedPrefix := "下载安装包失败："
  const ReleaseFetchFailedText := "无法获取安装包发布信息，请检查网络后重试。"
  const InvalidUrlMessage := "下载地址无效"

  /** `errorDescription`, which is also what `localizedDescription` yields for these errors. */
  function Description(e: InstallerError): (r: string)
    ensures |r| > 0
  {
    match e
    case ReleaseFetchFailed => ReleaseFetchFailedText
    case NoSuitableAsset(item) => "没有找到适合下载的 " + item + " 安装包。"
    case DownloadFailed(msg) => DownloadFailedPrefix + msg
    case FileMoveFailed => "下载完成但无法保存安装包到本地目录。"
  }

  /** Anything `downloadLatestInstaller` throws: one of its own errors, or a file-system error it passes on. */
  datatype Thrown = Installer(error: InstallerError) | System(description: string)

  datatype Target = Wine | XQuartz

  /** The owner, repository and item name each target is fetched under. */
  function Owner(t: Target): string {
    match t
    case Wine => "Gcenx"
    case XQuartz => "XQuartz"
  }

  function Repo(t: Target): string {
    match t
    case Wine => "macOS_Wine_builds"
    case XQuartz => "XQuartz"
  }

  function ItemName(t: Target): string {
    match t
    case Wine => "Wine"
    case XQuartz => "XQuartz"
  }

  datatype Asset = Asset(name: string, browserDownloadUrl: string, size: Option<int>)

  datatype Release = Release(tagName: string, assets: seq<Asset>)

  /**
   * How one HTTP request ended: the session threw (with that error's
   * description), or a response arrived. A response that is not an HTTP
   * response has no status.
   */
  datatype Exchange<T> = TransportError(description: string) | Response(status: Option<nat>, payload: T)

  /** Only an HTTP status outside 200...299 is refused. */
  predicate StatusAccepted(status: Option<nat>) {
    status.None? || 200 <= status.value <= 299
  }

  // ---------------------------------------------------------------------------
  // Choosing an asset

  /** `isInstallerAssetName`: a `.pkg` or `.dmg` name, in any letter case. */
  predicate IsInstallerAssetName(name: string) {
    var lower := Lower(name);
    HasSuffix(lower, ".pkg") || HasSuffix(lower, ".dmg")
  }

  /** An installer name is one whose last four characters, lower-cased, are ".pkg" or ".dmg". */
  lemma InstallerNameIff(name: string)
    ensures IsInstallerAssetName(name) <==>
      |name| >= 4 && (Lower(name[|name| - 4..]) == ".pkg" || Lower(name[|name| - 4..]) == ".dmg")
  {
    var lower := Lower(name);
    if |name| >= 4 {
      IsPrefixIff(".pkg", lower[|lower| - 4..]);
      IsPrefixIff(".dmg", lower[|lower| - 4..]);
      assert lower[|lower| - 4..] == Lower(name[|name| - 4..]);
    }
  }

  predicate IsInstaller(a: Asset) {
    IsInstallerAssetName(a.name)
  }

  predicate NameContains(a: Asset, key: string) {
    Contains(Lower(a.name), key)
  }

  predicate IsWineInstaller(a: Asset) {
    IsInstaller(a) && NameContains(a, "wine")
  }

  predicate IsXQuartzInstaller(a: Asset) {
    IsInstaller(a) && NameContains(a, "xquartz")
  }

  const ArmKeywords: seq<string> := ["arm64", "apple", "silicon", "universal"]
  const IntelKeywords: seq<string> := ["x86_64", "intel", "universal"]

  /** The name fragments preferred for an architecture hint, most preferred first. */
  function PreferredKeywords(arch: string): (r: seq<string>)
    ensures Contains(Lower(arch), "arm") ==> r == ArmKeywords
    ensures !Contains(Lower(arch), "arm") ==> r == IntelKeywords
  {
    if Contains(Lower(arch), "arm") then ArmKeywords else IntelKeywords
  }

  /** The loop over the keywords: the first installer naming the earliest keyword that any installer names. */
  function FirstByKeywords(installers: seq<Asset>, keys: seq<string>): (r: Asset)
    requires |installers| > 0
    ensures r in installers
  {
    if |keys| == 0 then installers[0]
    else
      var hit := First(installers, (a: Asset) => NameContains(a, keys[0]));
      if hit.Some? then hit.value else FirstByKeywords(installers, keys[1..])
  }

  /** `chooseWineAsset`. */
  function ChooseWineAsset(assets: seq<Asset>, arch: string): (r: Option<Asset>)
    ensures r.None? <==> forall j :: 0 <= j < |assets| ==> !IsWineInstaller(assets[j])
    ensures r.Some? ==> r.value in assets && IsWineInstaller(r.value)
  {
    var installers := Filter(assets, IsWineInstaller);
    if |installers| == 0 then None
    else Some(FirstByKeywords(installers, PreferredKeywords(arch)))
  }

  /** `chooseXQuartzAsset`: the first XQuartz installer, else the first installer of any kind. */
  function ChooseXQuartzAsset(assets: seq<Asset>): (r: Option<Asset>)
    ensures r.None? <==> forall j :: 0 <= j < |assets| ==> !IsInstaller(assets[j])
    ensures r.Some? ==> r.value in assets && IsInstaller(r.value)
    ensures (exists j :: 0 <= j < |assets| && IsXQuartzInstaller(assets[j]))
      ==> r == First(assets, IsXQuartzInstaller)
    ensures (forall j :: 0 <= j < |assets| ==> !IsXQuartzInstaller(assets[j]))
      ==> r == First(assets, IsInstaller)
  {
    var installers := Filter(assets, IsXQuartzInstaller);
    HeadOfFilter(assets, IsXQuartzInstaller);
    if |installers| > 0 then Some(installers[0]) else First(assets, IsInstaller)
  }

  /** `chooseGenericInstallerAsset`: the first installer of any kind. */
  function ChooseGenericInstallerAsset(assets: seq<Asset>): (r: Option<Asset>)
    ensures r.None? <==> forall j :: 0 <= j < |assets| ==> !IsInstaller(assets[j])
    ensures r.Some? ==> (exists k :: 0 <= k < |assets| && assets[k] == r.value && IsInstaller(assets[k])
                           && forall j :: 0 <= j < k ==> !IsInstaller(assets[j]))
  {
    First(assets, IsInstaller)
  }

  /** The asset `downloadLatestInstaller` settles on: the target's own chooser, else the generic one. */
  function ChooseAsset(target: Target, assets: seq<Asset>, arch: string): Option<Asset> {
    match target
    case Wine =>
      var w := ChooseWineAsset(assets, arch);
      if w.Some? then w else ChooseGenericInstallerAsset(assets)
    case XQuartz =>
      var x := ChooseXQuartzAsset(assets);
      if x.Some? then x else ChooseGenericInstallerAsset(assets)
  }

  /** With the generic fallback, an asset is found exactly when the manifest lists some installer. */
  lemma ChooseAssetNoneIff(target: Target, assets: seq<Asset>, arch: string)
    ensures ChooseAsset(target, assets, arch).None? <==> forall j :: 0 <= j < |assets| ==> !IsInstaller(assets[j])
    ensures ChooseAsset(target, assets, arch).Some? ==> IsInstaller(ChooseAsset(target, assets, arch).value)
    ensures ChooseAsset(target, assets, arch).Some? ==> ChooseAsset(target, assets, arch).value in assets
  {
  }

  /**
   * Keyword priority: when keyword `m` is the earliest one that some Wine
   * installer names, the choice is the first Wine installer, in manifest
   * order, that names it.
   */
  lemma {:induction false} WineKeywordPriority(assets: seq<Asset>, arch: string, m: nat)
    requires m < |PreferredKeywords(arch)|
    requires exists j :: 0 <= j < |assets| && IsWineInstaller(assets[j]) && NameContains(assets[j], PreferredKeywords(arch)[m])
    requires forall i, j :: 0 <= i < m && 0 <= j < |assets| && IsWineInstaller(assets[j]) ==>
                              !NameContains(assets[j], PreferredKeywords(arch)[i])
    ensures ChooseWineAsset(assets, arch)
         == First(assets, (a: Asset) => IsWineInstaller(a) && NameContains(a, PreferredKeywords(arch)[m]))
  {
    var keys := PreferredKeywords(arch);
    var installers := Filter(assets, IsWineInstaller);
    var w :| 0 <= w < |assets| && IsWineInstaller(assets[w]) && NameContains(assets[w], keys[m]);
    assert assets[w] in installers;
    var wi :| 0 <= wi < |installers| && installers[wi] == assets[w];
    assert forall i, j :: 0 <= i < m && 0 <= j < |installers| ==> !NameContains(installers[j], keys[i]) by {
      forall i, j | 0 <= i < m && 0 <= j < |installers|
        ensures !NameContains(installers[j], keys[i])
      {
        assert installers[j] in assets && IsWineInstaller(installers[j]);
      }
    }
    FirstByKeywordsAt(installers, keys, m);
    var q := (a: Asset) => NameContains(a, keys[m]);
    var hit := First(installers, q);
    assert q(installers[wi]);
    assert hit.Some?;
    assert ChooseWineAsset(assets, arch) == hit;
    FirstOfFilter(assets, IsWineInstaller, q, (a: Asset) => IsWineInstaller(a) && NameContains(a, keys[m]));
  }

  /** When no Wine installer names any preferred keyword, the first Wine installer is chosen. */
  lemma WineFallsBackToFirst(assets: seq<Asset>, arch: string)
    requires forall i, j :: 0 <= i < |PreferredKeywords(arch)| && 0 <= j < |assets| && IsWineInstaller(assets[j]) ==>
                              !NameContains(assets[j], PreferredKeywords(arch)[i])
    ensures ChooseWineAsset(assets, arch) == First(assets, IsWineInstaller)
  {
    var keys := PreferredKeywords(arch);
    var installers := Filter(assets, IsWineInstaller);
    HeadOfFilter(assets, IsWineInstaller);
    if |installers| > 0 {
      FirstByKeywordsNone(installers, keys);
    }
  }

  lemma {:induction false} FirstByKeywordsAt(installers: seq<Asset>, keys: seq<string>, m: nat)
    requires |installers| > 0 && m < |keys|
    requires exists j :: 0 <= j < |installers| && NameContains(installers[j], keys[m])
    requires forall i, j :: 0 <= i < m && 0 <= j < |installers| ==> !NameContains(installers[j], keys[i])
    ensures FirstByKeywords(installers, keys) == First(installers, (a: Asset) => NameContains(a, keys[m])).value
  {
    if m > 0 {
      var hit := First(installers, (a: Asset) => NameContains(a, keys[0]));
      assert hit.None?;
      assert keys[1..][m - 1] == keys[m];
      FirstByKeywordsAt(installers, keys[1..], m - 1);
      FirstSamePredicate(installers, (a: Asset) => NameContains(a, keys[1..][m - 1]), (a: Asset) => NameContains(a, keys[m]));
    }
  }

  lemma {:induction false} FirstByKeywordsNone(installers: seq<Asset>, keys: seq<string>)
    requires |installers| > 0
    requires forall i, j :: 0 <= i < |keys| && 0 <= j < |installers| ==> !NameContains(installers[j], keys[i])
    ensures FirstByKeywords(installers, keys) == installers[0]
  {
    if |keys| > 0 {
      var hit := First(installers, (a: Asset) => NameContains(a, keys[0]));
      assert hit.None?;
      FirstByKeywordsNone(installers, keys[1..]);
    }
  }

  // ---------------------------------------------------------------------------
  // Naming the downloaded file

  /** `sanitizeFileName`: every "/" becomes "_". */
  function SanitizeFileName(name: string): (r: string)
    ensures |r| == |name|
    ensures forall i :: 0 <= i < |r| ==> r[i] != '/'
    ensures forall i :: 0 <= i < |name| && name[i] != '/' ==> r[i] == name[i]
  {
    ReplaceChar(name, '/', '_')
  }

  /** A name without slashes is left alone, so sanitising twice changes nothing more. */
  lemma SanitizeIdempotent(name: string)
    ensures SanitizeFileName(SanitizeFileName(name)) == SanitizeFileName(name)
    ensures (forall i :: 0 <= i < |name| ==> name[i] != '/') ==> SanitizeFileName(name) == name
  {
  }

  /** The name asked for: the sanitised asset name, or "<prefix>-Installer.pkg" when that is empty. */
  function PreferredName(assetName: string, prefix: string): (r: string)
    ensures |r| > 0
    ensures SanitizeFileName(assetName) != "" ==> r == SanitizeFileName(assetName)
    ensures SanitizeFileName(assetName) == "" ==> r == prefix + "-Installer.pkg"
  {
    var safe := SanitizeFileName(assetName);
    if safe == "" then prefix + "-Installer.pkg" else safe
  }

  /** The `i`-th alternative to a taken name: "base-i.ext", or "base-i" without an extension. */
  function Numbered(base: string, i: nat, ext: string): string {
    WithExtension(base + "-" + NatToString(i), ext)
  }

  /** Distinct counters give distinct alternatives. */
  lemma NumberedInjective(base: string, i: nat, j: nat, ext: string)
    requires Numbered(base, i, ext) == Numbered(base, j, ext)
    ensures i == j
  {
    var a := NatToString(i);
    var b := NatToString(j);
    var x := base + "-" + a;
    var y := base + "-" + b;
    if ext != "" {
      assert x + "." + ext == y + "." + ext;
      assert |x| == |y|;
      assert x == (x + "." + ext)[..|x|];
    }
    assert x == y;
    assert a == x[|base| + 1..];
    assert b == y[|base| + 1..];
    NatToStringInjective(i, j);
  }

  /**
   * `uniqueDestinationURL`, by file name: `preferred` when nothing of that
   * name exists, otherwise the first free alternative counting from 2.
   */
  method UniqueDestinationName(preferred: string, existing: set<string>) returns (name: string)
    ensures name !in existing
    ensures preferred !in existing ==> name == preferred
    ensures preferred in existing ==>
      (exists i :: 2 <= i && name == Numbered(DeletingPathExtension(preferred), i, PathExtension(preferred))
                   && forall j :: 2 <= j < i ==> Numbered(DeletingPathExtension(preferred), j, PathExtension(preferred)) in existing)
  {
    if preferred !in existing {
      return preferred;
    }
    var base := DeletingPathExtension(preferred);
    var ext := PathExtension(preferred);
    var numbered := (i: nat) => Numbered(base, i, ext);
    forall a: nat, b: nat | numbered(a) == numbered(b)
      ensures a == b
    {
      NumberedInjective(base, a, b, ext);
    }
    var i := FirstFree(existing, numbered, 2);
    assert forall j: nat :: numbered(j) == Numbered(base, j, ext);
    name := Numbered(base, i, ext);
  }

  // ---------------------------------------------------------------------------
  // Fetching and downloading

  /**
   * The error a refused manifest response surfaces as. The throw of
   * `releaseFetchFailed` happens inside the `do` block whose `catch` turns
   * every error into `downloadFailed` with the error's description.
   */
  function ManifestStatusErrorAsWritten(): (e: InstallerError)
    ensures e.DownloadFailed?
  {
    DownloadFailed(Description(ReleaseFetchFailed))
  }

  /** The error a refused manifest response was meant to raise. */
  function ManifestStatusError(): (e: InstallerError)
    ensures Description(e) == ReleaseFetchFailedText
  {
    ReleaseFetchFailed
  }

  /** As written, a refused manifest reports a failed download carrying the manifest message. */
  lemma ManifestStatusRewrapped()
    ensures ManifestStatusErrorAsWritten() != ManifestStatusError()
    ensures Description(ManifestStatusErrorAsWritten()) == DownloadFailedPrefix + ReleaseFetchFailedText
  {
  }

  /** `fetchLatestRelease` as written: the manifest, or the error its two `catch` blocks produce. */
  function FetchLatestReleaseAsWritten(manifest: Exchange<Option<Release>>): (r: Result<Release, InstallerError>)
    ensures manifest.TransportError? ==> r == Failure(DownloadFailed(manifest.description))
    ensures manifest.Response? && !StatusAccepted(manifest.status) ==> r == Failure(ManifestStatusErrorAsWritten())
    ensures r.Success? <==> manifest.Response? && StatusAccepted(manifest.status) && manifest.payload.Some?
    ensures r.Success? ==> r.value == manifest.payload.value
  {
    match manifest
    case TransportError(d) => Failure(DownloadFailed(d))
    case Response(status, decoded) =>
      if !StatusAccepted(status) then Failure(ManifestStatusErrorAsWritten())
      else if decoded.None? then Failure(ReleaseFetchFailed)
      else Success(decoded.value)
  }

  /**
   * `fetchLatestRelease` with a refused response reported as
   * `releaseFetchFailed`; a transport error still surfaces as `downloadFailed`
   * and a manifest that does not decode as `releaseFetchFailed`.
   */
  function FetchLatestRelease(manifest: Exchange<Option<Release>>): (r: Result<Release, InstallerError>)
    ensures r.Success? <==> manifest.Response? && StatusAccepted(manifest.status) && manifest.payload.Some?
    ensures r.Success? ==> r.value == manifest.payload.value
    ensures manifest.TransportError? ==> r == Failure(DownloadFailed(manifest.description))
    ensures manifest.Response? && r.Failure? ==> r.error == ReleaseFetchFailed
  {
    match manifest
    case TransportError(d) => Failure(DownloadFailed(d))
    case Response(status, decoded) =>
      if !StatusAccepted(status) then Failure(ManifestStatusError())
      else if decoded.None? then Failure(ReleaseFetchFailed)
      else Success(decoded.value)
  }

  /** The two agree everywhere except on a refused manifest response. */
  lemma FetchLatestReleaseDiffers(manifest: Exchange<Option<Release>>)
    ensures FetchLatestReleaseAsWritten(manifest) != FetchLatestRelease(manifest)
      <==> manifest.Response? && !StatusAccepted(manifest.status)
  {
  }

  /**
   * The error a refused asset download surfaces as. The throw of
   * `downloadFailed("HTTP <code>")` is caught by the `catch` of its own `do`
   * block and wrapped a second time.
   */
  function AssetStatusErrorAsWritten(code: nat): (e: InstallerError)
    ensures e.DownloadFailed?
  {
    DownloadFailed(Description(DownloadFailed("HTTP " + NatToString(code))))
  }

  /** The error a refused asset download was meant to raise. */
  function AssetStatusError(code: nat): (e: InstallerError)
    ensures Description(e) == DownloadFailedPrefix + "HTTP " + NatToString(code)
  {
    DownloadFailed("HTTP " + NatToString(code))
  }

  /** As written, the user sees the "download failed" prefix twice for an HTTP 404. */
  lemma AssetStatusDoublePrefix()
    ensures Description(AssetStatusErrorAsWritten(404)) == DownloadFailedPrefix + DownloadFailedPrefix + "HTTP 404"
    ensures Description(AssetStatusError(404)) == DownloadFailedPrefix + "HTTP 404"
  {
    assert NatToString(404) == "404";
  }

  /** The download arrived with an accepted status and was moved into place. */
  predicate Delivered(urlValid: bool, download: Exchange<string>, moveSucceeds: bool) {
    urlValid && download.Response? && StatusAccepted(download.status) && moveSucceeds
  }

  /** The saved path is a free name in the destination directory, the preferred one when that is free. */
  ghost predicate SavedAt(path: string, destinationDir: string, existing: set<string>, preferred: string) {
    exists name :: path == Append(destinationDir, name) && name !in existing && (preferred !in existing ==> name == preferred)
  }

  /**
   * `downloadAsset`, as written: a refused status is wrapped twice. Returns
   * the path the installer was moved to.
   */
  method DownloadAsset(
    asset: Asset, urlValid: bool, download: Exchange<string>,
    destinationDir: string, existing: set<string>, moveSucceeds: bool, prefix: string)
    returns (r: Result<string, InstallerError>)
    ensures !urlValid ==> r == Failure(DownloadFailed(InvalidUrlMessage))
    ensures urlValid && download.TransportError? ==> r == Failure(DownloadFailed(download.description))
    ensures urlValid && download.Response? && !StatusAccepted(download.status)
      ==> r == Failure(AssetStatusErrorAsWritten(download.status.value))
    ensures urlValid && download.Response? && StatusAccepted(download.status) && !moveSucceeds
      ==> r == Failure(FileMoveFailed)
    ensures r.Success? <==> Delivered(urlValid, download, moveSucceeds)
    ensures r.Success? ==> SavedAt(r.value, destinationDir, existing, PreferredName(asset.name, prefix))
  {
    if !urlValid {
      return Failure(DownloadFailed(InvalidUrlMessage));
    }
    match download
    case TransportError(d) =>
      return Failure(DownloadFailed(d));
    case Response(status, tempPath) =>
      if !StatusAccepted(status) {
        return Failure(AssetStatusErrorAsWritten(status.value));
      }
      var name := UniqueDestinationName(PreferredName(asset.name, prefix), existing);
      if !moveSucceeds {
        return Failure(FileMoveFailed);
      }
      r := Success(Append(destinationDir, name));
  }

  /** `downloadAsset` with the refused-status error raised once, outside the `catch`. */
  method DownloadAssetIntended(
    asset: Asset, urlValid: bool, download: Exchange<string>,
    destinationDir: string, existing: set<string>, moveSucceeds: bool, prefix: string)
    returns (r: Result<string, InstallerError>)
    ensures !urlValid ==> r == Failure(DownloadFailed(InvalidUrlMessage))
    ensures urlValid && download.TransportError? ==> r == Failure(DownloadFailed(download.description))
    ensures urlValid && download.Response? && !StatusAccepted(download.status)
      ==> r == Failure(AssetStatusError(download.status.value))
    ensures urlValid && download.Response? && StatusAccepted(download.status) && !moveSucceeds
      ==> r == Failure(FileMoveFailed)
    ensures r.Success? <==> Delivered(urlValid, download, moveSucceeds)
    ensures r.Success? ==> SavedAt(r.value, destinationDir, existing, PreferredName(asset.name, prefix))
  {
    r := DownloadAsset(asset, urlValid, download, destinationDir, existing, moveSucceeds, prefix);
    if urlValid && download.Response? && !StatusAccepted(download.status) {
      r := Failure(AssetStatusError(download.status.value));
    }
  }

  /** The asset chosen from a fetched release, if the fetch succeeded. */
  function Chosen(target: Target, release: Result<Release, InstallerError>, arch: string): (r: Option<Asset>)
    ensures r.Some? ==> release.Success? && r.value in release.value.assets && IsInstaller(r.value)
    ensures r.None? <==> (release.Failure?
                          || forall j :: 0 <= j < |release.value.assets| ==> !IsInstaller(release.value.assets[j]))
  {
    if release.Failure? then None
    else
      ChooseAssetNoneIff(target, release.value.assets, arch);
      ChooseAsset(target, release.value.assets, arch)
  }

  /**
   * `downloadLatestInstaller`, as written: create the destination
   * directory, fetch the target's latest release, choose an asset and
   * download it. `directoryError` is the error creating the directory
   * throws, if any.
   */
  method DownloadLatestInstaller(
    target: Target, destinationDir: string, preferredArchitecture: string,
    directoryError: Option<string>, manifest: Exchange<Option<Release>>,
    urlValid: bool, download: Exchange<string>, existing: set<string>, moveSucceeds: bool)
    returns (r: Result<string, Thrown>)
    ensures directoryError.Some? ==> r == Failure(System(directoryError.value))
    ensures directoryError.None? && FetchLatestReleaseAsWritten(manifest).Failure?
      ==> r == Failure(Installer(FetchLatestReleaseAsWritten(manifest).error))
    ensures r == Failure(Installer(NoSuitableAsset(ItemName(target)))) <==>
      (directoryError.None? && FetchLatestReleaseAsWritten(manifest).Success?
       && forall j :: 0 <= j < |manifest.payload.value.assets| ==> !IsInstaller(manifest.payload.value.assets[j]))
    ensures directoryError.None? && Chosen(target, FetchLatestReleaseAsWritten(manifest), preferredArchitecture).Some? ==>
      && (!urlValid ==> r == Failure(Installer(DownloadFailed(InvalidUrlMessage))))
      && (urlValid && download.TransportError? ==> r == Failure(Installer(DownloadFailed(download.description))))
      && ((urlValid && download.Response? && !StatusAccepted(download.status))
            ==> r == Failure(Installer(AssetStatusErrorAsWritten(download.status.value))))
      && ((urlValid && download.Response? && StatusAccepted(download.status) && !moveSucceeds)
            ==> r == Failure(Installer(FileMoveFailed)))
    ensures r.Success? <==>
      directoryError.None? && Chosen(target, FetchLatestReleaseAsWritten(manifest), preferredArchitecture).Some?
      && Delivered(urlValid, download, moveSucceeds)
    ensures r.Success? ==>
      SavedAt(r.value, destinationDir, existing,
              PreferredName(Chosen(target, FetchLatestReleaseAsWritten(manifest), preferredArchitecture).value.name, ItemName(target)))
  {
    if directoryError.Some? {
      return Failure(System(directoryError.value));
    }
    var release := FetchLatestReleaseAsWritten(manifest);
    var asset := Chosen(target, release, preferredArchitecture);
    if release.Failure? {
      return Failure(Installer(release.error));
    }
    if asset.None? {
      return Failure(Installer(NoSuitableAsset(ItemName(target))));
    }
    var saved := DownloadAsset(asset.value, urlValid, download, destinationDir, existing, moveSucceeds, ItemName(target));
    if saved.Failure? {
      return Failure(Installer(saved.error));
    }
    r := Success(saved.value);
  }

  /**
   * `downloadLatestInstaller` with both catches fixed: a refused manifest
   * reports `releaseFetchFailed` and a refused download is wrapped once.
   */
  method DownloadLatestInstallerIntended(
    target: Target, destinationDir: string, preferredArchitecture: string,
    directoryError: Option<string>, manifest: Exchange<Option<Release>>,
    urlValid: bool, download: Exchange<string>, existing: set<string>, moveSucceeds: bool)
    returns (r: Result<string, Thrown>)
    ensures directoryError.Some? ==> r == Failure(System(directoryError.value))
    ensures directoryError.None? && FetchLatestRelease(manifest).Failure?
      ==> r == Failure(Installer(FetchLatestRelease(manifest).error))
    ensures r == Failure(Installer(NoSuitableAsset(ItemName(target)))) <==>
      (directoryError.None? && FetchLatestRelease(manifest).Success?
       && forall j :: 0 <= j < |manifest.payload.value.assets| ==> !IsInstaller(manifest.payload.value.assets[j]))
    ensures directoryError.None? && Chosen(target, FetchLatestRelease(manifest), preferredArchitecture).Some? ==>
      && (!urlValid ==> r == Failure(Installer(DownloadFailed(InvalidUrlMessage))))
      && (urlValid && download.TransportError? ==> r == Failure(Installer(DownloadFailed(download.description))))
      && ((urlValid && download.Response? && !StatusAccepted(download.status))
            ==> r == Failure(Installer(AssetStatusError(download.status.value))))
      && ((urlValid && download.Response? && StatusAccepted(download.status) && !moveSucceeds)
            ==> r == Failure(Installer(FileMoveFailed)))
    ensures r.Success? <==>
      directoryError.None? && Chosen(target, FetchLatestRelease(manifest), preferredArchitecture).Some?
      && Delivered(urlValid, download, moveSucceeds)
    ensures r.Success? ==>
      SavedAt(r.value, destinationDir, existing,
              PreferredName(Chosen(target, FetchLatestRelease(manifest), preferredArchitecture).value.name, ItemName(target)))
  {
    if directoryError.Some? {
      return Failure(System(directoryError.value));
    }
    var release := FetchLatestRelease(manifest);
    var asset := Chosen(target, release, preferredArchitecture);
    if release.Failure? {
      return Failure(Installer(release.error));
    }
    if asset.None? {
      return Failure(Installer(NoSuitableAsset(ItemName(target))));
    }
    var saved := DownloadAssetIntended(asset.value, urlValid, download, destinationDir, existing, moveSucceeds, ItemName(target));
    if saved.Failure? {
      return Failure(Installer(saved.error));
    }
    r := Success(saved.value);
  }
}

=== FILE: launcher.dfy ===
/**
 * Starting a configured game under Wine (GameLauncher.swift): the chain of
 * checks, the log file and its header, the locale choice and the process
 * request. The file system, the clock and the environment are facts in a
 * `LaunchHost`; what the launcher does to the outside world is returned as a
 * list of `Effect`s.
 */
module GameLauncher {
  import opened Wrappers
  import opened Text
  import opened Paths
  import opened GameEntries
  import RuntimeManager
  import Collections

  /** `GameLauncherError`, plus any error thrown by the system calls that are not caught. */
  datatype LaunchError =
    | GameNotConfigured
    | GameFolderMissing
    | ExeMissing
    | PrefixCreateFailed
    | WineNotFound
    | LogCreateFailed
    | Foreign(description: string)
  {
    function Description(): (r: string)
      ensures |r| > 0 || this.Foreign?
    {
      match this
      case GameNotConfigured => "请先在 P1 选择游戏文件夹并确认主程序。"
      case GameFolderMissing => "游戏目录不存在。"
      case ExeMissing => "主程序 EXE 不存在。"
      case PrefixCreateFailed => "无法创建 Wine Prefix 文件夹。"
      case WineNotFound => "未找到 Wine。请使用内置 Wine 版本的 App，或手动指定 Wine。"
      case LogCreateFailed => "无法创建日志文件。"
      case Foreign(d) => d
    }
  }

  /** A calendar reading of the clock, as `DateFormatter` sees it. */
  datatype DateTime = DateTime(year: nat, month: nat, day: nat, hour: nat, minute: nat, second: nat)

  /**
   * What the launcher observes. `host` is the file system and shell the Wine
   * lookup probes (its `existing` set also answers `fileExists`);
   * `uncreatable` holds the directories `createDirectory` fails on;
   * `logCreatable` says whether `createFile` succeeds; `now` is the clock and
   * `nowText` its default description; `openError` and `runError` are what
   * opening the log for writing and starting the process throw, if anything.
   */
  datatype LaunchHost = LaunchHost(
    host: RuntimeManager.Host,
    uncreatable: set<string>,
    logCreatable: bool,
    now: DateTime,
    nowText: string,
    environment: map<string, string>,
    openError: Option<string>,
    runError: Option<string>)

  /** The configured `Process`: both output streams go to the log file. */
  datatype SpawnRequest = SpawnRequest(
    executable: string,
    arguments: seq<string>,
    workingDirectory: string,
    environment: map<string, string>,
    outputPath: string)

  /** Everything the launcher does outside itself, in order. */
  datatype Effect =
    | CreateDirectory(path: string)
    | CreateLogFile(path: string)
    | AppendLog(path: string, text: string)
    | Spawn(request: SpawnRequest)

  /** The log path on success, the error otherwise, and what was done on the way. */
  datatype Outcome = Outcome(result: Result<string, LaunchError>, effects: seq<Effect>)

  const JapaneseLocale := "ja_JP.UTF-8"
  const ChineseLocale := "zh_CN.UTF-8"

  // ---------------------------------------------------------------------------
  // Locale

  const ChineseHints: seq<string> := ["汉化", "簡中", "简中", "zh_cn", "chs", "gbk", "中文", "cn_patch", "chinese"]

  /** The lowercased name, executable path and folder path, joined by spaces. */
  function Samples(game: GameEntry): string {
    Join([Lower(game.name), Lower(game.exePath), Lower(game.gameFolderPath)], " ")
  }

  predicate HintIn(samples: string, hint: string) {
    Contains(samples, Lower(hint))
  }

  /** `chineseHints.contains(where:)` over the hints from position `k` on. */
  predicate AnyHintFrom(samples: string, k: nat)
    decreases |ChineseHints| - k
  {
    k < |ChineseHints| && (HintIn(samples, ChineseHints[k]) || AnyHintFrom(samples, k + 1))
  }

  lemma {:induction false} AnyHintFromIff(samples: string, k: nat)
    ensures AnyHintFrom(samples, k) <==> exists j :: k <= j < |ChineseHints| && HintIn(samples, ChineseHints[j])
    decreases |ChineseHints| - k
  {
    if k < |ChineseHints| {
      AnyHintFromIff(samples, k + 1);
      if !HintIn(samples, ChineseHints[k]) && exists j :: k <= j < |ChineseHints| && HintIn(samples, ChineseHints[j]) {
        var j :| k <= j < |ChineseHints| && HintIn(samples, ChineseHints[j]);
        assert j != k;
      }
    }
  }

  /**
   * `resolveLocale`: the explicit modes pick their locale; in automatic mode
   * the game is taken to be a Chinese release exactly when some hint occurs
   * in the samples.
   */
  function ResolveLocale(game: GameEntry): (r: string)
    ensures r == JapaneseLocale || r == ChineseLocale
    ensures game.launchLanguageMode == Japanese ==> r == JapaneseLocale
    ensures game.launchLanguageMode == ChineseSimplified ==> r == ChineseLocale
    ensures game.launchLanguageMode == Auto ==>
              (r == ChineseLocale <==> exists h :: h in ChineseHints && HintIn(Samples(game), h))
  {
    AnyHintFromIff(Samples(game), 0);
    match game.launchLanguageMode
    case Japanese => JapaneseLocale
    case ChineseSimplified => ChineseLocale
    case Auto => if AnyHintFrom(Samples(game), 0) then ChineseLocale else JapaneseLocale
  }

  lemma HintsHaveNoSpace()
    ensures forall h :: h in ChineseHints ==> forall j :: 0 <= j < |Lower(h)| ==> Lower(h)[j] != ' '
  {
    forall h | h in ChineseHints
      ensures forall j :: 0 <= j < |Lower(h)| ==> Lower(h)[j] != ' '
    {
      assert forall j :: 0 <= j < |h| ==> h[j] != ' ';
    }
  }

  /**
   * Because no hint contains a space, joining the samples never creates a
   * match: in automatic mode the locale is Chinese exactly when some hint
   * occurs in the lowercased name, executable path or folder path.
   */
  lemma AutoLocaleByField(game: GameEntry)
    requires game.launchLanguageMode == Auto
    ensures ResolveLocale(game) == ChineseLocale <==>
              exists h :: h in ChineseHints &&
                (HintIn(Lower(game.name), h) || HintIn(Lower(game.exePath), h) || HintIn(Lower(game.gameFolderPath), h))
  {
    var a, b, c := Lower(game.name), Lower(game.exePath), Lower(game.gameFolderPath);
    assert Samples(game) == a + [' '] + (b + [' '] + c) by {
      assert [a, b, c][1..] == [b, c];
      assert [b, c][1..] == [c];
      assert Join([b, c], " ") == b + " " + c;
      assert Join([a, b, c], " ") == a + " " + Join([b, c], " ");
    }
    HintsHaveNoSpace();
    forall h | h in ChineseHints
      ensures HintIn(Samples(game), h) <==> HintIn(a, h) || HintIn(b, h) || HintIn(c, h)
    {
      ContainsAcrossSeparator(a, ' ', b + [' '] + c, Lower(h));
      ContainsAcrossSeparator(b, ' ', c, Lower(h));
    }
  }

  // ---------------------------------------------------------------------------
  // Log file

  predicate SlashFree(s: string) {
    '/' !in s
  }

  /** `n` in decimal, padded with zeros to at least `width` digits. */
  function ZeroPad(n: nat, width: nat): (r: string)
    ensures SlashFree(r)
    ensures DecimalOf(r, n)
    ensures |r| >= width && (|NatToString(n)| <= width ==> |r| == width)
    ensures |r| >= |NatToString(n)| && r[|r| - |NatToString(n)|..] == NatToString(n)
    ensures forall j :: 0 <= j < |r| - |NatToString(n)| ==> r[j] == '0'
  {
    var s := NatToString(n);
    NatToStringValue(n);
    if |s| >= width then s
    else
      var z := seq(width - |s|, _ => '0');
      LeadingZeros(z, s);
      z + s
  }

  function Power10(k: nat): (r: nat)
    ensures r > 0
  {
    if k == 0 then 1 else 10 * Power10(k - 1)
  }

  /** A number below 10^k has at most k digits. */
  lemma {:induction false} DigitCount(n: nat, k: nat)
    ensures 0 < k && n < Power10(k) ==> |NatToString(n)| <= k
  {
    if n >= 10 && 0 < k && n < Power10(k) {
      assert Power10(k) == 10 * Power10(k - 1);
      assert n / 10 < Power10(k - 1);
      DigitCount(n / 10, k - 1);
    }
  }

  predicate InRange(t: DateTime) {
    t.year < 10000 && t.month < 100 && t.day < 100 && t.hour < 100 && t.minute < 100 && t.second < 100
  }

  /** "yyyyMMdd". */
  function DatePart(t: DateTime): (r: string)
    ensures SlashFree(r)
    ensures InRange(t) ==> |r| == 8 && DecimalOf(r[..4], t.year) && DecimalOf(r[4..6], t.month) && DecimalOf(r[6..8], t.day)
  {
    DigitCount(t.year, 4);
    DigitCount(t.month, 2);
    DigitCount(t.day, 2);
    var y, m, d := ZeroPad(t.year, 4), ZeroPad(t.month, 2), ZeroPad(t.day, 2);
    var r := y + m + d;
    assert InRange(t) ==> |r| == 8 && DecimalOf(r[..4], t.year) && DecimalOf(r[4..6], t.month) && DecimalOf(r[6..8], t.day) by {
      if InRange(t) {
        ThreeFields(y, m, d, t.year, t.month, t.day);
      }
    }
    r
  }

  /** "HHmmss". */
  function TimePart(t: DateTime): (r: string)
    ensures SlashFree(r)
    ensures InRange(t) ==> |r| == 6 && DecimalOf(r[..2], t.hour) && DecimalOf(r[2..4], t.minute) && DecimalOf(r[4..6], t.second)
  {
    DigitCount(t.hour, 2);
    DigitCount(t.minute, 2);
    DigitCount(t.second, 2);
    var h, m, s := ZeroPad(t.hour, 2), ZeroPad(t.minute, 2), ZeroPad(t.second, 2);
    var r := h + m + s;
    assert InRange(t) ==> |r| == 6 && DecimalOf(r[..2], t.hour) && DecimalOf(r[2..4], t.minute) && DecimalOf(r[4..6], t.second) by {
      if InRange(t) {
        ThreeFields(h, m, s, t.hour, t.minute, t.second);
      }
    }
    r
  }

  /** `DateFormatter` with format "yyyyMMdd-HHmmss". */
  function Timestamp(t: DateTime): (r: string)
    ensures SlashFree(r)
    ensures InRange(t) ==> |r| == 15 && r[8] == '-'
    ensures InRange(t) ==>
      && DecimalOf(r[..4], t.year) && DecimalOf(r[4..6], t.month) && DecimalOf(r[6..8], t.day)
      && DecimalOf(r[9..11], t.hour) && DecimalOf(r[11..13], t.minute) && DecimalOf(r[13..15], t.second)
  {
    var date, time := DatePart(t), TimePart(t);
    var r := date + "-" + time;
    assert InRange(t) ==>
      && |r| == 15 && r[8] == '-'
      && DecimalOf(r[..4], t.year) && DecimalOf(r[4..6], t.month) && DecimalOf(r[6..8], t.day)
      && DecimalOf(r[9..11], t.hour) && DecimalOf(r[11..13], t.minute) && DecimalOf(r[13..15], t.second) by {
      if InRange(t) {
        StampFields(date, time, t);
      }
    }
    r
  }

  /** Two in-range moments with the same timestamp are the same moment: the stamp reads back every field. */
  lemma TimestampDetermines(t1: DateTime, t2: DateTime)
    requires InRange(t1) && InRange(t2) && Timestamp(t1) == Timestamp(t2)
    ensures t1 == t2
  {
  }

  /** Three digit fields put side by side each still read their own value. */
  lemma ThreeFields(a: string, b: string, c: string, x: nat, y: nat, z: nat)
    requires DecimalOf(a, x) && DecimalOf(b, y) && DecimalOf(c, z)
    ensures var r := a + b + c;
      && DecimalOf(r[..|a|], x) && DecimalOf(r[|a|..|a| + |b|], y) && DecimalOf(r[|a| + |b|..|a| + |b| + |c|], z)
  {
    var r := a + b + c;
    assert r[..|a|] == a && r[|a|..|a| + |b|] == b && r[|a| + |b|..|a| + |b| + |c|] == c;
  }

  /** Each field of "yyyyMMdd-HHmmss" reads back the moment's own value. */
  lemma StampFields(date: string, time: string, t: DateTime)
    requires |date| == 8 && DecimalOf(date[..4], t.year) && DecimalOf(date[4..6], t.month) && DecimalOf(date[6..8], t.day)
    requires |time| == 6 && DecimalOf(time[..2], t.hour) && DecimalOf(time[2..4], t.minute) && DecimalOf(time[4..6], t.second)
    ensures var r := date + "-" + time;
      && |r| == 15 && r[8] == '-'
      && DecimalOf(r[..4], t.year) && DecimalOf(r[4..6], t.month) && DecimalOf(r[6..8], t.day)
      && DecimalOf(r[9..11], t.hour) && DecimalOf(r[11..13], t.minute) && DecimalOf(r[13..15], t.second)
  {
    StampSlices(date, time);
    assert (date + "-" + time)[8] == '-';
  }

  /** Where each field of "yyyyMMdd-HHmmss" sits. */
  lemma StampSlices(date: string, time: string)
    requires |date| == 8 && |time| == 6
    ensures var r := date + "-" + time;
      && r[..4] == date[..4] && r[4..6] == date[4..6] && r[6..8] == date[6..8]
      && r[9..11] == time[..2] && r[11..13] == time[2..4] && r[13..15] == time[4..6]
  {
  }

  /**
   * `logFileName`: the game name with every "/" turned into "_", a dash,
   * the timestamp and ".log".
   */
  function LogFileName(name: string, t: DateTime): (r: string)
    ensures |r| == |name| + 1 + |Timestamp(t)| + 4
    ensures HasSuffix(r, ".log") && SlashFree(r)
    ensures r[..|name|] == ReplaceChar(name, '/', '_') && r[|name|] == '-'
    ensures r[|name| + 1..|r| - 4] == Timestamp(t)
  {
    var safe := ReplaceChar(name, '/', '_');
    SanitizedIsSlashFree(name);
    FileNameShape(safe, Timestamp(t));
    safe + "-" + Timestamp(t) + ".log"
  }

  /** The shape of `safe-stamp.log` for any two slash-free parts. */
  lemma FileNameShape(safe: string, stamp: string)
    requires SlashFree(safe) && SlashFree(stamp)
    ensures var r := safe + "-" + stamp + ".log";
      && HasSuffix(r, ".log") && SlashFree(r)
      && r[..|safe|] == safe && r[|safe|] == '-'
  {
    var r := safe + "-" + stamp + ".log";
    assert r[|r| - 4..] == ".log";
    IsPrefixIff(".log", r[|r| - 4..]);
    assert SlashFree("-") && SlashFree(".log");
  }

  /** Replacing every "/" leaves none. */
  lemma SanitizedIsSlashFree(name: string)
    ensures SlashFree(ReplaceChar(name, '/', '_'))
  {
    var safe := ReplaceChar(name, '/', '_');
    forall i | 0 <= i < |safe|
      ensures safe[i] != '/'
    {
    }
  }

  /** Whatever the game is called, its log lands directly inside the logs directory. */
  lemma LogStaysInLogsDirectory(logsDir: string, name: string, t: DateTime)
    ensures LastComponent(Append(logsDir, LogFileName(name, t))) == LogFileName(name, t)
  {
    LastComponentOfAppend(logsDir, LogFileName(name, t));
  }

  /**
   * The log records what is started: the header's folder, executable,
   * prefix, Wine and locale lines carry the working directory, the argument,
   * WINEPREFIX, the executable and LC_ALL of the process request.
   */
  lemma HeaderAgreesWithRequest(game: GameEntry, lh: LaunchHost, wine: string, logPath: string)
    ensures var lines, q := PreludeLines(lh.nowText, game, game.gameFolderPath, game.exePath, game.prefixDir, wine, ResolveLocale(game)),
                            Request(game, lh, wine, logPath);
      && Header(game, lh, wine) == Terminated(lines, "\n")
      && lines[1] == "GAME=" + game.name
      && lines[2] == "FOLDER=" + q.workingDirectory
      && lines[3] == "EXE=" + q.arguments[0]
      && lines[4] == "PREFIX=" + q.environment["WINEPREFIX"]
      && lines[5] == "WINE=" + q.executable
      && lines[6] == "LANG_MODE=" + game.launchLanguageMode.RawValue()
      && lines[7] == "LANG=" + q.environment["LC_ALL"]
  {
    PreludeIsTerminated(lh.nowText, game, game.gameFolderPath, game.exePath, game.prefixDir, wine, ResolveLocale(game));
  }

  /** Each line followed by `sep`. */
  function Terminated(lines: seq<string>, sep: string): string {
    if |lines| == 0 then [] else lines[0] + sep + Terminated(lines[1..], sep)
  }

  lemma {:induction false} TerminatedIsJoin(lines: seq<string>, sep: string)
    requires |lines| > 0
    ensures Terminated(lines, sep) == Join(lines, sep) + sep
  {
    if |lines| > 1 {
      TerminatedIsJoin(lines[1..], sep);
    } else {
      assert lines[1..] == [];
    }
  }

  /** The eight header lines, in order: a dated title, then one "KEY=value" line each. */
  function PreludeLines(nowText: string, game: GameEntry, folder: string, exe: string, prefix: string, wine: string, locale: string): (r: seq<string>)
    ensures |r| == 8
  {
    [ "[" + nowText + "] Launch request",
      "GAME=" + game.name,
      "FOLDER=" + folder,
      "EXE=" + exe,
      "PREFIX=" + prefix,
      "WINE=" + wine,
      "LANG_MODE=" + game.launchLanguageMode.RawValue(),
      "LANG=" + locale ]
  }

  /** The header written before the game's output: the lines and an empty one, joined by newlines. */
  function Prelude(nowText: string, game: GameEntry, folder: string, exe: string, prefix: string, wine: string, locale: string): string {
    Join(PreludeLines(nowText, game, folder, exe, prefix, wine, locale) + [""], "\n")
  }

  /** The header is its eight lines, each ended by a newline. */
  lemma PreludeIsTerminated(nowText: string, game: GameEntry, folder: string, exe: string, prefix: string, wine: string, locale: string)
    ensures Prelude(nowText, game, folder, exe, prefix, wine, locale)
         == Terminated(PreludeLines(nowText, game, folder, exe, prefix, wine, locale), "\n")
  {
    var lines := PreludeLines(nowText, game, folder, exe, prefix, wine, locale);
    JoinAppend(lines, "", "\n");
    TerminatedIsJoin(lines, "\n");
  }

  // ---------------------------------------------------------------------------
  // Process

  const OverlayKeys: set<string> := {"WINEPREFIX", "WINEDEBUG", "LANG", "LC_ALL"}

  /** The inherited environment with the prefix, the debug switch and the locale set. */
  function LaunchEnvironment(inherited: map<string, string>, prefix: string, locale: string): (r: map<string, string>)
    ensures r.Keys == inherited.Keys + OverlayKeys
    ensures r["WINEPREFIX"] == prefix && r["WINEDEBUG"] == "-all"
    ensures r["LANG"] == locale && r["LC_ALL"] == locale
    ensures forall k :: k in inherited && k !in OverlayKeys ==> r[k] == inherited[k]
  {
    inherited["WINEPREFIX" := prefix]["WINEDEBUG" := "-all"]["LANG" := locale]["LC_ALL" := locale]
  }

  /** Launching from an environment the launcher already set up yields that same environment. */
  lemma LaunchEnvironmentIdempotent(inherited: map<string, string>, prefix: string, locale: string)
    ensures LaunchEnvironment(LaunchEnvironment(inherited, prefix, locale), prefix, locale)
         == LaunchEnvironment(inherited, prefix, locale)
  {
  }

  // ---------------------------------------------------------------------------
  // Launch

  /**
   * The checks before anything touches the disk, in the order `launch`
   * makes them: an executable is chosen, a folder is chosen, the folder
   * exists, the executable exists, a prefix is chosen.
   */
  function ConfigurationError(game: GameEntry, existing: set<string>): (r: Option<LaunchError>)
    ensures r.None? <==>
              game.exePath != "" && game.gameFolderPath != "" && game.gameFolderPath in existing
              && game.exePath in existing && game.prefixDir != ""
    ensures r == Some(GameNotConfigured) <==>
              game.exePath == ""
              || (game.gameFolderPath != "" && game.gameFolderPath in existing && game.exePath in existing && game.prefixDir == "")
    ensures r == Some(GameFolderMissing) <==>
              game.exePath != "" && (game.gameFolderPath == "" || game.gameFolderPath !in existing)
    ensures r == Some(ExeMissing) <==>
              game.exePath != "" && game.gameFolderPath != "" && game.gameFolderPath in existing && game.exePath !in existing
  {
    if game.ExePath().None? then Some(GameNotConfigured)
    else if game.FolderPath().None? then Some(GameFolderMissing)
    else if game.gameFolderPath !in existing then Some(GameFolderMissing)
    else if game.exePath !in existing then Some(ExeMissing)
    else if game.PrefixPath().None? then Some(GameNotConfigured)
    else None
  }

  function LogPath(logsDir: string, game: GameEntry, lh: LaunchHost): string {
    Append(logsDir, LogFileName(game.name, lh.now))
  }

  /** The process `launch` starts for a game that passed its checks. */
  function Request(game: GameEntry, lh: LaunchHost, wine: string, logPath: string): (r: SpawnRequest)
    ensures r.executable == wine && r.arguments == [game.exePath]
    ensures r.workingDirectory == game.gameFolderPath && r.outputPath == logPath
    ensures r.environment.Keys == lh.environment.Keys + OverlayKeys
    ensures r.environment["WINEPREFIX"] == game.prefixDir && r.environment["WINEDEBUG"] == "-all"
    ensures r.environment["LANG"] == ResolveLocale(game) && r.environment["LC_ALL"] == ResolveLocale(game)
    ensures forall k :: k in lh.environment && k !in OverlayKeys ==> r.environment[k] == lh.environment[k]
  {
    SpawnRequest(wine, [game.exePath], game.gameFolderPath,
                 LaunchEnvironment(lh.environment, game.prefixDir, ResolveLocale(game)), logPath)
  }

  /** The process is started exactly on success, and as the last effect. */
  predicate StartsOnlyAtEnd(o: Outcome) {
    && (forall k :: 0 <= k < |o.effects| - 1 ==> !o.effects[k].Spawn?)
    && (o.result.Success? <==> |o.effects| > 0 && o.effects[|o.effects| - 1].Spawn?)
  }

  /** The header for a game about to run under `wine`. */
  function Header(game: GameEntry, lh: LaunchHost, wine: string): string {
    Prelude(lh.nowText, game, game.gameFolderPath, game.exePath, game.prefixDir, wine, ResolveLocale(game))
  }

  /**
   * `launch` after the configuration checks: the prefix and logs
   * directories, the Wine binary, then the logged process.
   */
  function PrepareAndStart(game: GameEntry, logsDir: string, logPath: string, wine: Option<string>, lh: LaunchHost): (r: Outcome)
    ensures |r.effects| > 0 && r.effects[0] == CreateDirectory(game.prefixDir)
  {
    var prefix, logs := CreateDirectory(game.prefixDir), CreateDirectory(logsDir);
    if game.prefixDir in lh.uncreatable then Outcome(Failure(PrefixCreateFailed), [prefix])
    else if logsDir in lh.uncreatable then Outcome(Failure(PrefixCreateFailed), [prefix, logs])
    else if wine.None? then Outcome(Failure(WineNotFound), [prefix, logs])
    else
      var started := StartLogged(logPath, Header(game, lh, wine.value), Request(game, lh, wine.value, logPath), lh);
      Outcome(started.result, [prefix, logs] + started.effects)
  }

  /**
   * The log file, which must be creatable or already there, then the
   * process. The header is appended whatever happens to that write, and the
   * process starts only when the log opens for writing and `run` succeeds.
   */
  function StartLogged(logPath: string, header: string, request: SpawnRequest, lh: LaunchHost): (r: Outcome)
    ensures |r.effects| > 0 && r.effects[0] == CreateLogFile(logPath)
  {
    var created, append := CreateLogFile(logPath), AppendLog(logPath, header);
    if !lh.logCreatable && logPath !in lh.host.existing then Outcome(Failure(LogCreateFailed), [created])
    else if lh.openError.Some? then Outcome(Failure(Foreign(lh.openError.value)), [created, append])
    else if lh.runError.Some? then Outcome(Failure(Foreign(lh.runError.value)), [created, append])
    else Outcome(Success(logPath), [created, append, Spawn(request)])
  }

  /** The errors of the logged start: a log that cannot be made, or what `open` or `run` threw. */
  lemma StartLoggedErrors(logPath: string, header: string, request: SpawnRequest, lh: LaunchHost)
    ensures var r := StartLogged(logPath, header, request, lh);
      && (r.result == Failure(LogCreateFailed) <==> !lh.logCreatable && logPath !in lh.host.existing)
      && r.result != Failure(PrefixCreateFailed) && r.result != Failure(WineNotFound)
      && (r.result.Failure? && r.result.error.Foreign? ==>
            Some(r.result.error.description) == (if lh.openError.Some? then lh.openError else lh.runError))
  {
  }

  /** The logged start spawns only as its last step, and on success it made the log, wrote the header and spawned. */
  lemma StartLoggedEffects(logPath: string, header: string, request: SpawnRequest, lh: LaunchHost)
    ensures var r := StartLogged(logPath, header, request, lh);
      && StartsOnlyAtEnd(r)
      && (r.result.Success? ==>
            && r.result.value == logPath
            && r.effects == [CreateLogFile(logPath), AppendLog(logPath, header), Spawn(request)])
  {
  }

  /** Effects that start nothing, put in front, keep the process last. */
  lemma StartsOnlyAtEndAfter(before: seq<Effect>, o: Outcome)
    requires forall k :: 0 <= k < |before| ==> !before[k].Spawn?
    requires StartsOnlyAtEnd(o) && |o.effects| > 0
    ensures StartsOnlyAtEnd(Outcome(o.result, before + o.effects))
  {
    var all := before + o.effects;
    assert all[|all| - 1] == o.effects[|o.effects| - 1];
    forall k | 0 <= k < |all| - 1
      ensures !all[k].Spawn?
    {
      if k >= |before| {
        assert all[k] == o.effects[k - |before|];
      }
    }
  }

  /** Which error the steps after the configuration checks end in, if any. */
  lemma PrepareAndStartErrors(game: GameEntry, logsDir: string, logPath: string, wine: Option<string>, lh: LaunchHost)
    ensures var r := PrepareAndStart(game, logsDir, logPath, wine, lh);
      && (r.result == Failure(PrefixCreateFailed) <==> game.prefixDir in lh.uncreatable || logsDir in lh.uncreatable)
      && (r.result == Failure(WineNotFound) <==>
            game.prefixDir !in lh.uncreatable && logsDir !in lh.uncreatable && wine.None?)
      && (r.result == Failure(LogCreateFailed) <==>
            game.prefixDir !in lh.uncreatable && logsDir !in lh.uncreatable && wine.Some?
            && !lh.logCreatable && logPath !in lh.host.existing)
      && (r.result.Failure? && r.result.error.Foreign? ==>
            Some(r.result.error.description) == (if lh.openError.Some? then lh.openError else lh.runError))
  {
    if game.prefixDir !in lh.uncreatable && logsDir !in lh.uncreatable && wine.Some? {
      StartLoggedErrors(logPath, Header(game, lh, wine.value), Request(game, lh, wine.value, logPath), lh);
    }
  }

  /** The process starts only as the last step after the configuration checks. */
  lemma PrepareAndStartSpawnsLast(game: GameEntry, logsDir: string, logPath: string, wine: Option<string>, lh: LaunchHost)
    ensures StartsOnlyAtEnd(PrepareAndStart(game, logsDir, logPath, wine, lh))
  {
    if game.prefixDir !in lh.uncreatable && logsDir !in lh.uncreatable && wine.Some? {
      var header, request := Header(game, lh, wine.value), Request(game, lh, wine.value, logPath);
      StartLoggedEffects(logPath, header, request, lh);
      StartsOnlyAtEndAfter([CreateDirectory(game.prefixDir), CreateDirectory(logsDir)], StartLogged(logPath, header, request, lh));
    }
  }

  /** Without a Wine binary only the directories are made. */
  lemma PrepareWithoutWine(game: GameEntry, logsDir: string, logPath: string, lh: LaunchHost)
    ensures PrepareAndStart(game, logsDir, logPath, None, lh).effects <= [CreateDirectory(game.prefixDir), CreateDirectory(logsDir)]
  {
  }

  /** On success: both directories, the log, its header and the process, in that order. */
  lemma PrepareAndStartEffects(game: GameEntry, logsDir: string, logPath: string, wine: Option<string>, lh: LaunchHost)
    ensures var r := PrepareAndStart(game, logsDir, logPath, wine, lh);
      r.result.Success? ==>
        && wine.Some?
        && r.result.value == logPath
        && r.effects == [CreateDirectory(game.prefixDir), CreateDirectory(logsDir), CreateLogFile(logPath),
                         AppendLog(logPath, Header(game, lh, wine.value)), Spawn(Request(game, lh, wine.value, logPath))]
  {
    if game.prefixDir !in lh.uncreatable && logsDir !in lh.uncreatable && wine.Some? {
      var header, request := Header(game, lh, wine.value), Request(game, lh, wine.value, logPath);
      StartLoggedEffects(logPath, header, request, lh);
      ConcatFive(CreateDirectory(game.prefixDir), CreateDirectory(logsDir), CreateLogFile(logPath), AppendLog(logPath, header), Spawn(request));
    }
  }

  lemma ConcatFive(a: Effect, b: Effect, c: Effect, d: Effect, e: Effect)
    ensures [a, b] + [c, d, e] == [a, b, c, d, e]
  {
  }

  /**
   * `launch`: the configuration checks in order, then the directories, the
   * Wine binary and the logged process. The Wine binary is resolved as
   * written, so a path printed by the shell keeps its newline.
   */
  function Launch(game: GameEntry, logsDir: string, preferredWineBinaryPath: string, lh: LaunchHost): (r: Outcome)
    ensures ConfigurationError(game, lh.host.existing).Some? ==>
              r == Outcome(Failure(ConfigurationError(game, lh.host.existing).value), [])
  {
    LaunchWith(game, logsDir, RuntimeManager.ResolveWineBinaryAsWritten(lh.host, preferredWineBinaryPath), lh)
  }

  /** `launch` with the shell's output trimmed, as the lookup was meant to work. */
  function LaunchIntended(game: GameEntry, logsDir: string, preferredWineBinaryPath: string, lh: LaunchHost): (r: Outcome)
    ensures ConfigurationError(game, lh.host.existing).Some? ==>
              r == Outcome(Failure(ConfigurationError(game, lh.host.existing).value), [])
    ensures (ConfigurationError(game, lh.host.existing).None? && RuntimeManager.ResolveWineBinary(lh.host, preferredWineBinaryPath).None?)
              ==> r.result.Failure? && !(exists k :: 0 <= k < |r.effects| && r.effects[k].CreateLogFile?)
  {
    var wine := RuntimeManager.ResolveWineBinary(lh.host, preferredWineBinaryPath);
    var r := LaunchWith(game, logsDir, wine, lh);
    assert (ConfigurationError(game, lh.host.existing).None? && wine.None?)
             ==> r.result.Failure? && !(exists k :: 0 <= k < |r.effects| && r.effects[k].CreateLogFile?) by {
      if ConfigurationError(game, lh.host.existing).None? {
        PrepareMakesLogIff(game, logsDir, LogPath(logsDir, game, lh), wine, lh);
        PrepareAndStartSpawnsLast(game, logsDir, LogPath(logsDir, game, lh), wine, lh);
      }
    }
    r
  }

  /** The launch once the Wine lookup has answered. */
  function LaunchWith(game: GameEntry, logsDir: string, wine: Option<string>, lh: LaunchHost): Outcome {
    var configuration := ConfigurationError(game, lh.host.existing);
    if configuration.Some? then Outcome(Failure(configuration.value), [])
    else PrepareAndStart(game, logsDir, LogPath(logsDir, game, lh), wine, lh)
  }

  /** The two launches differ only when the shell lookup is what finds Wine. */
  lemma LaunchIntendedAgrees(game: GameEntry, logsDir: string, preferredWineBinaryPath: string, lh: LaunchHost)
    requires Collections.First(RuntimeManager.WineBinaryCandidates(lh.host, preferredWineBinaryPath),
                   p => RuntimeManager.IsExecutable(lh.host, p)).Some?
      || RuntimeManager.WineLookupAsWritten(lh.host) == RuntimeManager.WineLookup(lh.host)
    ensures Launch(game, logsDir, preferredWineBinaryPath, lh) == LaunchIntended(game, logsDir, preferredWineBinaryPath, lh)
  {
  }

  /** Which error `launch` ends in once the configuration is sound. */
  lemma LaunchErrors(game: GameEntry, logsDir: string, preferredWineBinaryPath: string, lh: LaunchHost)
    ensures var r, ok, wine := Launch(game, logsDir, preferredWineBinaryPath, lh), ConfigurationError(game, lh.host.existing).None?,
                               RuntimeManager.ResolveWineBinaryAsWritten(lh.host, preferredWineBinaryPath);
      && (r.result == Failure(PrefixCreateFailed) <==> ok && (game.prefixDir in lh.uncreatable || logsDir in lh.uncreatable))
      && (r.result == Failure(WineNotFound) <==>
            ok && game.prefixDir !in lh.uncreatable && logsDir !in lh.uncreatable && wine.None?)
  {
    if ConfigurationError(game, lh.host.existing).None? {
      PrepareAndStartErrors(game, logsDir, LogPath(logsDir, game, lh), RuntimeManager.ResolveWineBinaryAsWritten(lh.host, preferredWineBinaryPath), lh);
    }
  }

  /** After the configuration checks, a log file is made exactly when both directories were made and Wine was found. */
  lemma PrepareMakesLogIff(game: GameEntry, logsDir: string, logPath: string, wine: Option<string>, lh: LaunchHost)
    ensures var r := PrepareAndStart(game, logsDir, logPath, wine, lh);
      (exists k :: 0 <= k < |r.effects| && r.effects[k].CreateLogFile?)
        <==> game.prefixDir !in lh.uncreatable && logsDir !in lh.uncreatable && wine.Some?
  {
    var r := PrepareAndStart(game, logsDir, logPath, wine, lh);
    if game.prefixDir !in lh.uncreatable && logsDir !in lh.uncreatable && wine.Some? {
      var started := StartLogged(logPath, Header(game, lh, wine.value), Request(game, lh, wine.value, logPath), lh);
      assert r.effects[2] == started.effects[0];
    } else {
      forall k | 0 <= k < |r.effects|
        ensures !r.effects[k].CreateLogFile?
      {
      }
    }
  }

  /** `launch` makes a log file exactly when every check before the log step passed. */
  lemma LaunchMakesLogIff(game: GameEntry, logsDir: string, preferredWineBinaryPath: string, lh: LaunchHost)
    ensures var r := Launch(game, logsDir, preferredWineBinaryPath, lh);
      (exists k :: 0 <= k < |r.effects| && r.effects[k].CreateLogFile?)
        <==> && ConfigurationError(game, lh.host.existing).None?
             && game.prefixDir !in lh.uncreatable && logsDir !in lh.uncreatable
             && RuntimeManager.ResolveWineBinaryAsWritten(lh.host, preferredWineBinaryPath).Some?
  {
    if ConfigurationError(game, lh.host.existing).None? {
      PrepareMakesLogIff(game, logsDir, LogPath(logsDir, game, lh), RuntimeManager.ResolveWineBinaryAsWritten(lh.host, preferredWineBinaryPath), lh);
    }
  }

  /**
   * The process is started only last, and a successful launch passed the
   * configuration checks and did exactly these five things.
   */
  lemma LaunchEffects(game: GameEntry, logsDir: string, preferredWineBinaryPath: string, lh: LaunchHost)
    ensures var r, wine := Launch(game, logsDir, preferredWineBinaryPath, lh), RuntimeManager.ResolveWineBinaryAsWritten(lh.host, preferredWineBinaryPath);
      && StartsOnlyAtEnd(r)
      && (r.result.Success? ==>
            var logPath := LogPath(logsDir, game, lh);
            && ConfigurationError(game, lh.host.existing).None?
            && wine.Some?
            && r.result.value == logPath
            && r.effects == [CreateDirectory(game.prefixDir), CreateDirectory(logsDir), CreateLogFile(logPath),
                             AppendLog(logPath, Header(game, lh, wine.value)), Spawn(Request(game, lh, wine.value, logPath))])
  {
    if ConfigurationError(game, lh.host.existing).None? {
      var logPath, wine := LogPath(logsDir, game, lh), RuntimeManager.ResolveWineBinaryAsWritten(lh.host, preferredWineBinaryPath);
      PrepareAndStartSpawnsLast(game, logsDir, logPath, wine, lh);
      PrepareAndStartEffects(game, logsDir, logPath, wine, lh);
    }
  }
}

=== FILE: models.dfy ===
/** The value types shared by the scanner and the views (Models.swift). */
module Models {
  import opened Wrappers
  import opened Paths

  /** The closed set of engines a scan can report, with the raw values they are stored under. */
  datatype GameEngine = KiriKiri | RenPy | Unity | Unknown {
    function RawValue(): string {
      match this
      case KiriKiri => "KiriKiri/XP3"
      case RenPy => "Ren'Py"
      case Unity => "Unity"
      case Unknown => "未知"
    }
  }

  const AllEngines: seq<GameEngine> := [KiriKiri, RenPy, Unity, GameEngine.Unknown]

  /** `GameEngine(rawValue:)`: the engine stored under `raw`, if any. */
  function EngineFromRawValue(raw: string): (r: Option<GameEngine>)
    ensures r.Some? ==> r.value.RawValue() == raw
  {
    if raw == "KiriKiri/XP3" then Some(KiriKiri)
    else if raw == "Ren'Py" then Some(RenPy)
    else if raw == "Unity" then Some(Unity)
    else if raw == "未知" then Some(GameEngine.Unknown)
    else None
  }

  /** Every engine is listed, and decoding its raw value gives it back. */
  lemma EngineRawValueRoundTrip(e: GameEngine)
    ensures e in AllEngines
    ensures EngineFromRawValue(e.RawValue()) == Some(e)
  {
  }

  /** A candidate executable found by a scan. The Swift struct's random `id` is not modelled. */
  datatype ExeCandidate = ExeCandidate(path: string, score: int, reason: string) {
    /** `URL(fileURLWithPath: path).lastPathComponent`. */
    function FileName(): string {
      LastComponent(path)
    }
  }

  /** The file name of a candidate at `dir/name` is `name`. */
  lemma CandidateFileName(dir: string, name: string, score: int, reason: string)
    requires |name| > 0 && forall j :: 0 <= j < |name| ==> name[j] != '/'
    ensures ExeCandidate(Append(dir, name), score, reason).FileName() == name
  {
    LastComponentOfAppend(dir, name);
  }

  datatype GameScanResult = GameScanResult(
    folderPath: string,
    engine: GameEngine,
    recommendedExePath: Option<string>,
    candidates: seq<ExeCandidate>,
    notes: seq<string>,
    xp3Count: nat)

  /** A saved game; dates are seconds since an arbitrary epoch and the `id` is not modelled. */
  datatype SavedGameProfile = SavedGameProfile(
    name: string,
    folderPath: string,
    exePath: string,
    prefixPath: string,
    engine: GameEngine,
    notes: string,
    createdAt: int,
    updatedAt: int)
  {
    /** The line shown under a game's name in the list. */
    function DisplaySubtitle(): (r: string)
      ensures LastComponent(exePath) != "" ==> r == LastComponent(exePath)
      ensures LastComponent(exePath) == "" ==> r == LastComponent(folderPath)
    {
      var exe := LastComponent(exePath);
      if exe == "" then LastComponent(folderPath) else exe
    }
  }

  /** The subtitle is the exe's file name once one is chosen, and the folder's name before. */
  lemma DisplaySubtitleCases(p: SavedGameProfile, dir: string, exeName: string)
    requires |exeName| > 0 && forall j :: 0 <= j < |exeName| ==> exeName[j] != '/'
    ensures p.(exePath := Append(dir, exeName)).DisplaySubtitle() == exeName
    ensures p.(exePath := "").DisplaySubtitle() == LastComponent(p.folderPath)
  {
    LastComponentOfAppend(dir, exeName);
  }

  /** The closed set of states a runtime component can be in, each with its own title. */
  datatype ComponentState = Ready | Missing | Warning | Blocked | Unknown {
    function Title(): string {
      match this
      case Ready => "就绪"
      case Missing => "缺失"
      case Warning => "建议处理"
      case Blocked => "被拦截"
      case Unknown => "未知"
    }
  }

  /** Distinct states never share a title. */
  lemma ComponentTitlesDistinct(a: ComponentState, b: ComponentState)
    ensures a.Title() == b.Title() <==> a == b
  {
  }

  datatype RuntimeComponentStatus = RuntimeComponentStatus(
    title: string,
    state: ComponentState,
    summary: string,
    detail: string)

  datatype RuntimeEnvironmentReport = RuntimeEnvironmentReport(
    checkedAt: int,
    cpuDescription: string,
    wineBinaryPath: Option<string>,
    wineAppPath: Option<string>,
    xQuartzPath: Option<string>,
    components: seq<RuntimeComponentStatus>)

  /** The placeholder report shown before the first probe; `now` stands for `Date()`. */
  function EmptyReport(now: int): (r: RuntimeEnvironmentReport)
    ensures r.components == []
    ensures r.wineBinaryPath.None? && r.wineAppPath.None? && r.xQuartzPath.None?
    ensures r.checkedAt == now
  {
    RuntimeEnvironmentReport(now, "未检测", None, None, None, [])
  }
}

=== FILE: paths.dfy ===
/**
 * File-path helpers standing in for `URL(fileURLWithPath:)`: `pathComponents`,
 * `lastPathComponent`, `appendingPathComponent`, `pathExtension` and
 * `deletingPathExtension`. Paths are plain strings; relative paths are not
 * resolved against a working directory.
 */
module Paths {
  import opened Text

  predicate NotSlash(c: char) {
    c != '/'
  }

  /** The non-empty pieces of `p` between slashes. */
  function Segments(p: string): (r: seq<string>)
    ensures forall k :: 0 <= k < |r| ==> |r[k]| > 0 && forall j :: 0 <= j < |r[k]| ==> r[k][j] != '/'
  {
    Runs(p, NotSlash)
  }

  predicate IsAbsolute(p: string) {
    |p| > 0 && p[0] == '/'
  }

  /** `URL.pathComponents`: a leading "/" for an absolute path, then the segments. */
  function PathComponents(p: string): (r: seq<string>)
    ensures IsAbsolute(p) ==> |r| > 0 && r[0] == "/" && r[1..] == Segments(p)
    ensures !IsAbsolute(p) ==> r == Segments(p)
  {
    if IsAbsolute(p) then ["/"] + Segments(p) else Segments(p)
  }

  /** `URL.lastPathComponent`; the root alone is "/" and the empty path gives "". */
  function LastComponent(p: string): (r: string)
    ensures r == "/" || forall j :: 0 <= j < |r| ==> r[j] != '/'
  {
    var segs := Segments(p);
    if |segs| > 0 then segs[|segs| - 1]
    else if IsAbsolute(p) then "/"
    else ""
  }

  /** `dir.appendingPathComponent(name).path`. */
  function Append(dir: string, name: string): string {
    dir + "/" + name
  }

  /** A plain name appended to any directory is that path's last component. */
  lemma LastComponentOfAppend(dir: string, name: string)
    requires |name| > 0 && forall j :: 0 <= j < |name| ==> name[j] != '/'
    ensures LastComponent(Append(dir, name)) == name
  {
    RunsAtSeparator(dir, '/', name, NotSlash);
    RunsOfWord(name, NotSlash);
  }

  // ---------------------------------------------------------------------------
  // Extensions

  /** The index of the last `c` in `s`, or -1. */
  function LastIndexOf(s: string, c: char): (r: int)
    ensures -1 <= r < |s|
    ensures r >= 0 ==> s[r] == c
    ensures forall j :: r < j < |s| ==> s[j] != c
  {
    if |s| == 0 then -1
    else if s[|s| - 1] == c then |s| - 1
    else LastIndexOf(s[..|s| - 1], c)
  }

  /** A file name has an extension when its last dot is neither its first nor its last character. */
  predicate HasExtension(name: string) {
    0 < LastIndexOf(name, '.') < |name| - 1
  }

  /** `pathExtension` of a file name. */
  function PathExtension(name: string): (r: string)
    ensures forall j :: 0 <= j < |r| ==> r[j] != '.'
    ensures HasExtension(name) <==> r != ""
  {
    if HasExtension(name) then name[LastIndexOf(name, '.') + 1..] else ""
  }

  /** `deletingPathExtension` of a file name. */
  function DeletingPathExtension(name: string): (r: string)
    ensures |r| <= |name|
  {
    if HasExtension(name) then name[..LastIndexOf(name, '.')] else name
  }

  /** A base name and an extension put back together; no extension means no dot. */
  function WithExtension(base: string, ext: string): string {
    if ext == "" then base else base + "." + ext
  }

  /** Splitting a name into base and extension loses nothing. */
  lemma ExtensionRoundTrip(name: string)
    ensures WithExtension(DeletingPathExtension(name), PathExtension(name)) == name
  {
    if HasExtension(name) {
      var d := LastIndexOf(name, '.');
      assert name == name[..d] + [name[d]] + name[d + 1..];
    }
  }
}

=== FILE: runtime.dfy ===
/**
 * Probing the host for Wine, Rosetta, XQuartz and quarantine flags
 * (RuntimeManager.swift). Every file-system query and shell command is
 * replaced by the facts it would report, gathered in a `Host`.
 */
module RuntimeManager {
  import opened Wrappers
  import opened Text
  import opened Paths
  import opened Collections

  /**
   * What the probes observe: the app bundle's resource directory, which
   * paths are executable and which exist, the home directory, and the output
   * of each shell command (`None` when the shell could not be started).
   * `xattrOutput` maps a path to what the quarantine query prints for it.
   */
  datatype Host = Host(
    resources: Option<string>,
    executable: set<string>,
    existing: set<string>,
    home: string,
    wineLookupOutput: Option<string>,
    pgrepOutput: Option<string>,
    pkgutilOutput: Option<string>,
    xattrOutput: map<string, string>)

  /** `RuntimeCheckItem.State`. */
  datatype CheckState = Ok | Missing | Warning | Blocked

  datatype CheckItem = CheckItem(title: string, detail: string, state: CheckState)

  datatype CheckReport = CheckReport(
    items: seq<CheckItem>,
    resolvedWineBinaryPath: string,
    detectedWineAppPath: string,
    rosettaInstalled: bool,
    xquartzInstalled: bool,
    gatekeeperBlocked: bool)

  const WineTitle := "Wine 引擎"
  const RosettaTitle := "Rosetta 2 (Apple Silicon 建议)"
  const XQuartzTitle := "XQuartz (部分 Wine 场景需要)"
  const GatekeeperTitle := "macOS 安全拦截 (Gatekeeper)"

  // The item details.
  const WineAbsent := "未检测到 Wine。请使用内置 Wine 版本打包的 App，或手动指定 Wine。"
  const WineFound := "已检测到 Wine 执行文件 "
  const BundledWineSource := "（内置 Wine）"
  const OtherWineSource := "（系统/手动 Wine）"
  const RosettaFound := "已检测到 Rosetta 相关组件"
  const RosettaAbsent := "未检测到 Rosetta。部分 Wine/游戏需要它。"
  const XQuartzFound := "已检测到 XQuartz\n"
  const XQuartzAbsent := "未检测到 XQuartz。部分图形环境可能需要。"
  const QuarantineFound := "检测到 Wine.app 可能带隔离标记。先打开系统设置 -> 隐私与安全性 -> 允许。"
  const QuarantineAbsent := "未发现明显拦截标记（首次运行仍可能提示）。"

  // ---------------------------------------------------------------------------
  // Locating Wine and XQuartz

  /** `bundledWineAppCandidates`: the Wine apps that may be embedded in the launcher's resources. */
  function BundledWineAppCandidates(h: Host): (r: seq<string>)
    ensures h.resources.None? ==> r == []
    ensures h.resources.Some? ==> |r| == 2
  {
    if h.resources.None? then []
    else [h.resources.value + "/EmbeddedWine/Wine Stable.app", h.resources.value + "/EmbeddedWine/Wine.app"]
  }

  /** The two binaries inside a Wine app, 64-bit first. */
  function WineBinariesIn(app: string): seq<string> {
    [app + "/Contents/Resources/wine/bin/wine64", app + "/Contents/Resources/wine/bin/wine"]
  }

  /** The bundled binaries in the order `resolveBundledWineBinary` tries them: app by app, 64-bit first. */
  function BundledWineBinaryCandidates(h: Host): (r: seq<string>)
    ensures |r| == 2 * |BundledWineAppCandidates(h)|
  {
    var apps := BundledWineAppCandidates(h);
    if |apps| == 0 then [] else WineBinariesIn(apps[0]) + WineBinariesIn(apps[1])
  }

  predicate IsExecutable(h: Host, p: string) {
    p in h.executable
  }

  predicate Exists(h: Host, p: string) {
    p in h.existing
  }

  /** `resolveBundledWineBinary`: the first executable bundled binary. */
  function ResolveBundledWineBinary(h: Host): (r: Option<string>)
    ensures r.Some? ==> r.value in BundledWineBinaryCandidates(h) && IsExecutable(h, r.value)
    ensures r.None? <==> forall j :: 0 <= j < |BundledWineBinaryCandidates(h)| ==> !IsExecutable(h, BundledWineBinaryCandidates(h)[j])
    ensures r.Some? ==> exists k :: 0 <= k < |BundledWineBinaryCandidates(h)| && BundledWineBinaryCandidates(h)[k] == r.value
                                    && forall j :: 0 <= j < k ==> !IsExecutable(h, BundledWineBinaryCandidates(h)[j])
  {
    First(BundledWineBinaryCandidates(h), p => IsExecutable(h, p))
  }

  /** `resolveBundledWineApp`: the first bundled Wine app that exists. */
  function ResolveBundledWineApp(h: Host): (r: Option<string>)
    ensures r.Some? ==> r.value in BundledWineAppCandidates(h) && Exists(h, r.value)
    ensures r.None? <==> forall j :: 0 <= j < |BundledWineAppCandidates(h)| ==> !Exists(h, BundledWineAppCandidates(h)[j])
    ensures r.Some? ==> exists k :: 0 <= k < |BundledWineAppCandidates(h)| && BundledWineAppCandidates(h)[k] == r.value
                                    && forall j :: 0 <= j < k ==> !Exists(h, BundledWineAppCandidates(h)[j])
  {
    First(BundledWineAppCandidates(h), p => Exists(h, p))
  }

  const FixedWineBinaries: seq<string> := [
    "/opt/homebrew/bin/wine64",
    "/opt/homebrew/bin/wine",
    "/usr/local/bin/wine64",
    "/usr/local/bin/wine",
    "/Applications/Wine Stable.app/Contents/Resources/wine/bin/wine64",
    "/Applications/Wine Stable.app/Contents/Resources/wine/bin/wine"
  ]

  /** Every path `resolveWineBinary` checks for executability, in the order it checks them. */
  function WineBinaryCandidates(h: Host, preferred: string): seq<string> {
    BundledWineBinaryCandidates(h) + (if preferred == "" then [] else [preferred]) + FixedWineBinaries
  }

  /** The shell fallback as written: the output of `command -v` is used untrimmed. */
  function WineLookupAsWritten(h: Host): (r: Option<string>)
    ensures r.Some? ==> h.wineLookupOutput == Some(r.value) && r.value != ""
    ensures r.None? <==> h.wineLookupOutput.None? || h.wineLookupOutput.value == ""
  {
    if h.wineLookupOutput.Some? && h.wineLookupOutput.value != "" then h.wineLookupOutput else None
  }

  /** The shell fallback with the output's surrounding whitespace and newline removed. */
  function WineLookup(h: Host): (r: Option<string>)
    ensures r.Some? ==> h.wineLookupOutput.Some? && r.value == TrimWhitespace(h.wineLookupOutput.value)
    ensures r.Some? ==> r.value != "" && r.value[0] !in Whitespace && r.value[|r.value| - 1] !in Whitespace
    ensures r.None? <==> h.wineLookupOutput.None? || forall i :: 0 <= i < |h.wineLookupOutput.value| ==> h.wineLookupOutput.value[i] in Whitespace
  {
    if h.wineLookupOutput.None? then None
    else
      var path := TrimWhitespace(h.wineLookupOutput.value);
      TrimSpec(h.wineLookupOutput.value, Whitespace);
      if path == "" then None else Some(path)
  }

  /** `resolveWineBinary` as written: bundled, preferred, the fixed paths, then the raw shell output. */
  function ResolveWineBinaryAsWritten(h: Host, preferred: string): (r: Option<string>)
    ensures First(WineBinaryCandidates(h, preferred), p => IsExecutable(h, p)).Some?
      ==> r == First(WineBinaryCandidates(h, preferred), p => IsExecutable(h, p))
    ensures First(WineBinaryCandidates(h, preferred), p => IsExecutable(h, p)).None?
      ==> r == WineLookupAsWritten(h)
  {
    var bundled := ResolveBundledWineBinary(h);
    FirstOfConcat(BundledWineBinaryCandidates(h), (if preferred == "" then [] else [preferred]), FixedWineBinaries, p => IsExecutable(h, p));
    if bundled.Some? && IsExecutable(h, bundled.value) then bundled
    else if preferred != "" && IsExecutable(h, preferred) then Some(preferred)
    else
      var fixed := First(FixedWineBinaries, p => IsExecutable(h, p));
      if fixed.Some? then fixed else WineLookupAsWritten(h)
  }

  /**
   * `resolveWineBinary` with the shell output trimmed: the first executable
   * among the bundled binaries, the preferred path and the six fixed paths;
   * failing those, the path the login shell's `command -v` reports.
   */
  function ResolveWineBinary(h: Host, preferred: string): (r: Option<string>)
    ensures First(WineBinaryCandidates(h, preferred), p => IsExecutable(h, p)).Some?
      ==> r == First(WineBinaryCandidates(h, preferred), p => IsExecutable(h, p))
    ensures First(WineBinaryCandidates(h, preferred), p => IsExecutable(h, p)).None?
      ==> r == WineLookup(h)
  {
    var bundled := ResolveBundledWineBinary(h);
    FirstOfConcat(BundledWineBinaryCandidates(h), (if preferred == "" then [] else [preferred]), FixedWineBinaries, p => IsExecutable(h, p));
    if bundled.Some? && IsExecutable(h, bundled.value) then bundled
    else if preferred != "" && IsExecutable(h, preferred) then Some(preferred)
    else
      var fixed := First(FixedWineBinaries, p => IsExecutable(h, p));
      if fixed.Some? then fixed else WineLookup(h)
  }

  /** Searching three sequences in a row is searching their concatenation. */
  lemma FirstOfConcat(a: seq<string>, b: seq<string>, c: seq<string>, p: string -> bool)
    ensures First(a + b + c, p)
         == if First(a, p).Some? then First(a, p)
            else if First(b, p).Some? then First(b, p)
            else First(c, p)
  {
    FirstOfAppend(a, b, p);
    FirstOfAppend(a + b, c, p);
  }

  lemma {:induction false} FirstOfAppend(a: seq<string>, b: seq<string>, p: string -> bool)
    ensures First(a + b, p) == if First(a, p).Some? then First(a, p) else First(b, p)
  {
    if |a| > 0 {
      assert (a + b)[1..] == a[1..] + b;
      FirstOfAppend(a[1..], b, p);
    } else {
      assert a + b == b;
    }
  }

  /**
   * When the shell reports a path followed by a newline and nothing earlier
   * matched, the path as written keeps the newline, so it is not the
   * executable the shell found; trimmed, it is.
   */
  lemma WineLookupKeepsNewline(h: Host, preferred: string, path: string)
    requires First(WineBinaryCandidates(h, preferred), p => IsExecutable(h, p)).None?
    requires h.wineLookupOutput == Some(path + "\n")
    requires |path| > 0 && path[0] !in Whitespace && path[|path| - 1] !in Whitespace
    ensures ResolveWineBinaryAsWritten(h, preferred) == Some(path + "\n")
    ensures ResolveWineBinaryAsWritten(h, preferred) != Some(path)
    ensures ResolveWineBinary(h, preferred) == Some(path)
  {
    assert |path + "\n"| != |path|;
    assert (path + "\n")[0] !in Whitespace;
    TrimAfterNewline(path);
  }

  lemma TrimAfterNewline(path: string)
    requires |path| > 0 && path[0] !in Whitespace && path[|path| - 1] !in Whitespace
    ensures TrimWhitespace(path + "\n") == path
  {
    var s := path + "\n";
    assert '\n' in Whitespace;
    assert TrimLeft(s, Whitespace) == s;
    assert s[..|s| - 1] == path;
    assert TrimRight(s, Whitespace) == TrimRight(path, Whitespace);
  }

  /** The four common Wine app locations, system-wide before per-user. */
  function CommonWineApps(h: Host): seq<string> {
    [
      "/Applications/Wine Stable.app",
      "/Applications/Wine.app",
      h.home + "/Applications/Wine Stable.app",
      h.home + "/Applications/Wine.app"
    ]
  }

  /** Every path `resolveWineApp` checks for existence, in order. */
  function WineAppCandidates(h: Host, preferred: string): seq<string> {
    BundledWineAppCandidates(h) + (if preferred == "" then [] else [preferred]) + CommonWineApps(h)
  }

  /** `resolveWineApp`: bundled, then the preferred path if it exists, then the common locations; no shell fallback. */
  function ResolveWineApp(h: Host, preferred: string): (r: Option<string>)
    ensures r == First(WineAppCandidates(h, preferred), p => Exists(h, p))
    ensures r.Some? ==> Exists(h, r.value)
  {
    var bundled := ResolveBundledWineApp(h);
    FirstOfConcat(BundledWineAppCandidates(h), (if preferred == "" then [] else [preferred]), CommonWineApps(h), p => Exists(h, p));
    if bundled.Some? && Exists(h, bundled.value) then bundled
    else if preferred != "" && Exists(h, preferred) then Some(preferred)
    else First(CommonWineApps(h), p => Exists(h, p))
  }

  const XQuartzApps: seq<string> := ["/Applications/Utilities/XQuartz.app", "/Applications/XQuartz.app"]

  /** `resolveXQuartzApp`: the first of the two fixed locations that exists. */
  function ResolveXQuartzApp(h: Host): (r: Option<string>)
    ensures r.Some? ==> r.value in XQuartzApps && Exists(h, r.value)
    ensures Exists(h, XQuartzApps[0]) ==> r == Some(XQuartzApps[0])
    ensures r.None? <==> !Exists(h, XQuartzApps[0]) && !Exists(h, XQuartzApps[1])
  {
    First(XQuartzApps, p => Exists(h, p))
  }

  // ---------------------------------------------------------------------------
  // Rosetta and quarantine

  /** A shell command whose trimmed output is "0" reports success. */
  predicate PrintsZero(output: Option<string>) {
    output.Some? && TrimWhitespace(output.value) == "0"
  }

  /**
   * `detectRosettaInstalled`: the `oahd` process check, then the package
   * receipt check; each reports through the exit status it echoes.
   */
  function DetectRosettaInstalled(h: Host): (r: bool)
    ensures r <==> PrintsZero(h.pgrepOutput) || PrintsZero(h.pkgutilOutput)
  {
    if PrintsZero(h.pgrepOutput) then true
    else if h.pkgutilOutput.Some? then TrimWhitespace(h.pkgutilOutput.value) == "0"
    else false
  }

  /** `detectQuarantine`: an empty or missing path is never reported; otherwise the attribute query decides. */
  function DetectQuarantine(h: Host, path: string): (r: bool)
    ensures path == "" || !Exists(h, path) ==> !r
    ensures r <==> path != "" && Exists(h, path) && path in h.xattrOutput && TrimWhitespace(h.xattrOutput[path]) == "0"
  {
    if path == "" then false
    else if !Exists(h, path) then false
    else if path in h.xattrOutput then TrimWhitespace(h.xattrOutput[path]) == "0"
    else false
  }

  predicate IsContents(component: string) {
    component == "Contents"
  }

  /** The index of the first "Contents" component, if any. */
  function FirstContents(comps: seq<string>): (r: Option<nat>)
    ensures r.Some? ==>
      (r.value < |comps| && comps[r.value] == "Contents" && forall j :: 0 <= j < r.value ==> comps[j] != "Contents")
    ensures r.None? <==> "Contents" !in comps
  {
    FirstIndex(comps, IsContents)
  }

  /**
   * `inferAppPath(fromWineBinary:)`: the path up to the first "Contents"
   * component, made absolute. Joining the components of an absolute path
   * puts the root "/" in front of a "/" separator, so the result begins
   * with "//".
   */
  function InferAppPath(path: string): (r: Option<string>)
    ensures r.Some? ==> |r.value| > 0 && r.value[0] == '/'
    ensures r.None? <==>
      path == "" || FirstContents(PathComponents(path)).None? || FirstContents(PathComponents(path)).value == 0
  {
    if path == "" then None else AppPathFromComponents(PathComponents(path))
  }

  /** The components before the first "Contents", joined and made absolute, when that is not the first component. */
  function AppPathFromComponents(comps: seq<string>): (r: Option<string>)
    ensures r.Some? ==> |r.value| > 0 && r.value[0] == '/'
    ensures r.None? <==> FirstContents(comps).None? || FirstContents(comps).value == 0
  {
    var idx := FirstContents(comps);
    if idx.Some? && idx.value > 0 then
      var appPath := Join(comps[..idx.value], "/");
      if |appPath| > 0 && appPath[0] == '/' then Some(appPath) else Some("/" + appPath)
    else None
  }

  /** The segments of a path built by joining plain names are those names. */
  lemma {:induction false} SegmentsOfJoin(segs: seq<string>)
    requires forall k :: 0 <= k < |segs| ==> |segs[k]| > 0 && forall j :: 0 <= j < |segs[k]| ==> segs[k][j] != '/'
    ensures Segments(Join(segs, "/")) == segs
  {
    if |segs| == 1 {
      RunsOfWord(segs[0], NotSlash);
    } else if |segs| > 1 {
      var rest := segs[1..];
      SegmentsOfJoin(rest);
      RunsOfWord(segs[0], NotSlash);
      assert Join(segs, "/") == segs[0] + ['/'] + Join(rest, "/");
      RunsAtSeparator(segs[0], '/', Join(rest, "/"), NotSlash);
      assert [segs[0]] + rest == segs;
    }
  }

  /**
   * For a binary inside the `Contents` of an app at an absolute path with no
   * "Contents" component of its own, the inferred app is that path, behind
   * the extra leading "/".
   */
  lemma InferAppPathOfBundle(segs: seq<string>, tail: string)
    requires |segs| > 0
    requires forall k :: 0 <= k < |segs| ==>
      (|segs[k]| > 0 && segs[k] != "Contents" && forall j :: 0 <= j < |segs[k]| ==> segs[k][j] != '/')
    ensures InferAppPath("/" + Join(segs, "/") + "/Contents/" + tail) == Some("//" + Join(segs, "/"))
  {
    var app := Join(segs, "/");
    var path := "/" + app + "/Contents/" + tail;
    BundlePath(app, tail);
    BundleComponents(segs, "Contents", tail);
    AppPathOfComponents(segs, Segments(tail));
    InferAppPathVia(path, ["/"] + (segs + (["Contents"] + Segments(tail))));
  }

  lemma BundlePath(app: string, tail: string)
    ensures "/" + app + "/" + "Contents" + "/" + tail == "/" + app + "/Contents/" + tail
  {
  }

  lemma InferAppPathVia(path: string, comps: seq<string>)
    requires path != "" && PathComponents(path) == comps
    ensures InferAppPath(path) == AppPathFromComponents(comps)
  {
  }

  lemma AppPathOfComponents(segs: seq<string>, rest: seq<string>)
    requires |segs| > 0 && forall k :: 0 <= k < |segs| ==> segs[k] != "Contents"
    ensures AppPathFromComponents(["/"] + (segs + (["Contents"] + rest))) == Some("//" + Join(segs, "/"))
  {
    var comps := ["/"] + (segs + (["Contents"] + rest));
    FirstContentsAfterApp(segs, rest);
    assert Join(comps[..|segs| + 1], "/") == "//" + Join(segs, "/") by {
      assert comps[..|segs| + 1] == ["/"] + segs;
      JoinCons("/", segs, "/");
      DoubleSlash(Join(segs, "/"));
    }
    AppPathAt(comps, |segs| + 1, Join(segs, "/"));
  }

  lemma FirstContentsAfterApp(segs: seq<string>, rest: seq<string>)
    requires forall k :: 0 <= k < |segs| ==> segs[k] != "Contents"
    ensures FirstContents(["/"] + (segs + (["Contents"] + rest))) == Some(|segs| + 1)
  {
    var comps := ["/"] + (segs + (["Contents"] + rest));
    assert comps[|segs| + 1] == "Contents";
    forall j | 0 <= j < |segs| + 1
      ensures comps[j] != "Contents"
    {
      if j > 0 {
        assert comps[j] == segs[j - 1];
      } else {
        assert |comps[j]| == 1;
      }
    }
    FirstIndexAt(comps, IsContents, |segs| + 1);
  }

  lemma AppPathAt(comps: seq<string>, k: nat, s: string)
    requires 0 < k < |comps| && FirstContents(comps) == Some(k)
    requires Join(comps[..k], "/") == "//" + s
    ensures AppPathFromComponents(comps) == Some("//" + s)
  {
  }

  /** The components of `/app/word/tail`: the root, the app's segments, the word, then the rest. */
  lemma BundleComponents(segs: seq<string>, word: string, tail: string)
    requires |segs| > 0
    requires forall k :: 0 <= k < |segs| ==>
      (|segs[k]| > 0 && forall j :: 0 <= j < |segs[k]| ==> segs[k][j] != '/')
    requires |word| > 0 && forall j :: 0 <= j < |word| ==> word[j] != '/'
    ensures PathComponents("/" + Join(segs, "/") + "/" + word + "/" + tail) == ["/"] + (segs + ([word] + Segments(tail)))
  {
    var app := Join(segs, "/");
    var rest := word + "/" + tail;
    assert "/" + app + "/" + word + "/" + tail == "/" + (app + "/" + rest);
    assert Segments(rest) == [word] + Segments(tail) by {
      SegmentsAtSlash(word, tail);
      RunsOfWord(word, NotSlash);
    }
    assert Segments(app + "/" + rest) == segs + Segments(rest) by {
      SegmentsAtSlash(app, rest);
      SegmentsOfJoin(segs);
    }
    SegmentsAfterRoot(app + "/" + rest);
  }

  /** A slash separates segments. */
  lemma SegmentsAtSlash(x: string, y: string)
    ensures Segments(x + "/" + y) == Segments(x) + Segments(y)
  {
    assert x + "/" + y == x + ['/'] + y;
    RunsAtSeparator(x, '/', y, NotSlash);
  }

  /** The components of an absolute path: the root, then the segments of the rest. */
  lemma SegmentsAfterRoot(rest: string)
    ensures PathComponents("/" + rest) == ["/"] + Segments(rest)
  {
    assert "/" + rest == [] + ['/'] + rest;
    RunsAtSeparator([], '/', rest, NotSlash);
    assert Segments([]) == [];
  }

  lemma DoubleSlash(s: string)
    ensures "/" + "/" + s == "//" + s
  {
    assert "/" + "/" == "//";
  }

  lemma JoinCons(head: string, parts: seq<string>, sep: string)
    requires |parts| > 0
    ensures Join([head] + parts, sep) == head + sep + Join(parts, sep)
  {
    assert ([head] + parts)[1..] == parts;
  }

  /** The path the quarantine check looks at: the Wine app, else the app inferred from the binary, else nothing. */
  function QuarantineTarget(wineApp: string, wineBinary: string): (r: string)
    ensures wineApp != "" ==> r == wineApp
    ensures wineApp == "" && InferAppPath(wineBinary).Some? ==> r == InferAppPath(wineBinary).value
    ensures wineApp == "" && InferAppPath(wineBinary).None? ==> r == ""
  {
    if wineApp != "" then wineApp else InferAppPath(wineBinary).GetOr("")
  }

  // ---------------------------------------------------------------------------
  // The report

  /** `isBundledWinePath`: the binary lies under the embedded Wine directory. */
  predicate IsBundledWinePath(h: Host, path: string) {
    h.resources.Some? && IsPrefix(h.resources.value + "/EmbeddedWine/", path)
  }

  function WineItem(h: Host, wineBinary: string, blocked: bool): (r: CheckItem)
    ensures r.title == WineTitle
    ensures r.state == Missing <==> wineBinary == ""
    ensures r.state == Blocked <==> wineBinary != "" && blocked
    ensures r.state == Ok <==> wineBinary != "" && !blocked
  {
    if wineBinary == "" then
      CheckItem(WineTitle, WineAbsent, Missing)
    else
      var source := if IsBundledWinePath(h, wineBinary) then BundledWineSource else OtherWineSource;
      CheckItem(WineTitle, WineFound + source + "\n" + wineBinary, if blocked then Blocked else Ok)
  }

  /** The four items of the report, in their fixed order, from the computed facts. */
  function ReportItems(h: Host, wineBinary: string, rosetta: bool, xquartzApp: string, blocked: bool): (r: seq<CheckItem>)
    ensures |r| == 4
    ensures r[0].title == WineTitle && r[1].title == RosettaTitle
    ensures r[2].title == XQuartzTitle && r[3].title == GatekeeperTitle
    ensures r[0].state == Missing <==> wineBinary == ""
    ensures r[0].state == Blocked <==> wineBinary != "" && blocked
    ensures r[0].state == Ok <==> wineBinary != "" && !blocked
    ensures r[1].state == (if rosetta then Ok else Warning)
    ensures r[2].state == (if xquartzApp != "" then Ok else Warning)
    ensures r[3].state == (if blocked then Blocked else Ok)
  {
    var xquartz := xquartzApp != "";
    [
      WineItem(h, wineBinary, blocked),
      CheckItem(RosettaTitle, if rosetta then RosettaFound else RosettaAbsent, if rosetta then Ok else Warning),
      CheckItem(XQuartzTitle, if xquartz then XQuartzFound + xquartzApp else XQuartzAbsent, if xquartz then Ok else Warning),
      CheckItem(GatekeeperTitle, if blocked then QuarantineFound else QuarantineAbsent, if blocked then Blocked else Ok)
    ]
  }

  /**
   * `detect`: resolve every component and report on each, in a fixed order.
   * The Wine binary is resolved as written, so the shell's output is reported
   * untrimmed.
   */
  function Detect(h: Host, preferredWineBinaryPath: string, preferredWineAppPath: string): (r: CheckReport)
    ensures r.resolvedWineBinaryPath == ResolveWineBinaryAsWritten(h, preferredWineBinaryPath).GetOr("")
    ensures r.detectedWineAppPath == ResolveWineApp(h, preferredWineAppPath).GetOr("")
    ensures r.rosettaInstalled == DetectRosettaInstalled(h)
    ensures r.xquartzInstalled <==> ResolveXQuartzApp(h).Some?
    ensures r.gatekeeperBlocked
        == DetectQuarantine(h, QuarantineTarget(r.detectedWineAppPath, r.resolvedWineBinaryPath))
    ensures r.items == ReportItems(h, r.resolvedWineBinaryPath, r.rosettaInstalled, ResolveXQuartzApp(h).GetOr(""), r.gatekeeperBlocked)
  {
    ReportFor(h, ResolveWineBinaryAsWritten(h, preferredWineBinaryPath).GetOr(""), preferredWineAppPath)
  }

  /** `detect` with the shell's output trimmed, as the lookup was meant to work. */
  function DetectIntended(h: Host, preferredWineBinaryPath: string, preferredWineAppPath: string): (r: CheckReport)
    ensures r.resolvedWineBinaryPath == ResolveWineBinary(h, preferredWineBinaryPath).GetOr("")
    ensures r.detectedWineAppPath == ResolveWineApp(h, preferredWineAppPath).GetOr("")
    ensures r.rosettaInstalled == DetectRosettaInstalled(h)
    ensures r.xquartzInstalled <==> ResolveXQuartzApp(h).Some?
    ensures r.gatekeeperBlocked
        == DetectQuarantine(h, QuarantineTarget(r.detectedWineAppPath, r.resolvedWineBinaryPath))
    ensures r.items == ReportItems(h, r.resolvedWineBinaryPath, r.rosettaInstalled, ResolveXQuartzApp(h).GetOr(""), r.gatekeeperBlocked)
  {
    ReportFor(h, ResolveWineBinary(h, preferredWineBinaryPath).GetOr(""), preferredWineAppPath)
  }

  /** The report once the Wine binary is known. */
  function ReportFor(h: Host, wineBinary: string, preferredWineAppPath: string): CheckReport {
    var wineApp := ResolveWineApp(h, preferredWineAppPath).GetOr("");
    var rosetta := DetectRosettaInstalled(h);
    var xquartzApp := ResolveXQuartzApp(h).GetOr("");
    var blocked := DetectQuarantine(h, QuarantineTarget(wineApp, wineBinary));
    CheckReport(ReportItems(h, wineBinary, rosetta, xquartzApp, blocked), wineBinary, wineApp, rosetta, xquartzApp != "", blocked)
  }

  /** The two reports differ only when the shell lookup is what finds Wine. */
  lemma DetectIntendedAgrees(h: Host, preferredWineBinaryPath: string, preferredWineAppPath: string)
    requires First(WineBinaryCandidates(h, preferredWineBinaryPath), p => IsExecutable(h, p)).Some?
      || WineLookupAsWritten(h) == WineLookup(h)
    ensures Detect(h, preferredWineBinaryPath, preferredWineAppPath)
         == DetectIntended(h, preferredWineBinaryPath, preferredWineAppPath)
  {
  }

  /** With no quarantine query reporting anything, nothing is blocked. */
  lemma NoQuarantineNoBlock(h: Host, preferredWineBinaryPath: string, preferredWineAppPath: string)
    requires h.xattrOutput == map[]
    ensures var r := Detect(h, preferredWineBinaryPath, preferredWineAppPath);
      && r.items[0].state != Blocked && r.items[1].state != Blocked
      && r.items[2].state != Blocked && r.items[3].state != Blocked
  {
    assert forall p :: !DetectQuarantine(h, p);
  }
}

=== FILE: scanner.dfy ===
/**
 * The folder scanner (GameScanner.swift): walks a game folder, scores every
 * `.exe` it finds against the folder's name, ranks the candidates, counts
 * `.xp3` archives and engine marker files, classifies the engine and writes
 * the advisory notes.
 *
 * The directory enumerator is an input: the list of entries it yields, in
 * order, each with its path components below the scanned folder. Hidden
 * entries and package contents are skipped by the enumerator itself and are
 * therefore absent from the list; the depth cut-off is the scanner's own
 * logic and is modelled here.
 */
module GameScanner {
  import opened Wrappers
  import opened Text
  import opened Paths
  import opened Models

  // ---------------------------------------------------------------------------
  // Tokens

  /** The maximal runs of letters and digits in `text`. */
  function Tokenize(text: string): (tokens: seq<string>)
    ensures forall k :: 0 <= k < |tokens| ==> |tokens[k]| > 0
    ensures forall k, j :: 0 <= k < |tokens| && 0 <= j < |tokens[k]| ==> IsLetterOrNumber(tokens[k][j])
  {
    Runs(text, IsLetterOrNumber)
  }

  /**
   * Tokenizing splits at every character that is neither a letter nor a digit,
   * and a word made only of letters and digits is a single token.
   */
  lemma TokenizeSpec(x: string, sep: char, y: string, word: string)
    requires !IsLetterOrNumber(sep)
    requires |word| > 0 && forall j :: 0 <= j < |word| ==> IsLetterOrNumber(word[j])
    ensures Tokenize(x + [sep] + y) == Tokenize(x) + Tokenize(y)
    ensures Tokenize(word) == [word]
    ensures Tokenize("") == []
  {
    RunsAtSeparator(x, sep, y, IsLetterOrNumber);
    RunsOfWord(word, IsLetterOrNumber);
  }

  // ---------------------------------------------------------------------------
  // The scoring table

  datatype KeywordRule = KeywordRule(key: string, delta: int, note: string)

  const ExactMatchBonus := 120
  const OverlapBonusPerToken := 25
  const PositiveBonusPerKeyword := 10
  const ConfigSuffix := "_config"
  const ConfigSuffixPenalty := -100

  const StrongPositive: seq<string> := ["game", "start", "play"]

  /** Every rule whose key the bare name contains applies, so penalties stack. */
  const NegativeKeywords: seq<KeywordRule> := [
    KeywordRule("crack", -140, "疑似破解辅助程序"),
    KeywordRule("tro", -80, "疑似片头/破解程序"),
    KeywordRule("cracktro", -200, "疑似破解展示程序"),
    KeywordRule("keygen", -200, "序列号生成器"),
    KeywordRule("patch", -120, "补丁程序"),
    KeywordRule("setup", -120, "安装器"),
    KeywordRule("install", -120, "安装器"),
    KeywordRule("unins", -160, "卸载程序"),
    KeywordRule("uninstall", -160, "卸载程序"),
    KeywordRule("config", -80, "配置工具"),
    KeywordRule("launcher", -40, "启动器（不一定是主程序）"),
    KeywordRule("dxsetup", -200, "运行库安装器")
  ]

  const ExactReason := "与目录名完全匹配"
  const PositiveReason := "常见主程序命名"
  const ConfigReason := "配置工具"
  const NeutralReason := "普通 EXE 候选"
  const ReasonSeparator := "，"

  function OverlapReason(delta: nat): string {
    "与目录名相似 +" + NatToString(delta)
  }

  // ---------------------------------------------------------------------------
  // The score, stated rule by rule

  /** The file name without its extension. */
  function Bare(fileName: string): string {
    DeletingPathExtension(fileName)
  }

  /** The number of distinct tokens the name shares with the folder. */
  function SharedTokenCount(tokens: seq<string>, folderTokens: seq<string>): nat {
    |set t | t in tokens && t in folderTokens|
  }

  function ExactBonus(bare: string, folderName: string): int {
    if bare == folderName then ExactMatchBonus else 0
  }

  function OverlapBonus(bare: string, folderTokens: seq<string>): int {
    OverlapBonusPerToken * SharedTokenCount(Tokenize(bare), folderTokens)
  }

  /** Ten points for each of "game", "start", "play" the bare name contains, once per keyword. */
  function PositiveBonus(bare: string): int {
    (if Contains(bare, "game") then PositiveBonusPerKeyword else 0)
    + (if Contains(bare, "start") then PositiveBonusPerKeyword else 0)
    + (if Contains(bare, "play") then PositiveBonusPerKeyword else 0)
  }

  /** The sum of the deltas of all rules whose key the bare name contains. */
  function PenaltySum(bare: string, rules: seq<KeywordRule>): int {
    if |rules| == 0 then 0
    else
      var last := rules[|rules| - 1];
      PenaltySum(bare, rules[..|rules| - 1]) + (if Contains(bare, last.key) then last.delta else 0)
  }

  function ConfigPenalty(bare: string): int {
    if HasSuffix(bare, ConfigSuffix) then ConfigSuffixPenalty else 0
  }

  /** The score of a lower-cased file name against the folder's lower-cased name and tokens. */
  function ScoreOf(fileName: string, folderTokens: seq<string>, folderName: string): int {
    var bare := Bare(fileName);
    ExactBonus(bare, folderName) + OverlapBonus(bare, folderTokens) + PositiveBonus(bare)
    + PenaltySum(bare, NegativeKeywords) + ConfigPenalty(bare)
  }

  // ---------------------------------------------------------------------------
  // The reasons, stated rule by rule

  /** One positive reason per keyword the bare name contains, in keyword order. */
  function KeywordNotes(bare: string, keys: seq<string>): seq<string> {
    if |keys| == 0 then []
    else
      var last := keys[|keys| - 1];
      KeywordNotes(bare, keys[..|keys| - 1]) + (if Contains(bare, last) then [PositiveReason] else [])
  }

  /** The notes of the rules that apply, in table order. */
  function PenaltyNotes(bare: string, rules: seq<KeywordRule>): seq<string> {
    if |rules| == 0 then []
    else
      var last := rules[|rules| - 1];
      PenaltyNotes(bare, rules[..|rules| - 1]) + (if Contains(bare, last.key) then [last.note] else [])
  }

  /** The reasons of every rule that fired, in the order the rules are tried. */
  function FiredReasons(fileName: string, folderTokens: seq<string>, folderName: string): seq<string> {
    var bare := Bare(fileName);
    var shared := SharedTokenCount(Tokenize(bare), folderTokens);
    (if bare == folderName then [ExactReason] else [])
    + (if shared > 0 then [OverlapReason(OverlapBonusPerToken * shared)] else [])
    + KeywordNotes(bare, StrongPositive)
    + PenaltyNotes(bare, NegativeKeywords)
    + (if HasSuffix(bare, ConfigSuffix) then [ConfigReason] else [])
  }

  function ReasonsOf(fileName: string, folderTokens: seq<string>, folderName: string): seq<string> {
    var fired := FiredReasons(fileName, folderTokens, folderName);
    if fired == [] then [NeutralReason] else fired
  }

  /** No scoring rule applies to the name. */
  predicate NoRuleFires(fileName: string, folderTokens: seq<string>, folderName: string) {
    var bare := Bare(fileName);
    && bare != folderName
    && SharedTokenCount(Tokenize(bare), folderTokens) == 0
    && (forall k :: 0 <= k < |StrongPositive| ==> !Contains(bare, StrongPositive[k]))
    && (forall k :: 0 <= k < |NegativeKeywords| ==> !Contains(bare, NegativeKeywords[k].key))
    && !HasSuffix(bare, ConfigSuffix)
  }

  lemma {:induction false} KeywordNotesEmpty(bare: string, keys: seq<string>)
    ensures KeywordNotes(bare, keys) == [] <==> forall k :: 0 <= k < |keys| ==> !Contains(bare, keys[k])
  {
    if |keys| > 0 {
      var init := keys[..|keys| - 1];
      KeywordNotesEmpty(bare, init);
      assert forall k :: 0 <= k < |init| ==> init[k] == keys[k];
    }
  }

  lemma {:induction false} PenaltyNotesEmpty(bare: string, rules: seq<KeywordRule>)
    ensures PenaltyNotes(bare, rules) == [] <==> forall k :: 0 <= k < |rules| ==> !Contains(bare, rules[k].key)
  {
    if |rules| > 0 {
      var init := rules[..|rules| - 1];
      PenaltyNotesEmpty(bare, init);
      assert forall k :: 0 <= k < |init| ==> init[k] == rules[k];
    }
  }

  /**
   * A rule fires exactly when its reason is recorded: the neutral reason is
   * used precisely when no rule fires, so the reason list is never empty.
   */
  lemma NeutralReasonIffNoRuleFires(fileName: string, folderTokens: seq<string>, folderName: string)
    ensures FiredReasons(fileName, folderTokens, folderName) == [] <==> NoRuleFires(fileName, folderTokens, folderName)
    ensures NoRuleFires(fileName, folderTokens, folderName) ==> ReasonsOf(fileName, folderTokens, folderName) == [NeutralReason]
    ensures !NoRuleFires(fileName, folderTokens, folderName)
        ==> ReasonsOf(fileName, folderTokens, folderName) == FiredReasons(fileName, folderTokens, folderName)
    ensures |ReasonsOf(fileName, folderTokens, folderName)| > 0
  {
    var bare := Bare(fileName);
    KeywordNotesEmpty(bare, StrongPositive);
    PenaltyNotesEmpty(bare, NegativeKeywords);
  }

  /** Every reason is a non-empty text. */
  ghost predicate AllNonEmpty(xs: seq<string>) {
    forall k :: 0 <= k < |xs| ==> |xs[k]| > 0
  }

  lemma {:induction false} JoinNonEmpty(parts: seq<string>, sep: string)
    requires |parts| > 0 && |parts[0]| > 0
    ensures |Join(parts, sep)| > 0
  {
  }

  // ---------------------------------------------------------------------------
  // Facts about the score

  /** Matching the folder name exactly is worth exactly 120 points, all else equal. */
  lemma ExactMatchWorth120(fileName: string, folderTokens: seq<string>, otherName: string)
    requires otherName != Bare(fileName)
    ensures ScoreOf(fileName, folderTokens, Bare(fileName)) == ScoreOf(fileName, folderTokens, otherName) + 120
  {
  }

  /** Each distinct token shared with the folder is worth 25 points. */
  lemma OverlapWorth25PerToken(fileName: string, folderTokens: seq<string>, folderName: string)
    ensures ScoreOf(fileName, folderTokens, folderName)
         == ScoreOf(fileName, [], folderName) + 25 * SharedTokenCount(Tokenize(Bare(fileName)), folderTokens)
  {
    assert (set t | t in Tokenize(Bare(fileName)) && t in []) == {};
  }

  lemma {:induction false} PenaltySumBelowEachMatch(bare: string, rules: seq<KeywordRule>, k: int)
    requires forall j :: 0 <= j < |rules| ==> rules[j].delta <= 0
    requires 0 <= k < |rules| && Contains(bare, rules[k].key)
    ensures PenaltySum(bare, rules) <= rules[k].delta
  {
    var init := rules[..|rules| - 1];
    if k < |rules| - 1 {
      assert init[k] == rules[k];
      PenaltySumBelowEachMatch(bare, init, k);
    } else {
      PenaltySumNonPositive(bare, init);
    }
  }

  lemma {:induction false} PenaltySumNonPositive(bare: string, rules: seq<KeywordRule>)
    requires forall j :: 0 <= j < |rules| ==> rules[j].delta <= 0
    ensures PenaltySum(bare, rules) <= 0
  {
    if |rules| > 0 {
      PenaltySumNonPositive(bare, rules[..|rules| - 1]);
    }
  }

  /**
   * Penalties stack: every negative keyword the bare name contains applies in
   * full, so the total penalty is at most the delta of any single match.
   */
  lemma PenaltiesStack(bare: string, k: int)
    requires 0 <= k < |NegativeKeywords| && Contains(bare, NegativeKeywords[k].key)
    ensures PenaltySum(bare, NegativeKeywords) <= NegativeKeywords[k].delta
  {
    PenaltySumBelowEachMatch(bare, NegativeKeywords, k);
  }

  /** Adding one more rule to the table adds that rule's penalty when it fires. */
  lemma PenaltyStep(bare: string, rules: seq<KeywordRule>, k: nat)
    requires k < |rules|
    ensures PenaltySum(bare, rules[..k + 1])
         == PenaltySum(bare, rules[..k]) + (if Contains(bare, rules[k].key) then rules[k].delta else 0)
  {
    assert rules[..k + 1][..k] == rules[..k];
  }

  /**
   * A name containing "cracktro" also contains "crack" and "tro", so all
   * three penalties apply: -140 - 80 - 200, and any further match only
   * lowers the total.
   */
  lemma CracktroStacks(bare: string)
    requires Contains(bare, "cracktro")
    ensures PenaltySum(bare, NegativeKeywords) <= -420
  {
    CracktroFirstThree(bare);
    NegativeKeywordsArePenalties();
    PenaltySumDecreasing(bare, NegativeKeywords, 3, 12);
    assert NegativeKeywords[..12] == NegativeKeywords;
  }

  lemma CracktroFirstThree(bare: string)
    requires Contains(bare, "cracktro")
    ensures PenaltySum(bare, NegativeKeywords[..3]) == -420
  {
    var r := NegativeKeywords;
    CracktroHasCrackAndTro();
    ContainsWithin(bare, "cracktro", "crack");
    ContainsWithin(bare, "cracktro", "tro");
    assert r[0].key == "crack" && r[1].key == "tro" && r[2].key == "cracktro";
    ThreeMatches(bare, r);
  }

  /** When the first three keywords all match, their penalties add up. */
  lemma ThreeMatches(bare: string, rules: seq<KeywordRule>)
    requires |rules| >= 3
    requires Contains(bare, rules[0].key) && Contains(bare, rules[1].key) && Contains(bare, rules[2].key)
    ensures PenaltySum(bare, rules[..3]) == rules[0].delta + rules[1].delta + rules[2].delta
  {
    assert rules[..0] == [];
    PenaltyStep(bare, rules, 0);
    PenaltyStep(bare, rules, 1);
    PenaltyStep(bare, rules, 2);
  }

  lemma NegativeKeywordsArePenalties()
    ensures forall k :: 0 <= k < |NegativeKeywords| ==> NegativeKeywords[k].delta <= 0
  {
  }

  lemma CracktroHasCrackAndTro()
    ensures Contains("cracktro", "crack") && Contains("cracktro", "tro")
  {
    assert IsPrefix("crack", "cracktro");
    assert IsPrefix("tro", "tro");
  }

  /** With only penalties in the table, each further rule can only lower the sum. */
  lemma {:induction false} PenaltySumDecreasing(bare: string, rules: seq<KeywordRule>, i: nat, j: nat)
    requires forall k :: 0 <= k < |rules| ==> rules[k].delta <= 0
    requires i <= j <= |rules|
    ensures PenaltySum(bare, rules[..j]) <= PenaltySum(bare, rules[..i])
  {
    if i < j {
      PenaltySumDecreasing(bare, rules, i, j - 1);
      PenaltyStep(bare, rules, j - 1);
    }
  }

  // ---------------------------------------------------------------------------
  // Scoring one executable

  /** `scoreExecutable`: scores a lower-cased file name rule by rule, as the app does. */
  method ScoreExecutable(fileName: string, folderTokens: seq<string>, folderName: string)
    returns (score: int, reasons: seq<string>)
    ensures score == ScoreOf(fileName, folderTokens, folderName)
    ensures reasons == ReasonsOf(fileName, folderTokens, folderName)
  {
    score := 0;
    reasons := [];
    var bare := Bare(fileName);
    var tokens := Tokenize(bare);

    if bare == folderName {
      score := score + ExactMatchBonus;
      reasons := reasons + [ExactReason];
    }
    ghost var exact := reasons;

    var overlaps := SharedTokenCount(tokens, folderTokens);
    if overlaps > 0 {
      var delta := OverlapBonusPerToken * overlaps;
      score := score + delta;
      reasons := reasons + [OverlapReason(delta)];
    }
    ghost var overlap := reasons[|exact|..];
    assert reasons == exact + overlap;

    var bonus, positiveNotes := ApplyPositiveKeywords(bare, StrongPositive);
    KeywordBonusOfStrongPositive(bare);
    score := score + bonus;
    reasons := reasons + positiveNotes;

    var penalty, penaltyNotes := ApplyNegativeKeywords(bare, NegativeKeywords);
    score := score + penalty;
    reasons := reasons + penaltyNotes;
    ghost var config: seq<string> := [];

    if HasSuffix(bare, ConfigSuffix) {
      score := score + ConfigSuffixPenalty;
      config := [ConfigReason];
      reasons := reasons + [ConfigReason];
    }

    FiredReasonsParts(fileName, folderTokens, folderName, exact, overlap, positiveNotes, penaltyNotes, config);
    if |reasons| == 0 {
      reasons := [NeutralReason];
    }
  }

  /** The fired reasons are the five rules' reasons in rule order. */
  lemma FiredReasonsParts(fileName: string, folderTokens: seq<string>, folderName: string,
                          exact: seq<string>, overlap: seq<string>, positive: seq<string>, penalty: seq<string>, config: seq<string>)
    requires var bare := Bare(fileName);
      && exact == (if bare == folderName then [ExactReason] else [])
      && overlap == (var shared := SharedTokenCount(Tokenize(bare), folderTokens);
                     if shared > 0 then [OverlapReason(OverlapBonusPerToken * shared)] else [])
      && positive == KeywordNotes(bare, StrongPositive)
      && penalty == PenaltyNotes(bare, NegativeKeywords)
      && config == (if HasSuffix(bare, ConfigSuffix) then [ConfigReason] else [])
    ensures FiredReasons(fileName, folderTokens, folderName) == exact + overlap + positive + penalty + config
  {
  }

  /** Ten points per keyword of `keys` the bare name contains. */
  function KeywordBonus(bare: string, keys: seq<string>): int {
    if |keys| == 0 then 0
    else
      var last := keys[|keys| - 1];
      KeywordBonus(bare, keys[..|keys| - 1]) + (if Contains(bare, last) then PositiveBonusPerKeyword else 0)
  }

  lemma KeywordBonusOfStrongPositive(bare: string)
    ensures KeywordBonus(bare, StrongPositive) == PositiveBonus(bare)
  {
    var k := StrongPositive;
    assert k[..2][..1] == k[..1] == ["game"];
    assert k[..2] == ["game", "start"] && k[..2][1] == "start";
    assert k[..1][..0] == [];
    assert KeywordBonus(bare, k[..1]) == (if Contains(bare, "game") then PositiveBonusPerKeyword else 0);
    assert KeywordBonus(bare, k[..2]) == KeywordBonus(bare, k[..1])
      + (if Contains(bare, "start") then PositiveBonusPerKeyword else 0);
    assert k[..3] == k;
  }

  /** The `for key in strongPositive where bare.contains(key)` loop. */
  method ApplyPositiveKeywords(bare: string, keys: seq<string>) returns (bonus: int, notes: seq<string>)
    ensures bonus == KeywordBonus(bare, keys)
    ensures notes == KeywordNotes(bare, keys)
  {
    bonus := 0;
    notes := [];
    var i := 0;
    while i < |keys|
      invariant 0 <= i <= |keys|
      invariant bonus == KeywordBonus(bare, keys[..i])
      invariant notes == KeywordNotes(bare, keys[..i])
    {
      assert keys[..i + 1][..i] == keys[..i];
      if Contains(bare, keys[i]) {
        bonus := bonus + PositiveBonusPerKeyword;
        notes := notes + [PositiveReason];
      }
      i := i + 1;
    }
    assert keys[..i] == keys;
  }

  /** The `for (key, delta, note) in negativeKeywords where bare.contains(key)` loop. */
  method ApplyNegativeKeywords(bare: string, rules: seq<KeywordRule>) returns (penalty: int, notes: seq<string>)
    ensures penalty == PenaltySum(bare, rules)
    ensures notes == PenaltyNotes(bare, rules)
  {
    penalty := 0;
    notes := [];
    var j := 0;
    while j < |rules|
      invariant 0 <= j <= |rules|
      invariant penalty == PenaltySum(bare, rules[..j])
      invariant notes == PenaltyNotes(bare, rules[..j])
    {
      assert rules[..j + 1][..j] == rules[..j];
      var rule := rules[j];
      if Contains(bare, rule.key) {
        penalty := penalty + rule.delta;
        notes := notes + [rule.note];
      }
      j := j + 1;
    }
    assert rules[..j] == rules;
  }

  // ---------------------------------------------------------------------------
  // Ranking

  /** `a` sorts strictly before `b`: higher score first, then case-insensitive file name. */
  predicate Before(a: ExeCandidate, b: ExeCandidate) {
    a.score > b.score
    || (a.score == b.score && LexLess(Lower(a.FileName()), Lower(b.FileName())))
  }

  lemma BeforeTransitive(a: ExeCandidate, b: ExeCandidate, c: ExeCandidate)
    requires Before(a, b) && Before(b, c)
    ensures Before(a, c)
  {
    if a.score == b.score && b.score == c.score {
      LexLessTransitive(Lower(a.FileName()), Lower(b.FileName()), Lower(c.FileName()));
    }
  }

  /** No candidate is followed by one that should come before it. */
  ghost predicate Sorted(s: seq<ExeCandidate>) {
    forall i, j :: 0 <= i < j < |s| ==> !Before(s[j], s[i])
  }

  lemma BeforeIrreflexive(a: ExeCandidate)
    ensures !Before(a, a)
  {
    LexLessIrreflexive(Lower(a.FileName()));
  }

  lemma SortedCons(x: ExeCandidate, rest: seq<ExeCandidate>)
    requires Sorted(rest)
    requires forall y :: y in rest ==> !Before(y, x)
    ensures Sorted([x] + rest)
  {
    forall i, j | 0 <= i < j < |[x] + rest|
      ensures !Before(([x] + rest)[j], ([x] + rest)[i])
    {
      assert ([x] + rest)[j] == rest[j - 1];
      if i > 0 {
        assert ([x] + rest)[i] == rest[i - 1];
      }
    }
  }

  /** Putting `c` in front of a sorted list whose head it precedes keeps it sorted. */
  lemma SortedInsertFront(s: seq<ExeCandidate>, c: ExeCandidate)
    requires Sorted(s) && |s| > 0 && Before(c, s[0])
    ensures Sorted([c] + s)
  {
    forall y | y in s
      ensures !Before(y, c)
    {
      var m :| 0 <= m < |s| && s[m] == y;
      if Before(y, c) {
        BeforeTransitive(y, c, s[0]);
        if m == 0 {
          BeforeIrreflexive(y);
        }
      }
    }
    SortedCons(c, s);
  }

  /** Keeping the head of a sorted list in front of the rest with `c` inserted keeps it sorted. */
  lemma SortedKeepHead(s: seq<ExeCandidate>, c: ExeCandidate, rest: seq<ExeCandidate>)
    requires Sorted(s) && |s| > 0 && !Before(c, s[0])
    requires Sorted(rest) && multiset(rest) == multiset(s[1..]) + multiset{c}
    ensures Sorted([s[0]] + rest)
  {
    forall y | y in rest
      ensures !Before(y, s[0])
    {
      assert y in multiset(rest);
      if y != c {
        assert y in multiset(s[1..]);
        var m :| 0 <= m < |s[1..]| && s[1..][m] == y;
        assert s[m + 1] == y;
      }
    }
    SortedCons(s[0], rest);
  }

  /** Inserts `c` in front of the first element it sorts before; equal keys keep arrival order. */
  function Insert(s: seq<ExeCandidate>, c: ExeCandidate): (r: seq<ExeCandidate>)
    ensures multiset(r) == multiset(s) + multiset{c}
    ensures Sorted(s) ==> Sorted(r)
  {
    if |s| == 0 then [c]
    else if Before(c, s[0]) then
      assert Sorted(s) ==> Sorted([c] + s) by {
        if Sorted(s) {
          SortedInsertFront(s, c);
        }
      }
      [c] + s
    else
      assert s == [s[0]] + s[1..];
      var rest := Insert(s[1..], c);
      assert Sorted(s) ==> Sorted([s[0]] + rest) by {
        if Sorted(s) {
          SortedKeepHead(s, c, rest);
        }
      }
      [s[0]] + rest
  }

  /** `exeCandidates.sort { ... }`: a stable insertion sort by `Before`. */
  function SortCandidates(cs: seq<ExeCandidate>): (r: seq<ExeCandidate>)
    ensures multiset(r) == multiset(cs)
    ensures Sorted(r)
  {
    if |cs| == 0 then []
    else
      assert cs == cs[..|cs| - 1] + [cs[|cs| - 1]];
      Insert(SortCandidates(cs[..|cs| - 1]), cs[|cs| - 1])
  }

  /** In a sorted list scores never rise, and equal scores come in case-insensitive name order. */
  lemma SortedOrder(s: seq<ExeCandidate>, i: int, j: int)
    requires Sorted(s) && 0 <= i < j < |s|
    ensures s[i].score >= s[j].score
    ensures s[i].score == s[j].score ==>
      Lower(s[i].FileName()) == Lower(s[j].FileName()) || LexLess(Lower(s[i].FileName()), Lower(s[j].FileName()))
  {
    LexLessTotal(Lower(s[i].FileName()), Lower(s[j].FileName()));
  }

  // ---------------------------------------------------------------------------
  // Engine and notes

  const KiriKiriThreshold := 3

  /** `.xp3` archives win over every marker, then Ren'Py, then Unity. */
  function ClassifyEngine(xp3Count: nat, hasRenpy: bool, hasUnity: bool): (e: GameEngine)
    ensures e == KiriKiri <==> xp3Count >= KiriKiriThreshold
    ensures e == RenPy <==> xp3Count < KiriKiriThreshold && hasRenpy
    ensures e == Unity <==> xp3Count < KiriKiriThreshold && !hasRenpy && hasUnity
    ensures e == GameEngine.Unknown <==> xp3Count < KiriKiriThreshold && !hasRenpy && !hasUnity
  {
    if xp3Count >= KiriKiriThreshold then KiriKiri
    else if hasRenpy then RenPy
    else if hasUnity then Unity
    else GameEngine.Unknown
  }

  const KiriKiriNotes: seq<string> := [
    "检测到多个 .xp3 资源包，疑似 KiriKiri/XP3。",
    "已自动降低 cracktro/setup/config 等可疑启动器优先级。"
  ]
  const NoExeNote := "未找到 .exe 文件，请确认游戏目录完整。"

  function RecommendNote(fileName: string): string {
    "推荐主程序：" + fileName
  }

  /** The advisory notes: the KiriKiri advisories if any, then the recommendation or its absence. */
  function BuildNotes(engine: GameEngine, candidates: seq<ExeCandidate>): (notes: seq<string>)
    ensures |notes| > 0
    ensures engine == KiriKiri ==> |notes| == 3 && notes[..2] == KiriKiriNotes
    ensures engine != KiriKiri ==> |notes| == 1
    ensures |candidates| > 0 ==> notes[|notes| - 1] == RecommendNote(candidates[0].FileName())
    ensures |candidates| == 0 ==> notes[|notes| - 1] == NoExeNote
  {
    var advisories := if engine == KiriKiri then KiriKiriNotes else [];
    advisories + [if |candidates| > 0 then RecommendNote(candidates[0].FileName()) else NoExeNote]
  }

  // ---------------------------------------------------------------------------
  // The walk

  /** One item the enumerator yields: its path components below the scanned folder and its kind. */
  datatype Entry = Entry(components: seq<string>, isDirectory: bool, isRegularFile: bool)

  /** Directories more than this many levels below the folder are not descended into. */
  const MaxDescentDepth := 2

  predicate IsProperPrefix(a: seq<string>, b: seq<string>) {
    |a| < |b| && b[..|a|] == a
  }

  /** `comps` lies inside one of the directories `dirs`. */
  predicate UnderAny(dirs: seq<seq<string>>, comps: seq<string>) {
    exists d :: d in dirs && IsProperPrefix(d, comps)
  }

  /** The directories whose descendants have been skipped once the first `n` entries are processed. */
  function SkippedDirs(entries: seq<Entry>, n: nat): (r: seq<seq<string>>)
    requires n <= |entries|
    ensures forall d :: d in r ==> |d| > MaxDescentDepth
  {
    if n == 0 then []
    else
      var s := SkippedDirs(entries, n - 1);
      var e := entries[n - 1];
      if !UnderAny(s, e.components) && e.isDirectory && |e.components| > MaxDescentDepth
      then s + [e.components]
      else s
  }

  /** The enumerator yields entry `k`: it is not inside a skipped directory. */
  predicate Reached(entries: seq<Entry>, k: nat)
    requires k < |entries|
  {
    !UnderAny(SkippedDirs(entries, k), entries[k].components)
  }

  predicate IsFileVisit(entries: seq<Entry>, k: nat)
    requires k < |entries|
  {
    Reached(entries, k) && !entries[k].isDirectory && entries[k].isRegularFile
  }

  /** A directory is skipped exactly when it is reached, deeper than two levels, and listed earlier. */
  lemma {:induction false} SkippedDirsIff(entries: seq<Entry>, n: nat, d: seq<string>)
    requires n <= |entries|
    ensures d in SkippedDirs(entries, n) <==>
      exists j :: 0 <= j < n && Reached(entries, j) && entries[j].isDirectory
        && |entries[j].components| > MaxDescentDepth && entries[j].components == d
  {
    if n > 0 {
      SkippedDirsIff(entries, n - 1, d);
      var e := entries[n - 1];
      if Reached(entries, n - 1) && e.isDirectory && |e.components| > MaxDescentDepth && e.components == d {
        assert d in SkippedDirs(entries, n);
      }
    }
  }

  /** Entries at most three levels down are always reached: only deeper entries can lie inside a skipped directory. */
  lemma ShallowEntriesReached(entries: seq<Entry>, k: nat)
    requires k < |entries| && |entries[k].components| <= MaxDescentDepth + 1
    ensures Reached(entries, k)
  {
  }

  /** Once a reached directory deeper than two levels is listed, nothing inside it that follows is reached. */
  lemma DeepDirectoryContentsSkipped(entries: seq<Entry>, j: nat, k: nat)
    requires j < k < |entries|
    requires Reached(entries, j) && entries[j].isDirectory && |entries[j].components| > MaxDescentDepth
    requires IsProperPrefix(entries[j].components, entries[k].components)
    ensures !Reached(entries, k) && !IsFileVisit(entries, k)
  {
    SkippedDirsIff(entries, k, entries[j].components);
  }

  /** The regular files the walk examines among the first `n` entries, in order. */
  function ReachedFiles(entries: seq<Entry>, n: nat): seq<Entry>
    requires n <= |entries|
  {
    if n == 0 then []
    else ReachedFiles(entries, n - 1) + (if IsFileVisit(entries, n - 1) then [entries[n - 1]] else [])
  }

  function EntryPath(folderPath: string, e: Entry): string {
    folderPath + "/" + Join(e.components, "/")
  }

  function FileNameOf(folderPath: string, e: Entry): string {
    LastComponent(EntryPath(folderPath, e))
  }

  predicate IsXp3(folderPath: string, e: Entry) {
    Lower(PathExtension(FileNameOf(folderPath, e))) == "xp3"
  }

  predicate IsExe(folderPath: string, e: Entry) {
    Lower(PathExtension(FileNameOf(folderPath, e))) == "exe"
  }

  predicate IsRenpyMarker(folderPath: string, e: Entry) {
    var n := Lower(FileNameOf(folderPath, e));
    n == "renpy.exe" || HasSuffix(n, ".rpy")
  }

  predicate IsUnityMarker(folderPath: string, e: Entry) {
    var n := Lower(FileNameOf(folderPath, e));
    n == "unityplayer.dll" || n == "unitycrashhandler64.exe"
  }

  function CountXp3(folderPath: string, files: seq<Entry>): nat {
    if |files| == 0 then 0
    else CountXp3(folderPath, files[..|files| - 1]) + (if IsXp3(folderPath, files[|files| - 1]) then 1 else 0)
  }

  predicate AnyRenpy(folderPath: string, files: seq<Entry>) {
    exists k :: 0 <= k < |files| && IsRenpyMarker(folderPath, files[k])
  }

  predicate AnyUnity(folderPath: string, files: seq<Entry>) {
    exists k :: 0 <= k < |files| && IsUnityMarker(folderPath, files[k])
  }

  function ExeFiles(folderPath: string, files: seq<Entry>): seq<Entry> {
    if |files| == 0 then []
    else
      var last := files[|files| - 1];
      ExeFiles(folderPath, files[..|files| - 1]) + (if IsExe(folderPath, last) then [last] else [])
  }

  /** The candidate the scanner records for an executable. */
  function CandidateFor(folderPath: string, e: Entry): ExeCandidate {
    var folderName := Lower(LastComponent(folderPath));
    var fileName := Lower(FileNameOf(folderPath, e));
    ExeCandidate(
      EntryPath(folderPath, e),
      ScoreOf(fileName, Tokenize(folderName), folderName),
      Join(ReasonsOf(fileName, Tokenize(folderName), folderName), ReasonSeparator))
  }

  function CandidatesFor(folderPath: string, files: seq<Entry>): (r: seq<ExeCandidate>)
    ensures |r| == |files|
  {
    if |files| == 0 then []
    else CandidatesFor(folderPath, files[..|files| - 1]) + [CandidateFor(folderPath, files[|files| - 1])]
  }

  lemma CandidatesForSnoc(folderPath: string, files: seq<Entry>, e: Entry)
    ensures CandidatesFor(folderPath, files + [e]) == CandidatesFor(folderPath, files) + [CandidateFor(folderPath, e)]
  {
    assert (files + [e])[..|files|] == files;
  }

  /**
   * `scan`: walks the entries, skipping the contents of directories more than
   * two levels down, and assembles the result.
   */
  method Scan(folderPath: string, entries: seq<Entry>) returns (r: GameScanResult)
    ensures r.folderPath == folderPath
    ensures r.xp3Count == CountXp3(folderPath, ReachedFiles(entries, |entries|))
    ensures r.engine == ClassifyEngine(r.xp3Count,
      AnyRenpy(folderPath, ReachedFiles(entries, |entries|)),
      AnyUnity(folderPath, ReachedFiles(entries, |entries|)))
    ensures r.candidates
      == SortCandidates(CandidatesFor(folderPath, ExeFiles(folderPath, ReachedFiles(entries, |entries|))))
    ensures r.recommendedExePath == if |r.candidates| == 0 then None else Some(r.candidates[0].path)
    ensures r.notes == BuildNotes(r.engine, r.candidates)
  {
    var xp3Count, hasRenpy, hasUnity, candidates := Walk(folderPath, entries);
    candidates := SortCandidates(candidates);
    var engine := ClassifyEngine(xp3Count, hasRenpy, hasUnity);
    var notes := BuildNotes(engine, candidates);
    r := GameScanResult(
      folderPath,
      engine,
      if |candidates| == 0 then None else Some(candidates[0].path),
      candidates,
      notes,
      xp3Count);
  }

  /** The enumeration loop of `scan`: the per-file summaries over every file it reaches. */
  method Walk(folderPath: string, entries: seq<Entry>)
    returns (xp3Count: nat, hasRenpy: bool, hasUnity: bool, candidates: seq<ExeCandidate>)
    ensures xp3Count == CountXp3(folderPath, ReachedFiles(entries, |entries|))
    ensures hasRenpy == AnyRenpy(folderPath, ReachedFiles(entries, |entries|))
    ensures hasUnity == AnyUnity(folderPath, ReachedFiles(entries, |entries|))
    ensures candidates == CandidatesFor(folderPath, ExeFiles(folderPath, ReachedFiles(entries, |entries|)))
  {
    candidates := [];
    xp3Count := 0;
    hasRenpy := false;
    hasUnity := false;
    var skipped: seq<seq<string>> := [];

    var folderName := Lower(LastComponent(folderPath));
    var folderTokens := Tokenize(folderName);

    var i := 0;
    while i < |entries|
      invariant 0 <= i <= |entries|
      invariant skipped == SkippedDirs(entries, i)
      invariant xp3Count == CountXp3(folderPath, ReachedFiles(entries, i))
      invariant hasRenpy == AnyRenpy(folderPath, ReachedFiles(entries, i))
      invariant hasUnity == AnyUnity(folderPath, ReachedFiles(entries, i))
      invariant candidates == CandidatesFor(folderPath, ExeFiles(folderPath, ReachedFiles(entries, i)))
    {
      skipped, xp3Count, hasRenpy, hasUnity, candidates :=
        VisitEntry(folderPath, folderTokens, folderName, entries, i, skipped, xp3Count, hasRenpy, hasUnity, candidates);
      i := i + 1;
    }
  }

  /** One step of the enumeration: entry `i` is skipped, descended past, or examined as a file. */
  method VisitEntry(
    folderPath: string, folderTokens: seq<string>, folderName: string, entries: seq<Entry>, i: nat,
    skipped: seq<seq<string>>, xp3Count: nat, hasRenpy: bool, hasUnity: bool, candidates: seq<ExeCandidate>)
    returns (skipped': seq<seq<string>>, xp3Count': nat, hasRenpy': bool, hasUnity': bool, candidates': seq<ExeCandidate>)
    requires i < |entries|
    requires folderName == Lower(LastComponent(folderPath)) && folderTokens == Tokenize(folderName)
    requires skipped == SkippedDirs(entries, i)
    requires xp3Count == CountXp3(folderPath, ReachedFiles(entries, i))
    requires hasRenpy == AnyRenpy(folderPath, ReachedFiles(entries, i))
    requires hasUnity == AnyUnity(folderPath, ReachedFiles(entries, i))
    requires candidates == CandidatesFor(folderPath, ExeFiles(folderPath, ReachedFiles(entries, i)))
    ensures skipped' == SkippedDirs(entries, i + 1)
    ensures xp3Count' == CountXp3(folderPath, ReachedFiles(entries, i + 1))
    ensures hasRenpy' == AnyRenpy(folderPath, ReachedFiles(entries, i + 1))
    ensures hasUnity' == AnyUnity(folderPath, ReachedFiles(entries, i + 1))
    ensures candidates' == CandidatesFor(folderPath, ExeFiles(folderPath, ReachedFiles(entries, i + 1)))
  {
    var item := entries[i];
    ghost var files := ReachedFiles(entries, i);
    WalkStep(entries, i);
    skipped' := skipped;
    if !UnderAny(skipped, item.components) && !item.isDirectory && item.isRegularFile {
      xp3Count', hasRenpy', hasUnity', candidates' :=
        ExamineFile(folderPath, folderTokens, folderName, item, files, xp3Count, hasRenpy, hasUnity, candidates);
    } else {
      xp3Count', hasRenpy', hasUnity', candidates' := xp3Count, hasRenpy, hasUnity, candidates;
      if !UnderAny(skipped, item.components) && item.isDirectory && |item.components| > MaxDescentDepth {
        skipped' := skipped + [item.components];
      }
    }
  }

  /** What entry `i` adds to the reached files and to the skipped directories. */
  lemma WalkStep(entries: seq<Entry>, i: nat)
    requires i < |entries|
    ensures var e, reached := entries[i], Reached(entries, i);
      && ReachedFiles(entries, i + 1)
         == (if reached && !e.isDirectory && e.isRegularFile then ReachedFiles(entries, i) + [e] else ReachedFiles(entries, i))
      && SkippedDirs(entries, i + 1)
         == (if reached && e.isDirectory && |e.components| > MaxDescentDepth then SkippedDirs(entries, i) + [e.components]
             else SkippedDirs(entries, i))
  {
    assert ReachedFiles(entries, i) + [] == ReachedFiles(entries, i);
  }

  /** The body of the walk for one regular file: count markers and score it if it is an `.exe`. */
  method ExamineFile(
    folderPath: string, folderTokens: seq<string>, folderName: string, item: Entry,
    ghost files: seq<Entry>, xp3Count: nat, hasRenpy: bool, hasUnity: bool, candidates: seq<ExeCandidate>)
    returns (xp3Count': nat, hasRenpy': bool, hasUnity': bool, candidates': seq<ExeCandidate>)
    requires folderName == Lower(LastComponent(folderPath)) && folderTokens == Tokenize(folderName)
    requires xp3Count == CountXp3(folderPath, files)
    requires hasRenpy == AnyRenpy(folderPath, files) && hasUnity == AnyUnity(folderPath, files)
    requires candidates == CandidatesFor(folderPath, ExeFiles(folderPath, files))
    ensures xp3Count' == CountXp3(folderPath, files + [item])
    ensures hasRenpy' == AnyRenpy(folderPath, files + [item])
    ensures hasUnity' == AnyUnity(folderPath, files + [item])
    ensures candidates' == CandidatesFor(folderPath, ExeFiles(folderPath, files + [item]))
  {
    AppendOneFile(folderPath, files, item);
    ghost var exes := ExeFiles(folderPath, files);
    var path := EntryPath(folderPath, item);
    var fileName := LastComponent(path);
    var ext := Lower(PathExtension(fileName));
    xp3Count' := if ext == "xp3" then xp3Count + 1 else xp3Count;
    hasRenpy' := hasRenpy || IsRenpyMarker(folderPath, item);
    hasUnity' := hasUnity || IsUnityMarker(folderPath, item);
    if ext == "exe" {
      var score, reasons := ScoreExecutable(Lower(fileName), folderTokens, folderName);
      var candidate := ExeCandidate(path, score, Join(reasons, ReasonSeparator));
      assert candidate == CandidateFor(folderPath, item);
      CandidatesForSnoc(folderPath, exes, item);
      candidates' := candidates + [candidate];
    } else {
      candidates' := candidates;
      assert exes + [] == exes;
    }
  }

  /** How the per-file summaries grow when one more file is examined. */
  lemma AppendOneFile(folderPath: string, files: seq<Entry>, e: Entry)
    ensures CountXp3(folderPath, files + [e]) == CountXp3(folderPath, files) + (if IsXp3(folderPath, e) then 1 else 0)
    ensures AnyRenpy(folderPath, files + [e]) == (AnyRenpy(folderPath, files) || IsRenpyMarker(folderPath, e))
    ensures AnyUnity(folderPath, files + [e]) == (AnyUnity(folderPath, files) || IsUnityMarker(folderPath, e))
    ensures ExeFiles(folderPath, files + [e])
         == ExeFiles(folderPath, files) + (if IsExe(folderPath, e) then [e] else [])
  {
    assert (files + [e])[..|files|] == files;
    RenpyAfterOneFile(folderPath, files, e);
    UnityAfterOneFile(folderPath, files, e);
  }

  lemma RenpyAfterOneFile(folderPath: string, files: seq<Entry>, e: Entry)
    ensures AnyRenpy(folderPath, files + [e]) == (AnyRenpy(folderPath, files) || IsRenpyMarker(folderPath, e))
  {
    var all := files + [e];
    if AnyRenpy(folderPath, all) && !IsRenpyMarker(folderPath, e) {
      var k :| 0 <= k < |all| && IsRenpyMarker(folderPath, all[k]);
      assert all[k] == files[k];
    }
    if AnyRenpy(folderPath, files) {
      var k :| 0 <= k < |files| && IsRenpyMarker(folderPath, files[k]);
      assert all[k] == files[k];
    }
    if IsRenpyMarker(folderPath, e) {
      assert all[|files|] == e;
    }
  }

  lemma UnityAfterOneFile(folderPath: string, files: seq<Entry>, e: Entry)
    ensures AnyUnity(folderPath, files + [e]) == (AnyUnity(folderPath, files) || IsUnityMarker(folderPath, e))
  {
    var all := files + [e];
    if AnyUnity(folderPath, all) && !IsUnityMarker(folderPath, e) {
      var k :| 0 <= k < |all| && IsUnityMarker(folderPath, all[k]);
      assert all[k] == files[k];
    }
    if AnyUnity(folderPath, files) {
      var k :| 0 <= k < |files| && IsUnityMarker(folderPath, files[k]);
      assert all[k] == files[k];
    }
    if IsUnityMarker(folderPath, e) {
      assert all[|files|] == e;
    }
  }
}

=== FILE: store.dfy ===
/**
 * The list of saved games and the current selection (AppStore.swift):
 * adding, removing, renaming and updating the selected game, folding a scan
 * result into it, and naming new games and their prefix directories.
 * Fresh UUIDs and the clock are parameters; saving to disk and the view's
 * published state other than the games, the selection and the status line
 * are not modelled.
 */
module AppStore {
  import opened Wrappers
  import opened Text
  import opened Paths
  import opened Collections
  import opened GameEntries
  import opened Models

  const UntitledName := "新游戏"
  const UnnamedName := "未命名游戏"
  const CreatedMessage := "已创建空白配置"
  const RemovedPrefix := "已删除配置："
  const ScannedPrefix := "已扫描：推荐主程序 "
  const ScannedWithoutExeMessage := "已扫描文件夹，但未找到可用 EXE（可手动选择）"

  /** The games in display order, the selected game's id, the status line and the prefixes directory. */
  datatype Store = Store(games: seq<GameEntry>, selectedId: Option<nat>, statusMessage: string, prefixesDir: string)

  // ---------------------------------------------------------------------------
  // Selection

  function HasId(id: nat): GameEntry -> bool {
    (g: GameEntry) => g.id == id
  }

  /** `selectedIndex`: where the selected id first occurs, if anything is selected. */
  function SelectedIndex(st: Store): (r: Option<nat>)
    ensures r.Some? ==> && st.selectedId.Some? && r.value < |st.games|
                        && st.games[r.value].id == st.selectedId.value
                        && forall j :: 0 <= j < r.value ==> st.games[j].id != st.selectedId.value
    ensures r.None? <==> st.selectedId.None? || forall j :: 0 <= j < |st.games| ==> st.games[j].id != st.selectedId.value
  {
    if st.selectedId.None? then None else FirstIndex(st.games, HasId(st.selectedId.value))
  }

  /** `selectedGame`. */
  function SelectedGame(st: Store): (r: Option<GameEntry>)
    ensures r.Some? <==> SelectedIndex(st).Some?
    ensures r.Some? ==> r.value in st.games && Some(r.value.id) == st.selectedId
  {
    var i := SelectedIndex(st);
    if i.None? then None else Some(st.games[i.value])
  }

  // ---------------------------------------------------------------------------
  // Names and prefix directories

  function Names(games: seq<GameEntry>): set<string> {
    set g | g in games :: g.name
  }

  /** "新游戏 i". */
  function Untitled(i: nat): string {
    UntitledName + " " + NatToString(i)
  }

  lemma UntitledInjective(i: nat, j: nat)
    requires Untitled(i) == Untitled(j)
    ensures i == j
  {
    var n := |UntitledName + " "|;
    assert NatToString(i) == Untitled(i)[n..];
    assert NatToString(j) == Untitled(j)[n..];
    NatToStringInjective(i, j);
  }

  /**
   * `nextUntitledName`: "新游戏" when no game has that name, otherwise
   * "新游戏 i" for the smallest i from 2 whose name is free.
   */
  method NextUntitledName(games: seq<GameEntry>) returns (name: string)
    ensures name !in Names(games)
    ensures UntitledName !in Names(games) ==> name == UntitledName
    ensures UntitledName in Names(games) ==>
      (exists i :: 2 <= i && name == Untitled(i) && forall j :: 2 <= j < i ==> Untitled(j) in Names(games))
  {
    name := FirstFreeUntitled(Names(games));
  }

  method FirstFreeUntitled(existing: set<string>) returns (name: string)
    ensures name !in existing
    ensures UntitledName !in existing ==> name == UntitledName
    ensures UntitledName in existing ==>
      (exists i :: 2 <= i && name == Untitled(i) && forall j :: 2 <= j < i ==> Untitled(j) in existing)
  {
    if UntitledName !in existing {
      return UntitledName;
    }
    forall a: nat, b: nat | Untitled(a) == Untitled(b)
      ensures a == b
    {
      UntitledInjective(a, b);
    }
    var i := FirstFree(existing, Untitled, 2);
    name := Untitled(i);
  }

  const SlugTrimmed: set<char> := {'_', '-', '.'}

  /** The characters `slug` keeps. */
  predicate SlugChar(c: char) {
    IsLetterOrNumber(c) || c == '_' || c == '-' || c == '.'
  }

  function ReplaceNonSlug(s: string): (r: string)
    ensures |r| == |s|
    ensures forall i :: 0 <= i < |s| ==> r[i] == (if SlugChar(s[i]) then s[i] else '_')
  {
    if |s| == 0 then [] else [if SlugChar(s[0]) then s[0] else '_'] + ReplaceNonSlug(s[1..])
  }

  /** A usable slug: only kept characters, no ASCII capitals, nothing trimmable at either end. */
  predicate IsSlug(s: string) {
    && (forall j :: 0 <= j < |s| ==> SlugChar(s[j]) && !IsAsciiUpper(s[j]))
    && (|s| > 0 ==> s[0] !in SlugTrimmed && s[|s| - 1] !in SlugTrimmed)
  }

  /** The name lowercased, other characters turned into "_", then "_", "-" and "." trimmed. */
  function SlugCore(raw: string): (r: string)
    ensures IsSlug(r)
    ensures TrimmedFrom(r, ReplaceNonSlug(Lower(raw)), SlugTrimmed)
  {
    var mapped := ReplaceNonSlug(Lower(raw));
    MappedIsSlugText(raw);
    TrimmedIsSlug(mapped);
    TrimIsTrimmedFrom(mapped, SlugTrimmed);
    Trim(mapped, SlugTrimmed)
  }

  /** `r` is a middle slice of `m` with only characters of `cs` cut off at either end. */
  ghost predicate TrimmedFrom(r: string, m: string, cs: set<char>) {
    exists a, b :: TrimmedAt(r, m, cs, a, b)
  }

  lemma TrimIsTrimmedFrom(m: string, cs: set<char>)
    ensures TrimmedFrom(Trim(m, cs), m, cs)
  {
    var a, b := TrimBounds(m, cs);
    assert TrimmedAt(Trim(m, cs), m, cs, a, b);
  }

  /** Two slices cut from `m` by trimming `cs`, neither starting nor ending in `cs`, are the same. */
  lemma TrimmedFromUnique(r1: string, r2: string, m: string, cs: set<char>)
    requires TrimmedFrom(r1, m, cs) && TrimmedFrom(r2, m, cs)
    requires |r1| > 0 ==> r1[0] !in cs && r1[|r1| - 1] !in cs
    requires |r2| > 0 ==> r2[0] !in cs && r2[|r2| - 1] !in cs
    ensures r1 == r2
  {
    var a1, b1 :| TrimmedAt(r1, m, cs, a1, b1);
    var a2, b2 :| TrimmedAt(r2, m, cs, a2, b2);
    TrimmedEmptyIff(r1, m, cs, a1, b1);
    TrimmedEmptyIff(r2, m, cs, a2, b2);
    if |r1| > 0 && |r2| > 0 {
      TrimmedStartsAt(r1, m, cs, a1, b1, a2, b2);
      TrimmedStartsAt(r2, m, cs, a2, b2, a1, b1);
    }
  }

  /** `r` is `m[a..b]` with only characters of `cs` outside. */
  predicate TrimmedAt(r: string, m: string, cs: set<char>, a: int, b: int) {
    && 0 <= a <= b <= |m| && r == m[a..b]
    && (forall j :: 0 <= j < a ==> m[j] in cs)
    && (forall j :: b <= j < |m| ==> m[j] in cs)
  }

  /** Such a slice is empty exactly when every character of `m` is in `cs`. */
  lemma TrimmedEmptyIff(r: string, m: string, cs: set<char>, a: int, b: int)
    requires TrimmedAt(r, m, cs, a, b)
    requires |r| > 0 ==> r[0] !in cs
    ensures |r| == 0 <==> forall j :: 0 <= j < |m| ==> m[j] in cs
  {
    if |r| > 0 {
      assert m[a] == r[0];
    }
  }

  /** A non-empty trimmed slice starts no later and ends no earlier than any other trimmed slice. */
  lemma TrimmedStartsAt(r: string, m: string, cs: set<char>, a: int, b: int, a': int, b': int)
    requires TrimmedAt(r, m, cs, a, b) && |r| > 0 && r[0] !in cs && r[|r| - 1] !in cs
    requires 0 <= a' <= b' <= |m| && (forall j :: 0 <= j < a' ==> m[j] in cs) && (forall j :: b' <= j < |m| ==> m[j] in cs)
    ensures a' <= a && b <= b'
  {
    assert m[a] == r[0];
    assert m[b - 1] == r[|r| - 1];
  }

  /**
   * The slug core is determined by its contract: the only slug cut from the
   * lowercased, replaced name by trimming "_", "-" and "." is `SlugCore`.
   */
  lemma SlugCoreDetermined(raw: string, r: string)
    requires IsSlug(r) && TrimmedFrom(r, ReplaceNonSlug(Lower(raw)), SlugTrimmed)
    ensures r == SlugCore(raw)
  {
    TrimmedFromUnique(r, SlugCore(raw), ReplaceNonSlug(Lower(raw)), SlugTrimmed);
  }

  /** After lowercasing and replacement, every character is a lower-case slug character. */
  lemma MappedIsSlugText(raw: string)
    ensures forall j :: 0 <= j < |ReplaceNonSlug(Lower(raw))| ==>
      SlugChar(ReplaceNonSlug(Lower(raw))[j]) && !IsAsciiUpper(ReplaceNonSlug(Lower(raw))[j])
  {
  }

  /** Trimming slug text leaves a slug. */
  lemma TrimmedIsSlug(mapped: string)
    requires forall j :: 0 <= j < |mapped| ==> SlugChar(mapped[j]) && !IsAsciiUpper(mapped[j])
    ensures IsSlug(Trim(mapped, SlugTrimmed))
  {
    var a, b := TrimBounds(mapped, SlugTrimmed);
    TrimEnds(mapped, SlugTrimmed);
    var r := Trim(mapped, SlugTrimmed);
    forall j | 0 <= j < |r|
      ensures SlugChar(r[j]) && !IsAsciiUpper(r[j])
    {
      assert r[j] == mapped[a + j];
    }
  }

  /** `slug`: the name's core, or the lowercased fallback UUID when nothing is left. */
  function Slug(raw: string, fallbackUuid: string): (r: string)
    ensures SlugCore(raw) != "" ==> r == SlugCore(raw) && IsSlug(r) && |r| > 0
    ensures SlugCore(raw) == "" ==> r == Lower(fallbackUuid)
  {
    var core := SlugCore(raw);
    if core == "" then Lower(fallbackUuid) else core
  }

  /** A slug is its own slug. */
  lemma SlugIdempotent(raw: string, fallbackUuid: string, otherUuid: string)
    requires SlugCore(raw) != ""
    ensures Slug(Slug(raw, fallbackUuid), otherUuid) == Slug(raw, fallbackUuid)
  {
    var s := SlugCore(raw);
    assert Lower(s) == s;
    assert ReplaceNonSlug(s) == s;
    TrimNoop(s, SlugTrimmed);
  }

  /** A slug never contains "/", so a name cannot lead outside the prefixes directory. */
  lemma SlugHasNoSlash(raw: string)
    ensures forall j :: 0 <= j < |SlugCore(raw)| ==> SlugCore(raw)[j] != '/'
  {
    var r := SlugCore(raw);
    forall j | 0 <= j < |r|
      ensures r[j] != '/'
    {
      assert SlugChar(r[j]);
    }
  }

  /**
   * `defaultPrefixDir`: the slug under the prefixes directory. Whenever the
   * name leaves a slug, the prefix is a direct child of the prefixes
   * directory named by it.
   */
  function DefaultPrefixDir(prefixesDir: string, name: string, fallbackUuid: string): (r: string)
    ensures |r| > |prefixesDir| && r[..|prefixesDir| + 1] == prefixesDir + "/"
    ensures SlugCore(name) != "" ==> LastComponent(r) == SlugCore(name)
    ensures (SlugCore(name) == "" && fallbackUuid != "" && '/' !in fallbackUuid)
              ==> LastComponent(r) == Lower(fallbackUuid)
  {
    var r := Append(prefixesDir, Slug(name, fallbackUuid));
    assert r[..|prefixesDir| + 1] == prefixesDir + "/";
    assert SlugCore(name) != "" ==> LastComponent(r) == SlugCore(name) by {
      if SlugCore(name) != "" {
        SlugHasNoSlash(name);
        LastComponentOfAppend(prefixesDir, SlugCore(name));
      }
    }
    assert (SlugCore(name) == "" && fallbackUuid != "" && '/' !in fallbackUuid)
             ==> LastComponent(r) == Lower(fallbackUuid) by {
      if SlugCore(name) == "" && fallbackUuid != "" && '/' !in fallbackUuid {
        LowerKeepsSlashFree(fallbackUuid);
        LastComponentOfAppend(prefixesDir, Lower(fallbackUuid));
      }
    }
    r
  }

  /** Lower-casing neither adds nor removes a "/". */
  lemma LowerKeepsSlashFree(s: string)
    requires '/' !in s
    ensures forall j :: 0 <= j < |Lower(s)| ==> Lower(s)[j] != '/'
  {
    forall j | 0 <= j < |Lower(s)|
      ensures Lower(s)[j] != '/'
    {
      assert s[j] in s;
    }
  }

  // ---------------------------------------------------------------------------
  // Operations

  /**
   * `selectGame`: the selection moves to `id`, or to nothing; the games and
   * the status line are kept. A game is then selected exactly when some
   * game carries that id.
   */
  function SelectGame(st: Store, id: Option<nat>): (r: Store)
    ensures r.games == st.games && r.statusMessage == st.statusMessage && r.prefixesDir == st.prefixesDir
    ensures r.selectedId == id
    ensures SelectedGame(r).Some? <==> id.Some? && exists j :: 0 <= j < |st.games| && st.games[j].id == id.value
  {
    st.(selectedId := id)
  }

  /** `addEmptyGame`: a new untitled game with its default prefix, first in the list and selected. */
  method AddEmptyGame(st: Store, id: nat, fallbackUuid: string, now: int) returns (r: Store)
    ensures |r.games| == |st.games| + 1 && r.games[1..] == st.games
    ensures r.games[0].id == id && r.games[0].name !in Names(st.games)
    ensures UntitledName !in Names(st.games) ==> r.games[0].name == UntitledName
    ensures UntitledName in Names(st.games) ==>
      (exists i :: 2 <= i && r.games[0].name == Untitled(i) && forall j :: 2 <= j < i ==> Untitled(j) in Names(st.games))
    ensures r.games[0].prefixDir == DefaultPrefixDir(st.prefixesDir, r.games[0].name, fallbackUuid)
    ensures r.games[0].exePath == "" && r.games[0].gameFolderPath == ""
    ensures SelectedIndex(r) == Some(0)
    ensures r.statusMessage == CreatedMessage && r.prefixesDir == st.prefixesDir
  {
    var name := NextUntitledName(st.games);
    var entry := NewEntry(id, name, DefaultPrefixDir(st.prefixesDir, name, fallbackUuid), now);
    r := st.(games := [entry] + st.games, selectedId := Some(id), statusMessage := CreatedMessage);
    assert r.games[1..] == st.games;
    FirstIndexAt(r.games, HasId(id), 0);
  }

  /**
   * `removeSelectedGame`: without a selection nothing happens; otherwise the
   * selected game leaves the list and the first remaining game, if any, is
   * selected.
   */
  function RemoveSelectedGame(st: Store): (r: Store)
    ensures SelectedIndex(st).None? ==> r == st
    ensures SelectedIndex(st).Some? ==>
              var i := SelectedIndex(st).value;
              && r.games == st.games[..i] + st.games[i + 1..]
              && r.statusMessage == RemovedPrefix + st.games[i].name
              && (if |r.games| == 0 then r.selectedId.None? else SelectedIndex(r) == Some(0))
    ensures r.prefixesDir == st.prefixesDir
  {
    var idx := SelectedIndex(st);
    if idx.None? then st
    else
      var i := idx.value;
      var games := st.games[..i] + st.games[i + 1..];
      var selected := if |games| == 0 then None else Some(games[0].id);
      Store(games, selected, RemovedPrefix + st.games[i].name, st.prefixesDir)
  }

  /** Removing takes out exactly the selected game: one fewer, the rest kept. */
  lemma RemoveTakesOutSelected(st: Store)
    requires SelectedGame(st).Some?
    ensures |RemoveSelectedGame(st).games| == |st.games| - 1
    ensures multiset(RemoveSelectedGame(st).games) + multiset{SelectedGame(st).value} == multiset(st.games)
  {
    var i := SelectedIndex(st).value;
    assert st.games == st.games[..i] + [st.games[i]] + st.games[i + 1..];
  }

  /**
   * `updateSelected`: without a selection nothing happens; otherwise the
   * selected game is changed and stamped with the current time, and nothing
   * else changes.
   */
  function UpdateSelected(st: Store, mutate: GameEntry -> GameEntry, now: int): (r: Store)
    ensures SelectedIndex(st).None? ==> r == st
    ensures |r.games| == |st.games|
    ensures r.selectedId == st.selectedId && r.statusMessage == st.statusMessage && r.prefixesDir == st.prefixesDir
    ensures SelectedIndex(st).Some? ==>
              && r.games[SelectedIndex(st).value] == mutate(st.games[SelectedIndex(st).value]).(updatedAt := now)
              && forall j :: 0 <= j < |st.games| && j != SelectedIndex(st).value ==> r.games[j] == st.games[j]
  {
    var idx := SelectedIndex(st);
    if idx.None? then st
    else st.(games := st.games[idx.value := mutate(st.games[idx.value]).(updatedAt := now)])
  }

  /** The name `renameSelectedGame` stores: the trimmed name, or "未命名游戏" when that is blank. */
  function CleanName(name: string): (r: string)
    ensures |r| > 0 && r[0] !in Whitespace && r[|r| - 1] !in Whitespace
    ensures TrimWhitespace(name) != "" ==> r == TrimWhitespace(name)
    ensures TrimWhitespace(name) == "" ==> r == UnnamedName
  {
    var left := TrimLeft(name, Whitespace);
    var trimmed := TrimRight(left, Whitespace);
    assert |trimmed| > 0 ==> trimmed[0] == left[0];
    UnnamedNameIsClean();
    if trimmed == "" then UnnamedName else trimmed
  }

  lemma UnnamedNameIsClean()
    ensures |UnnamedName| == 5 && UnnamedName[0] !in Whitespace && UnnamedName[4] !in Whitespace
  {
    assert UnnamedName[0] == '未' && UnnamedName[4] == '戏';
  }

  /** A cleaned name is clean. */
  lemma CleanNameIdempotent(name: string)
    ensures CleanName(CleanName(name)) == CleanName(name)
  {
    TrimNoop(CleanName(name), Whitespace);
  }

  function Renamed(name: string): GameEntry -> GameEntry {
    (g: GameEntry) => g.(name := CleanName(name))
  }

  /** `renameSelectedGame`: the selected game gets the cleaned name; nothing else changes. */
  function RenameSelectedGame(st: Store, name: string, now: int): (r: Store)
    ensures SelectedIndex(st).None? ==> r == st
    ensures SelectedIndex(st).Some? ==>
              var i := SelectedIndex(st).value;
              && |r.games| == |st.games|
              && r.games[i] == st.games[i].(name := CleanName(name), updatedAt := now)
              && forall j :: 0 <= j < |st.games| && j != i ==> r.games[j] == st.games[j]
    ensures r.selectedId == st.selectedId && r.statusMessage == st.statusMessage && r.prefixesDir == st.prefixesDir
  {
    UpdateSelected(st, Renamed(name), now)
  }

  /** Renaming keeps the selection on the renamed game. */
  lemma RenameKeepsSelection(st: Store, name: string, now: int)
    ensures SelectedIndex(RenameSelectedGame(st, name, now)) == SelectedIndex(st)
  {
    var r := RenameSelectedGame(st, name, now);
    if SelectedIndex(st).Some? {
      var i := SelectedIndex(st).value;
      FirstIndexAt(r.games, HasId(st.selectedId.value), i);
    } else if st.selectedId.Some? {
      assert forall j :: 0 <= j < |r.games| ==> r.games[j] == st.games[j];
    }
  }

  /** Whether a scan may replace the game's name: it is still the default or blank. */
  predicate NeedsName(g: GameEntry) {
    g.name == UntitledName || TrimWhitespace(g.name) == ""
  }

  /** The change `applyScanResult` makes to the selected game. */
  function ScanUpdate(g: GameEntry, result: GameScanResult, prefixesDir: string, fallbackUuid: string): (r: GameEntry)
    ensures r.id == g.id && r.launchLanguageMode == g.launchLanguageMode && r.updatedAt == g.updatedAt
    ensures r.gameFolderPath == result.folderPath && r.engineHint == result.engine.RawValue()
    ensures r.name == (if NeedsName(g) then LastComponent(result.folderPath) else g.name)
    ensures result.recommendedExePath.Some? ==> r.exePath == result.recommendedExePath.value
    ensures result.recommendedExePath.None? ==> r.exePath == g.exePath
    ensures g.prefixDir != "" ==> r.prefixDir == g.prefixDir
    ensures g.prefixDir == "" ==> r.prefixDir == DefaultPrefixDir(prefixesDir, r.name, fallbackUuid)
    ensures r.prefixDir != ""
  {
    var named := if NeedsName(g) then LastComponent(result.folderPath) else g.name;
    var exe := if result.recommendedExePath.Some? then result.recommendedExePath.value else g.exePath;
    var prefix := if g.prefixDir == "" then DefaultPrefixDir(prefixesDir, named, fallbackUuid) else g.prefixDir;
    g.(gameFolderPath := result.folderPath, engineHint := result.engine.RawValue(),
       name := named, exePath := exe, prefixDir := prefix)
  }

  /** Applying the same scan result twice changes the game no further. */
  lemma ScanUpdateIdempotent(g: GameEntry, result: GameScanResult, prefixesDir: string, fallbackUuid: string, otherUuid: string)
    ensures ScanUpdate(ScanUpdate(g, result, prefixesDir, fallbackUuid), result, prefixesDir, otherUuid)
         == ScanUpdate(g, result, prefixesDir, fallbackUuid)
  {
  }

  function Scanned(result: GameScanResult, prefixesDir: string, fallbackUuid: string): GameEntry -> GameEntry {
    (g: GameEntry) => ScanUpdate(g, result, prefixesDir, fallbackUuid)
  }

  /** The status line after a scan. */
  function ScanMessage(result: GameScanResult): (r: string)
    ensures result.recommendedExePath.Some? <==> r != ScannedWithoutExeMessage
    ensures result.recommendedExePath.Some? ==>
      && |r| >= |ScannedPrefix| && r[..|ScannedPrefix|] == ScannedPrefix
      && r[|ScannedPrefix|..] == LastComponent(result.recommendedExePath.value)
  {
    if result.recommendedExePath.Some? then
      var m := ScannedPrefix + LastComponent(result.recommendedExePath.value);
      assert m[3] == ScannedPrefix[3] != ScannedWithoutExeMessage[3];
      m
    else ScannedWithoutExeMessage
  }

  /**
   * `applyScanResult`: the selected game takes the scanned folder and
   * engine, a name from the folder when it had none, the recommended
   * executable when there is one and a default prefix when it had none;
   * the status line reports the recommendation even without a selection.
   */
  function ApplyScanResult(st: Store, result: GameScanResult, fallbackUuid: string, now: int): (r: Store)
    ensures |r.games| == |st.games|
    ensures SelectedIndex(st).None? ==> r.games == st.games
    ensures r.selectedId == st.selectedId && r.prefixesDir == st.prefixesDir && r.statusMessage == ScanMessage(result)
    ensures SelectedIndex(st).Some? ==>
              var i := SelectedIndex(st).value;
              && r.games[i] == ScanUpdate(st.games[i], result, st.prefixesDir, fallbackUuid).(updatedAt := now)
              && r.games[i].gameFolderPath == result.folderPath
              && (result.recommendedExePath.Some? ==> r.games[i].exePath == result.recommendedExePath.value)
              && (st.games[i].prefixDir == "" ==> r.games[i].prefixDir == DefaultPrefixDir(st.prefixesDir, r.games[i].name, fallbackUuid))
              && r.games[i].prefixDir != ""
              && forall j :: 0 <= j < |st.games| && j != i ==> r.games[j] == st.games[j]
  {
    UpdateSelected(st, Scanned(result, st.prefixesDir, fallbackUuid), now).(statusMessage := ScanMessage(result))
  }

  /** Applying the same scan result again at the same moment leaves the store as it was. */
  lemma ApplyScanResultIdempotent(st: Store, result: GameScanResult, fallbackUuid: string, now: int)
    ensures ApplyScanResult(ApplyScanResult(st, result, fallbackUuid, now), result, fallbackUuid, now)
         == ApplyScanResult(st, result, fallbackUuid, now)
  {
    var once := ApplyScanResult(st, result, fallbackUuid, now);
    if SelectedIndex(st).Some? {
      var i := SelectedIndex(st).value;
      FirstIndexAt(once.games, HasId(st.selectedId.value), i);
      ScanUpdateIdempotent(st.games[i], result, st.prefixesDir, fallbackUuid, fallbackUuid);
      var twice := ApplyScanResult(once, result, fallbackUuid, now);
      assert twice.games == once.games;
    } else if st.selectedId.Some? {
      assert forall j :: 0 <= j < |once.games| ==> once.games[j] == st.games[j];
    }
  }
}

=== FILE: text.dfy ===
/**
 * String helpers standing in for the Foundation string API the launcher uses:
 * `lowercased()`, `contains`, `hasPrefix`/`hasSuffix`, `split`,
 * `replacingOccurrences`, `joined(separator:)`, `trimmingCharacters(in:)`,
 * integer interpolation and case-insensitive comparison.
 */
module Text {

  // ---------------------------------------------------------------------------
  // Character classes

  predicate IsAsciiUpper(c: char) {
    'A' <= c <= 'Z'
  }

  /** `Character.lowercased()` restricted to ASCII: A-Z map to a-z, all else is kept. */
  function LowerChar(c: char): (d: char)
    ensures !IsAsciiUpper(d)
    ensures d == c || IsAsciiUpper(c)
  {
    if IsAsciiUpper(c) then (c as int + 32) as char else c
  }

  /** `String.lowercased()` over ASCII. */
  function Lower(s: string): (r: string)
    ensures |r| == |s|
    ensures forall i :: 0 <= i < |s| ==> r[i] == LowerChar(s[i])
  {
    if |s| == 0 then [] else [LowerChar(s[0])] + Lower(s[1..])
  }

  /**
   * `isLetter || isNumber`: ASCII letters and digits, Hiragana, Katakana and
   * the CJK Unified Ideographs block. Other scripts are not classified.
   */
  predicate IsLetterOrNumber(c: char) {
    || 'a' <= c <= 'z'
    || 'A' <= c <= 'Z'
    || '0' <= c <= '9'
    || '\U{3040}' <= c <= '\U{30FF}'
    || '\U{4E00}' <= c <= '\U{9FFF}'
  }

  /** `CharacterSet.whitespacesAndNewlines`: the Unicode White_Space code points. */
  const Whitespace: set<char> := {
    '\t', '\n', '\U{B}', '\U{C}', '\r', ' ', '\U{85}', '\U{A0}', '\U{1680}',
    '\U{2000}', '\U{2001}', '\U{2002}', '\U{2003}', '\U{2004}', '\U{2005}',
    '\U{2006}', '\U{2007}', '\U{2008}', '\U{2009}', '\U{200A}', '\U{2028}',
    '\U{2029}', '\U{202F}', '\U{205F}', '\U{3000}'
  }

  // ---------------------------------------------------------------------------
  // Prefixes, suffixes and substrings

  /** `s.hasPrefix(p)`, compared character by character. */
  predicate IsPrefix(p: string, s: string) {
    |p| == 0 || (|s| > 0 && p[0] == s[0] && IsPrefix(p[1..], s[1..]))
  }

  /** `s.hasSuffix(p)`. */
  predicate HasSuffix(s: string, p: string) {
    |p| <= |s| && IsPrefix(p, s[|s| - |p|..])
  }

  /** `s.contains(p)`: `p` occurs somewhere in `s`. */
  predicate Contains(s: string, p: string)
    decreases |s|
  {
    IsPrefix(p, s) || (|s| > 0 && Contains(s[1..], p))
  }

  lemma {:induction false} IsPrefixIff(p: string, s: string)
    ensures IsPrefix(p, s) <==> |p| <= |s| && s[..|p|] == p
  {
    if |p| > 0 && |s| > 0 {
      IsPrefixIff(p[1..], s[1..]);
      if |p| <= |s| && s[..|p|] == p {
        assert s[1..][..|p| - 1] == s[..|p|][1..];
      }
      if IsPrefix(p, s) {
        assert s[..|p|] == [s[0]] + s[1..][..|p| - 1];
        assert p == [p[0]] + p[1..];
      }
    }
  }

  /** `p` occurs in `s` starting at position `i`. */
  ghost predicate OccursAt(s: string, p: string, i: int) {
    0 <= i <= |s| - |p| && s[i..i + |p|] == p
  }

  /** The recursive `Contains` agrees with the positional definition of a substring. */
  lemma {:induction false} ContainsIff(s: string, p: string)
    ensures Contains(s, p) <==> exists i :: OccursAt(s, p, i)
    decreases |s|
  {
    IsPrefixIff(p, s);
    if |s| > 0 {
      ContainsIff(s[1..], p);
      if Contains(s[1..], p) {
        var i :| OccursAt(s[1..], p, i);
        assert s[1..][i..i + |p|] == s[i + 1..i + 1 + |p|];
        assert OccursAt(s, p, i + 1);
      }
      if IsPrefix(p, s) {
        assert OccursAt(s, p, 0);
      }
      if i :| OccursAt(s, p, i) {
        if i > 0 {
          assert s[1..][i - 1..i - 1 + |p|] == s[i..i + |p|];
          assert OccursAt(s[1..], p, i - 1);
        } else {
          assert s[..|p|] == p;
        }
      }
    } else if |p| == 0 {
      assert OccursAt(s, p, 0);
    }
  }

  lemma {:induction false} ContainsSelf(s: string)
    ensures Contains(s, s)
  {
    IsPrefixIff(s, s);
  }

  /** A string that contains `p` is at least as long as `p`. */
  lemma ContainsLength(s: string, p: string)
    requires Contains(s, p)
    ensures |p| <= |s|
  {
    ContainsIff(s, p);
  }

  /** Containment is transitive: whatever `p` contains, a string containing `p` contains too. */
  lemma ContainsWithin(s: string, p: string, q: string)
    requires Contains(s, p) && Contains(p, q)
    ensures Contains(s, q)
  {
    ContainsIff(s, p);
    ContainsIff(p, q);
    ContainsIff(s, q);
    var i :| OccursAt(s, p, i);
    var j :| OccursAt(p, q, j);
    forall k | 0 <= k < |q|
      ensures s[i + j + k] == q[k]
    {
      assert s[i + j + k] == s[i..i + |p|][j + k] == p[j + k] == p[j..j + |q|][k];
    }
    assert s[i + j..i + j + |q|] == q;
    assert OccursAt(s, q, i + j);
  }

  /** An occurrence wholly inside the left part of a concatenation is an occurrence in that part. */
  lemma OccursLeft(a: string, b: string, p: string, i: int)
    requires 0 <= i && i + |p| <= |a|
    ensures OccursAt(a + b, p, i) <==> OccursAt(a, p, i)
  {
    assert (a + b)[i..i + |p|] == a[i..i + |p|];
  }

  /** Occurrences in the right part of a concatenation are shifted by the left part's length. */
  lemma OccursRight(a: string, b: string, p: string, i: int)
    requires 0 <= i
    ensures OccursAt(a + b, p, |a| + i) <==> OccursAt(b, p, i)
  {
    if i + |p| <= |b| {
      assert (a + b)[|a| + i..|a| + i + |p|] == b[i..i + |p|];
    }
  }

  /** An occurrence that straddles the separator has the separator inside it. */
  lemma SeamChar(x: string, sep: char, y: string, p: string, i: int)
    requires OccursAt(x + [sep] + y, p, i) && i <= |x| < i + |p|
    ensures p[|x| - i] == sep
  {
    var s := x + [sep] + y;
    assert s[i..i + |p|][|x| - i] == s[|x|];
  }

  /** A piece without the separator that occurs in a joined string occurs in one side. */
  lemma ContainsInSide(x: string, sep: char, y: string, p: string)
    requires forall j :: 0 <= j < |p| ==> p[j] != sep
    requires Contains(x + [sep] + y, p)
    ensures Contains(x, p) || Contains(y, p)
  {
    var s := x + [sep] + y;
    ContainsIff(s, p);
    var i :| OccursAt(s, p, i);
    if i + |p| <= |x| {
      assert s == x + ([sep] + y);
      OccursLeft(x, [sep] + y, p, i);
      ContainsIff(x, p);
    } else if i > |x| {
      OccursRight(x + [sep], y, p, i - |x| - 1);
      ContainsIff(y, p);
    } else {
      SeamChar(x, sep, y, p, i);
    }
  }

  /** A piece that occurs in either side occurs in the joined string. */
  lemma ContainsFromSide(x: string, sep: char, y: string, p: string)
    requires Contains(x, p) || Contains(y, p)
    ensures Contains(x + [sep] + y, p)
  {
    var s := x + [sep] + y;
    ContainsIff(s, p);
    if Contains(x, p) {
      ContainsIff(x, p);
      var i :| OccursAt(x, p, i);
      assert s == x + ([sep] + y);
      OccursLeft(x, [sep] + y, p, i);
    } else {
      ContainsIff(y, p);
      var i :| OccursAt(y, p, i);
      OccursRight(x + [sep], y, p, i);
    }
  }

  /** A piece that contains no separator occurs in a joined string exactly when it occurs in one side. */
  lemma ContainsAcrossSeparator(x: string, sep: char, y: string, p: string)
    requires forall j :: 0 <= j < |p| ==> p[j] != sep
    ensures Contains(x + [sep] + y, p) <==> Contains(x, p) || Contains(y, p)
  {
    if Contains(x + [sep] + y, p) {
      ContainsInSide(x, sep, y, p);
    }
    if Contains(x, p) || Contains(y, p) {
      ContainsFromSide(x, sep, y, p);
    }
  }

  // ---------------------------------------------------------------------------
  // Maximal runs (String.split with omitted empty pieces)

  function Flush(cur: string): (r: seq<string>)
  {
    if cur == [] then [] else [cur]
  }

  /** Every piece is non-empty and made of kept characters. */
  ghost predicate WellFormedRuns(rs: seq<string>, keep: char -> bool) {
    forall k :: 0 <= k < |rs| ==> |rs[k]| > 0 && forall j :: 0 <= j < |rs[k]| ==> keep(rs[k][j])
  }

  /** Scans `s` with the partial run `cur` already open. */
  function RunsFrom(s: string, keep: char -> bool, cur: string): (r: seq<string>)
    requires forall j :: 0 <= j < |cur| ==> keep(cur[j])
    ensures WellFormedRuns(r, keep)
    decreases |s|
  {
    if |s| == 0 then Flush(cur)
    else if keep(s[0]) then RunsFrom(s[1..], keep, cur + [s[0]])
    else Flush(cur) + RunsFrom(s[1..], keep, [])
  }

  /**
   * The maximal runs of characters satisfying `keep`, in order: Swift's
   * `s.split(whereSeparator: { !keep($0) })`.
   */
  function Runs(s: string, keep: char -> bool): (r: seq<string>)
    ensures WellFormedRuns(r, keep)
  {
    RunsFrom(s, keep, [])
  }

  lemma {:induction false} RunsFromKept(w: string, keep: char -> bool, cur: string)
    requires forall j :: 0 <= j < |cur| ==> keep(cur[j])
    requires forall j :: 0 <= j < |w| ==> keep(w[j])
    ensures RunsFrom(w, keep, cur) == Flush(cur + w)
    decreases |w|
  {
    if |w| > 0 {
      RunsFromKept(w[1..], keep, cur + [w[0]]);
      assert cur + [w[0]] + w[1..] == cur + w;
    } else {
      assert cur + w == cur;
    }
  }

  lemma {:induction false} RunsFromSeparator(x: string, sep: char, y: string, keep: char -> bool, cur: string)
    requires forall j :: 0 <= j < |cur| ==> keep(cur[j])
    requires !keep(sep)
    ensures RunsFrom(x + [sep] + y, keep, cur) == RunsFrom(x, keep, cur) + Runs(y, keep)
    decreases |x|
  {
    if |x| == 0 {
      assert x + [sep] + y == [sep] + y;
      assert ([sep] + y)[1..] == y;
    } else {
      assert (x + [sep] + y)[0] == x[0];
      assert (x + [sep] + y)[1..] == x[1..] + [sep] + y;
      if keep(x[0]) {
        RunsFromSeparator(x[1..], sep, y, keep, cur + [x[0]]);
      } else {
        RunsFromSeparator(x[1..], sep, y, keep, []);
      }
    }
  }

  /** A non-empty string of kept characters is a single run. */
  lemma RunsOfWord(w: string, keep: char -> bool)
    requires |w| > 0
    requires forall j :: 0 <= j < |w| ==> keep(w[j])
    ensures Runs(w, keep) == [w]
  {
    RunsFromKept(w, keep, []);
    assert [] + w == w;
  }

  /** Splitting at a separator character splits the runs: no run crosses a separator. */
  lemma RunsAtSeparator(x: string, sep: char, y: string, keep: char -> bool)
    requires !keep(sep)
    ensures Runs(x + [sep] + y, keep) == Runs(x, keep) + Runs(y, keep)
  {
    RunsFromSeparator(x, sep, y, keep, []);
  }

  // ---------------------------------------------------------------------------
  // Replacing, joining, trimming

  /** `s.replacingOccurrences(of: from, with: to)` for single characters. */
  function ReplaceChar(s: string, from: char, to: char): (r: string)
    ensures |r| == |s|
    ensures forall i :: 0 <= i < |s| ==> r[i] == (if s[i] == from then to else s[i])
  {
    if |s| == 0 then [] else [if s[0] == from then to else s[0]] + ReplaceChar(s[1..], from, to)
  }

  /** `parts.joined(separator: sep)`. */
  function Join(parts: seq<string>, sep: string): (r: string)
    ensures |parts| == 1 ==> r == parts[0]
    ensures |parts| == 0 ==> r == []
  {
    if |parts| == 0 then []
    else if |parts| == 1 then parts[0]
    else parts[0] + sep + Join(parts[1..], sep)
  }

  lemma {:induction false} JoinAppend(parts: seq<string>, last: string, sep: string)
    requires |parts| > 0
    ensures Join(parts + [last], sep) == Join(parts, sep) + sep + last
    decreases |parts|
  {
    if |parts| == 1 {
      assert parts + [last] == [parts[0], last];
    } else {
      assert (parts + [last])[1..] == parts[1..] + [last];
      JoinAppend(parts[1..], last, sep);
    }
  }

  /** Drops the leading characters that belong to `cs`. */
  function TrimLeft(s: string, cs: set<char>): (r: string)
    ensures |r| <= |s| && r == s[|s| - |r|..]
    ensures forall i :: 0 <= i < |s| - |r| ==> s[i] in cs
    ensures |r| > 0 ==> r[0] !in cs
  {
    if |s| > 0 && s[0] in cs then TrimLeft(s[1..], cs) else s
  }

  /** Drops the trailing characters that belong to `cs`. */
  function TrimRight(s: string, cs: set<char>): (r: string)
    ensures |r| <= |s| && r == s[..|r|]
    ensures forall i :: |r| <= i < |s| ==> s[i] in cs
    ensures |r| > 0 ==> r[|r| - 1] !in cs
  {
    if |s| > 0 && s[|s| - 1] in cs then TrimRight(s[..|s| - 1], cs) else s
  }

  /** `s.trimmingCharacters(in: cs)`. */
  function Trim(s: string, cs: set<char>): (r: string)
  {
    TrimRight(TrimLeft(s, cs), cs)
  }

  /**
   * Trimming keeps a contiguous middle part of `s`, removes only characters of
   * `cs`, and leaves neither end in `cs`.
   */
  lemma TrimSpec(s: string, cs: set<char>)
    ensures exists a, b ::
              && 0 <= a <= b <= |s| && Trim(s, cs) == s[a..b]
              && (forall i :: 0 <= i < a ==> s[i] in cs)
              && (forall i :: b <= i < |s| ==> s[i] in cs)
    ensures |Trim(s, cs)| > 0 ==> Trim(s, cs)[0] !in cs && Trim(s, cs)[|Trim(s, cs)| - 1] !in cs
    ensures Trim(s, cs) == [] <==> forall i :: 0 <= i < |s| ==> s[i] in cs
  {
    var a, b := TrimBounds(s, cs);
    TrimEnds(s, cs);
  }

  /** Where the trimmed middle part starts and ends. */
  lemma TrimBounds(s: string, cs: set<char>) returns (a: nat, b: nat)
    ensures a <= b <= |s| && Trim(s, cs) == s[a..b]
    ensures forall i :: 0 <= i < a ==> s[i] in cs
    ensures forall i :: b <= i < |s| ==> s[i] in cs
  {
    var l := TrimLeft(s, cs);
    var r := TrimRight(l, cs);
    a := |s| - |l|;
    b := a + |r|;
    assert r == s[a..b];
    forall i | b <= i < |s|
      ensures s[i] in cs
    {
      assert s[i] == l[i - a];
    }
  }

  lemma TrimEnds(s: string, cs: set<char>)
    ensures |Trim(s, cs)| > 0 ==> Trim(s, cs)[0] !in cs && Trim(s, cs)[|Trim(s, cs)| - 1] !in cs
  {
    var l := TrimLeft(s, cs);
    var r := TrimRight(l, cs);
    if |r| > 0 {
      assert r[0] == l[0];
    }
  }

  /** Trimming a string whose ends are already outside `cs` changes nothing. */
  lemma TrimNoop(s: string, cs: set<char>)
    requires |s| > 0 ==> s[0] !in cs && s[|s| - 1] !in cs
    ensures Trim(s, cs) == s
  {
    var l := TrimLeft(s, cs);
    assert l == s;
    var r := TrimRight(s, cs);
  }

  /** `s.trimmingCharacters(in: .whitespacesAndNewlines)`. */
  function TrimWhitespace(s: string): (r: string)
  {
    Trim(s, Whitespace)
  }

  // ---------------------------------------------------------------------------
  // Decimal rendering of integers (string interpolation of an `Int`)

  function DigitChar(d: nat): (c: char)
    requires d < 10
    ensures '0' <= c <= '9'
  {
    ('0' as int + d) as char
  }

  /** `"\(n)"` for a non-negative `Int`. */
  function NatToString(n: nat): (r: string)
    ensures |r| > 0
    ensures forall j :: 0 <= j < |r| ==> '0' <= r[j] <= '9'
    ensures n < 10 <==> |r| == 1
  {
    if n < 10 then [DigitChar(n)] else NatToString(n / 10) + [DigitChar(n % 10)]
  }

  predicate AllDigits(s: string) {
    forall j :: 0 <= j < |s| ==> '0' <= s[j] <= '9'
  }

  /** The value of a run of decimal digits, read most significant first; leading zeros add nothing. */
  function DigitsValue(s: string): nat
    requires AllDigits(s)
  {
    if |s| == 0 then 0 else 10 * DigitsValue(s[..|s| - 1]) + (s[|s| - 1] as int - '0' as int)
  }

  /** `s` is decimal digits reading `v`. */
  predicate DecimalOf(s: string, v: nat) {
    AllDigits(s) && DigitsValue(s) == v
  }

  /** Reading back a rendered number gives the number. */
  lemma {:induction false} NatToStringValue(n: nat)
    ensures DecimalOf(NatToString(n), n)
  {
    if n >= 10 {
      var s := NatToString(n);
      assert s[..|s| - 1] == NatToString(n / 10);
      NatToStringValue(n / 10);
    }
  }

  /** Leading zeros do not change the value. */
  lemma {:induction false} LeadingZeros(z: string, s: string)
    requires forall j :: 0 <= j < |z| ==> z[j] == '0'
    requires AllDigits(s)
    ensures DecimalOf(z + s, DigitsValue(s))
    decreases |s|
  {
    if |s| == 0 {
      assert z + s == z;
      ZerosValue(z);
    } else {
      assert (z + s)[..|z + s| - 1] == z + s[..|s| - 1];
      LeadingZeros(z, s[..|s| - 1]);
    }
  }

  lemma {:induction false} ZerosValue(z: string)
    requires forall j :: 0 <= j < |z| ==> z[j] == '0'
    ensures DecimalOf(z, 0)
  {
    if |z| > 0 {
      ZerosValue(z[..|z| - 1]);
    }
  }

  /** Distinct numbers render as distinct strings. */
  lemma {:induction false} NatToStringInjective(m: nat, n: nat)
    requires NatToString(m) == NatToString(n)
    ensures m == n
    decreases m
  {
    var s := NatToString(m);
    if m >= 10 {
      assert n >= 10;
      assert s[|s| - 1] == DigitChar(m % 10) == DigitChar(n % 10);
      assert s[..|s| - 1] == NatToString(m / 10) == NatToString(n / 10);
      NatToStringInjective(m / 10, n / 10);
    }
  }

  // ---------------------------------------------------------------------------
  // Ordering

  /** Strict lexicographic order by code point; a proper prefix comes first. */
  predicate LexLess(a: string, b: string) {
    if |a| == 0 then |b| > 0
    else if |b| == 0 then false
    else if a[0] != b[0] then a[0] < b[0]
    else LexLess(a[1..], b[1..])
  }

  lemma {:induction false} LexLessIrreflexive(a: string)
    ensures !LexLess(a, a)
  {
    if |a| > 0 {
      LexLessIrreflexive(a[1..]);
    }
  }

  lemma {:induction false} LexLessTransitive(a: string, b: string, c: string)
    requires LexLess(a, b) && LexLess(b, c)
    ensures LexLess(a, c)
  {
    if |a| > 0 && a[0] == b[0] && b[0] == c[0] {
      LexLessTransitive(a[1..], b[1..], c[1..]);
    }
  }

  lemma {:induction false} LexLessTotal(a: string, b: string)
    ensures a == b || LexLess(a, b) || LexLess(b, a)
  {
    if |a| > 0 && |b| > 0 && a[0] == b[0] {
      LexLessTotal(a[1..], b[1..]);
      if a[1..] == b[1..] {
        assert a == [a[0]] + a[1..];
        assert b == [b[0]] + b[1..];
      }
    }
  }
}

=== FILE: wrappers.dfy ===
/** Optional values and typed errors, standing in for Swift optionals and `throws`. */
module Wrappers {

  /** Swift's `T?`: either a value or nothing. */
  datatype Option<+T> = None | Some(value: T) {

    /** The value, or `default` when there is none (Swift's `??`). */
    function GetOr(default: T): (r: T)
      ensures Some? ==> r == value
      ensures None? ==> r == default
    {
      match this
      case Some(v) => v
      case None => default
    }
  }

  /** The outcome of a throwing Swift function: a value or the error it throws. */
  datatype Result<+T, +E> = Success(value: T) | Failure(error: E) {

    predicate IsFailure() {
      Failure?
    }

    function PropagateFailure<U>(): Result<U, E>
      requires Failure?
    {
      Failure(error)
    }

    function Extract(): T
      requires Success?
    {
      value
    }
  }
}
